=== FILE: README.md ===
# Donation edge functions of ad-backend, modelled in Dafny

This project models the Supabase edge functions of ad-backend. The backend connects
restaurants that have surplus food with social organisations (OSCs) that collect it. The
model covers the following parts:

- **Shared library.** CNPJ check digits (`_lib/cnpj.ts`). CEP validation and the ViaCEP
  reply mapping (`_lib/cep.ts`). The CORS origin allow-list (`_lib/cors.ts`). The
  progressive Nominatim geocoding plan (`_lib/geocode.ts`).
- **Legacy donation flow.** `liberate_donation` picks the nearest active OSC and inserts a
  pending donation with a six-character security code. `accept_donation`, `deny_donation`,
  `osc_deny_donation` and `release_donation` then move it along
  `pending → accepted | denied` and `accepted → picked_up`. Each move is one conditional
  update keyed on the security code and the expected status.
- **Intent-era handlers.** `osc_accept_donation`, `restaurant_release_donation` and
  `restaurant_create_donation` call database RPCs and map the RPC error strings to HTTP
  replies.
- **Partnerships.** `cf_update_favorite` and `cf_create_partnership` change the set of
  restaurant–OSC partnerships and its favourite flag.
- **Donation details and notifications.** `osc_get_donation_details` shows a donation's
  packages with their weight in kilograms. `util_send_notifications` and
  `send_notifications` build the chat message for a new donation.

Everything is pure. A table is a `seq` of rows. A handler is a function from the request,
the parsed body and the tables to a reply. The reply comes with the new tables and the list
of outbound calls made: RPCs, function invocations and webhook posts. The answers of the
database, Nominatim and the webhook are inputs.

Some conventions are shared by all modules:

- A body whose `req.json()` threw is `Failure(message)` or `None`.
- A JSON field that is "falsy" is `None` or the empty string. This is `Http.Present`.
- `Request.authorization` is the header value as `headers.get` returns it, with surrounding
  HTTP whitespace already stripped. A raw `Authorization: Bearer ` therefore arrives as
  "Bearer", which contains no "Bearer " and passes the JWT guard as the token "Bearer".
- An exception that escapes a handler is the reply `Unhandled`.
- `.single()` succeeds only on exactly one matching row. On 0 or several rows it fails
  with the PostgREST message `JSON object requested, multiple (or no) rows returned`.

The modules are:

| file | module | models |
|---|---|---|
| base.dfy | `Base` | `Option`, `Result` |
| text.dfy | `Text` | `\D` removal, ECMAScript `trim`, `includes`, `replace`, `join`, `split`, `filter` |
| http.dfy | `Http` | requests, replies, outbound effects, the `Bearer` JWT extraction |
| cnpj.dfy | `Cnpj` | `validateCnpj` |
| cep.dfy | `Cep` | `validateCep`, the pure part of `fetchCepInfo` |
| cors.dfy | `Cors` | `normalize`, `ALLOWED`, `NETLIFY_PREVIEW`, `isAllowed`, `corsHeaders`, `handleCors` |
| geocode.dfy | `Geocode` | `safeTrim`, the CEP guard, the attempt plan of `geocodeByCep`, `pack` |
| donations.dfy | `Donations` | the legacy `donations` table, its conditional update, `.single()` by id |
| legacy_handlers.dfy | `LegacyHandlers` | `accept_donation`, `deny_donation`, `osc_deny_donation`, `release_donation` |
| liberate.dfy | `Liberate` | `liberate_donation` |
| intent_handlers.dfy | `IntentHandlers` | `osc_accept_donation`, `restaurant_release_donation`, `restaurant_create_donation` |
| partnerships.dfy | `Partnerships` | `cf_update_favorite`, `cf_create_partnership` |
| donation_details.dfy | `DonationDetails` | `osc_get_donation_details` |
| notifications.dfy | `Notifications` | `util_send_notifications`, `send_notifications` |

### Behaviour of the legacy flow worth knowing

- **`liberate_donation` only inserts.** It inserts the donation and its package links. It
  does not mark the packages and does not move the chosen OSC's `last_received_at`.
- **A denial is final.** The legacy handlers change the donation's own `status` column.
  Nothing offers a denied donation to another OSC.
- **A second pickup returns 404.** `release_donation` answers a second pickup of the same
  code with 404 `NOT_FOUND_OR_WRONG_STATUS` and leaves the table as the first pickup left
  it (`LegacyHandlers.ReleaseTwiceFails`).

## Model

| member | source | states |
|---|---|---|
| Cnpj.WeightedSumsAgree | supabase/functions/_lib/cnpj.ts:6-8 | the recursive weighted sum equals the left-to-right `reduce` of digit × factor |
| Cnpj.CheckDigit | supabase/functions/_lib/cnpj.ts:11-16 | the check digit is in 0..9 and completes the weighted sum to a multiple of 11, or is 0 when the remainder is 1 |
| Cnpj.ValidateCnpj | supabase/functions/_lib/cnpj.ts:2-18 | accepts exactly when the extracted digits are 14, not all the same, and both check digits match the independent rule `IsCnpj` |
| Cnpj.IgnoresFormatting | supabase/functions/_lib/cnpj.ts:3 | the verdict depends only on the digits, so `.`, `/` and `-` are ignored |
| Cnpj.WithCheckDigits | supabase/functions/_lib/cnpj.ts:10-16 | appending the two computed check digits to a 12-digit base gives 14 digits that start with the base |
| Cnpj.CheckDigitsRoundTrip | supabase/functions/_lib/cnpj.ts:10-18 | any base completed with its check digits is accepted, unless all 14 digits are the same |
| Cnpj.RepeatedDigitsPassOnlyForZero | supabase/functions/_lib/cnpj.ts:4-18 | among the ten repeated-digit strings only `00000000000000` has matching check digits, so the repetition test rejects only that one valid-looking input |
| Cep.ValidateCep | supabase/functions/_lib/cep.ts:2-4 | true iff exactly 8 decimal digits remain once non-digits are removed |
| Cep.ValidateCepOfDigits | supabase/functions/_lib/cep.ts:3 | validating the digit-only form gives the same verdict |
| Cep.HyphenIgnored | supabase/functions/_lib/cep.ts:3 | inserting a hyphen anywhere does not change the verdict |
| Cep.AcceptsFormattedCep | supabase/functions/_lib/cep.ts:2-4 | "01310-200" and "01310200" are both accepted |
| Cep.RejectsSevenDigits | supabase/functions/_lib/cep.ts:3 | the seven-digit example "0131020" is rejected |
| Cep.RejectsNineDigits | supabase/functions/_lib/cep.ts:3 | the nine-digit example "013102000" is rejected |
| Cep.CepInfoOfReply | supabase/functions/_lib/cep.ts:19-28 | a non-ok reply fails with "ViaCEP fail" and `erro` fails with "CEP not found"; otherwise the result renames the four address fields |
| Cep.ViaCepUrl | supabase/functions/_lib/cep.ts:15-18 | the lookup URL starts with `VIACEP_URL` (or the public service when unset) and a slash, and ends with "/json/" |
| Cep.ViaCepUrlIgnoresHyphen | supabase/functions/_lib/cep.ts:16-18 | a hyphen anywhere in the CEP does not change the URL asked for |
| Cep.ViaCepUrlOfValidCep | supabase/functions/_lib/cep.ts:16-18 | for a valid CEP the path segment after the base is exactly eight decimal digits, followed by "/json/" |
| Cep.FormattedCepSameUrl | supabase/functions/_lib/cep.ts:16-18 | "01310-200" and "01310200" ask for the same URL |
| Cors.Normalize | supabase/functions/_lib/cors.ts:12-14 | the normal form is no longer than the input, has no upper-case letter and no trailing slash |
| Cors.AllowedSet | supabase/functions/_lib/cors.ts:8-19 | the allow-list holds exactly the normal forms of the set, non-empty `APP_URL` and `ADMIN_URL` |
| Cors.IsAllowed | supabase/functions/_lib/cors.ts:25-29 | a missing or empty origin is refused; otherwise the origin is admitted iff its normal form is listed or matches the preview pattern |
| Cors.NormalizeOfLower | supabase/functions/_lib/cors.ts:12-14 | lower-casing first does not change the normal form |
| Cors.AllowanceIgnoresCase | supabase/functions/_lib/cors.ts:25-29 | two origins equal up to ASCII case are admitted alike |
| Cors.NormalizeIgnoresTrailingSlash | supabase/functions/_lib/cors.ts:13 | a trailing slash does not change the normal form |
| Cors.AllowanceIgnoresTrailingSlash | supabase/functions/_lib/cors.ts:25-29 | a trailing slash does not change whether an origin is admitted |
| Cors.NoOriginNotAllowed | supabase/functions/_lib/cors.ts:26 | no origin and the empty origin are refused |
| Cors.UnconfiguredAdmitsOnlyPreviews | supabase/functions/_lib/cors.ts:8-29 | with neither URL configured, exactly the preview origins are admitted |
| Cors.BlankConfiguredUrlAdmitsSlashOrigin | supabase/functions/_lib/cors.ts:17-19 | an `APP_URL` of one space survives the `filter(Boolean)` and normalises to "", which admits the origin "/" |
| Cors.PreviewNormalizes | supabase/functions/_lib/cors.ts:13 | a preview origin normalises to itself with the middle lower-cased |
| Cors.PreviewHostsAdmitted | supabase/functions/_lib/cors.ts:22-28 | every `https://<middle>--admin-cf.netlify.app` whose middle has no line terminator is admitted, whatever the allow-list |
| Cors.CorsHeaders | supabase/functions/_lib/cors.ts:32-44 | an admitted origin gets exactly the five CORS headers: the origin echoed, `Vary: Origin`, methods "GET, POST, PUT, DELETE, OPTIONS", headers "Authorization, Content-Type, x-client-info, apikey" and credentials "true". Any other origin gets no headers |
| Cors.ShoutedOriginAllowed | supabase/functions/_lib/cors.ts:25-29 | upper-casing an admitted origin and appending "/" keeps it admitted |
| Cors.EchoIsNotNormalised | supabase/functions/_lib/cors.ts:35 | such an origin is echoed as received, not in its normal form, so the echo differs from the admitted origin it was derived from |
| Cors.EchoVerbatim | supabase/functions/_lib/cors.ts:35 | `Access-Control-Allow-Origin` is the received origin itself |
| Cors.HandleCors | supabase/functions/_lib/cors.ts:47-55 | exactly OPTIONS gets a 204 carrying `corsHeaders` of the request's origin |
| Geocode.SafeTrim | supabase/functions/_lib/geocode.ts:124-128 | null stays null; an all-blank string becomes null; anything else becomes its ECMAScript trim, which is non-empty and trimmed |
| Geocode.SafeTrimKeepsTrimmed | supabase/functions/_lib/geocode.ts:124-128 | a non-empty trimmed string is kept as it is |
| Geocode.SafeTrimIdempotent | supabase/functions/_lib/geocode.ts:124-128 | applying it twice is applying it once |
| Geocode.CleanCep | supabase/functions/_lib/geocode.ts:43 | the cleaned CEP holds only digits, and a missing CEP cleans to "" |
| Geocode.CepGuardIsValidateCep | supabase/functions/_lib/geocode.ts:43-46 | the geocoder's 8-digit guard agrees with `validateCep` |
| Geocode.Attempts | supabase/functions/_lib/geocode.ts:72-118 | the plan has 1 to 4 queries. The full query is there iff street, number, city and uf are all set. The street query is there iff street, city and uf are set. The city query is there iff city and uf are set. The postal-code query always comes last. Every query pins postalcode, country "Brazil" and countrycodes "br" |
| Geocode.Interpret | supabase/functions/_lib/geocode.ts:63-69 | a non-ok reply is an error, an ok reply without rows is a miss, and otherwise the first row is the hit |
| Geocode.Pack | supabase/functions/_lib/geocode.ts:130-138 | the result echoes the trimmed address fields and takes lat/lon from the hit |
| Geocode.Run | supabase/functions/_lib/geocode.ts:72-120 | queries are issued in plan order and stop at the first hit or error. Every earlier query missed. Success means the last query hit, and an exhausted plan fails with "Não foi possível obter coordenadas…" |
| Geocode.GeocodeByCep | supabase/functions/_lib/geocode.ts:37-121 | an invalid CEP fails with "CEP inválido…" before any query. Otherwise the issued queries are a prefix of the plan for the trimmed fields, each pinned to the cleaned CEP, and every issued query but the last missed. The call succeeds iff the last issued query found a row, and then returns that row's lat/lon with the trimmed fields. A failed search ends with its error, and a miss on the last query means the whole plan was issued and the call fails with "Não foi possível obter coordenadas…" |
| Geocode.FirstHitWins | supabase/functions/_lib/geocode.ts:72-118 | if every query before the j-th misses and the j-th hits, exactly the first j+1 queries are issued and the j-th hit is packed |
| Geocode.AllMissesExhaustPlan | supabase/functions/_lib/geocode.ts:110-120 | when every query misses, the whole plan is issued and the call fails with the no-coordinates message |
| Geocode.PostalOnlyReached | supabase/functions/_lib/geocode.ts:110-118 | with a valid CEP and all earlier queries missing, the postal-code-only query is issued |
| Geocode.GeocodeFirstHitWins | supabase/functions/_lib/geocode.ts:72-120 | for a valid CEP, when the j-th planned query is the first to find a row, exactly the first j+1 queries are issued and the call returns that row's coordinates |
| Http.Jwt | supabase/functions/release_donation/index.ts:21-22 | a token is found only in a present header, and a header without "Bearer " is taken whole |
| Http.JwtOfBearer | supabase/functions/release_donation/index.ts:21 | `Bearer <token>` yields exactly the token |
| Http.JwtMissingIff | supabase/functions/release_donation/index.ts:21-22 | for the header value as `headers.get` returns it, the JWT guard fires exactly for a missing header, an empty header, or the bare prefix "Bearer " |
| Donations.Update | supabase/functions/accept_donation/index.ts:15-20 | exactly the rows with the code and the expected status are changed, each to the new status with `now` in the named column. Each returned row has the new status and the code, the first is a rewritten selected row, and there are none iff nothing matched |
| Donations.UpdateTakesLegalSteps | supabase/functions/accept_donation/index.ts:17-19 | a legal transition changes each row by a legal step or not at all |
| Donations.TerminalRowsStable | supabase/functions/release_donation/index.ts:44-49 | denied and picked-up rows are never touched |
| Donations.UpdateLeavesNothingSelected | supabase/functions/accept_donation/index.ts:15-20 | after an update no row matches it any more, so repeating it changes nothing and returns no rows |
| Donations.UpdateOtherCodeUnchanged | supabase/functions/accept_donation/index.ts:18-19 | a row with another code or another status is left alone |
| Donations.SingleNamed | supabase/functions/release_donation/index.ts:65-69 | the lookup succeeds iff exactly one row has the id; otherwise it fails with the PostgREST single-row message |
| Donations.SingleNamedFindsUnique | supabase/functions/release_donation/index.ts:65-69 | a row whose id is unique is always found |
| LegacyHandlers.AcceptDonation | supabase/functions/accept_donation/index.ts:7-24 | non-POST gets 405, a body that is not JSON escapes, and a missing code gets 400. A database error gets 400 with its message. Otherwise the table becomes the accept update, and the reply is 204 iff a pending row had the code and 404 iff none had |
| LegacyHandlers.DenyDonation | supabase/functions/deny_donation/index.ts:13-57 | OPTIONS 204, other methods 405, invalid JSON 400, missing code 400, database error 400 with its message. Otherwise 404 iff no pending row has the code; when one has, the reply is 204 and the table is the deny update |
| LegacyHandlers.OscDenyDonation | supabase/functions/osc_deny_donation/index.ts:18-61 | the same as deny, with the database error reported as `{code: DB_ERROR, message}`: a pending row with the code forces the deny update and a 204 |
| LegacyHandlers.ReleaseGuard | supabase/functions/release_donation/index.ts:13-41 | the guards run in this order: OPTIONS 204, 405, 401 MISSING_JWT, invalid JSON 500 INTERNAL_ERROR, 400 MISSING_CODE. The handler proceeds iff all pass |
| LegacyHandlers.PickUpReply | supabase/functions/release_donation/index.ts:62-88 | after a pickup the reply is 404 `{code: REST_FETCH_ERROR, message}` when the restaurant lookup fails, and 404 `{code: OSC_FETCH_ERROR, message}` when only the OSC lookup fails, each with the single-row message. It is 200 iff both name lookups succeed, and then it carries the row's id, its status name and both names |
| LegacyHandlers.ReleaseDonation | supabase/functions/release_donation/index.ts:43-88 | a database error gets 400 UPDATE_ERROR. Otherwise the table becomes the pickup update; the reply is 404 NOT_FOUND_OR_WRONG_STATUS iff no accepted row has the code, and else it is the pickup reply for the first updated row. A 200 reports status "picked_up" |
| LegacyHandlers.AcceptTwiceFails | supabase/functions/accept_donation/index.ts:15-23 | after a successful accept, the same code is answered 404 |
| LegacyHandlers.DenyThenAcceptFails | supabase/functions/deny_donation/index.ts:41-46 | after a deny of a code, whatever the table held, accepting the same code is answered 404 |
| LegacyHandlers.ReleasePendingFails | supabase/functions/release_donation/index.ts:44-61 | a code whose rows are all pending cannot be picked up: 404 and no change |
| LegacyHandlers.ReleaseTwiceFails | supabase/functions/release_donation/index.ts:44-61 | a second pickup with the same code is answered exactly 404 NOT_FOUND_OR_WRONG_STATUS with its message and leaves the table as the first pickup left it |
| LegacyHandlers.ReleaseCommitsBeforeLookup | supabase/functions/release_donation/index.ts:44-75 | when the restaurant is missing, the reply is 404 REST_FETCH_ERROR even though the row has already moved to picked_up with its timestamp |
| LegacyHandlers.UpdateStepsLegally | supabase/functions/accept_donation/index.ts:17-19 | an update with a legal transition moves rows only by legal steps out of non-terminal states |
| LegacyHandlers.HandlersStepLegally | supabase/functions/deny_donation/index.ts:41-46 | none of the four legacy handlers ever makes an illegal status change, whatever the request |
| Liberate.RanksBeforeIsStrictOrder | supabase/functions/liberate_donation/index.ts:49 | the sort key (distance, then `last_received_at`) is a strict order: irreflexive, asymmetric and transitive |
| Liberate.Nearest | supabase/functions/liberate_donation/index.ts:47-49 | the pick is a candidate no other candidate ranks before, and it ranks strictly before every earlier candidate. This is the first element of a stable sort |
| Liberate.NearestIsUnique | supabase/functions/liberate_donation/index.ts:47-49 | those two conditions determine the pick |
| Liberate.NearestIsFairest | supabase/functions/liberate_donation/index.ts:47-49 | the pick is at least as close as any candidate and, among equally close ones, served no later |
| Liberate.NeverServedWinsTie | supabase/functions/liberate_donation/index.ts:49 | at equal distance an OSC that never received (null counts as time 0) beats one served at a positive time |
| Liberate.TieKeepsListOrder | supabase/functions/liberate_donation/index.ts:49 | a full tie keeps list order |
| Liberate.SecurityCode | supabase/functions/liberate_donation/index.ts:52 | the code is a prefix of the UUID, and for a well-formed UUID it is six lower-case hex digits |
| Liberate.FindRestaurant | supabase/functions/liberate_donation/index.ts:32-37 | the restaurant is found iff exactly one has the id, where a missing id is sent as "undefined" |
| Liberate.Candidates | supabase/functions/liberate_donation/index.ts:40-48 | the candidates are active OSCs with their distance from the restaurant, every active OSC is among them, and there are none iff no OSC is active |
| Liberate.CandidatesConcat | supabase/functions/liberate_donation/index.ts:40-48 | candidates keep the order of the OSC list: the candidates of two lists in a row are those of the first followed by those of the second |
| Liberate.LiberateDonation | supabase/functions/liberate_donation/index.ts:17-73 | 405, an escaping body, 401 "Missing JWT", 404 with the single-row message iff the restaurant lookup fails, and 404 "No OSC available" iff no OSC is active. Otherwise a pending donation with the nearest OSC and the code is always appended; the reply is then 200 iff the body lists package ids, and without them the link step throws after the insert. A 200 returns id and code, appends the links and invokes `send_notifications` once |
| Liberate.NewDonationIsPending | supabase/functions/liberate_donation/index.ts:52-55 | after a 200 the last donation is pending, carries the code, and goes to an active OSC |
| Liberate.NoActiveOscIsCloser | supabase/functions/liberate_donation/index.ts:40-55 | the OSC written into the new donation is active, and no active OSC is strictly closer to the restaurant; an equally close one was served no earlier |
| Liberate.ValidReleaseAnswered | supabase/functions/liberate_donation/index.ts:17-73 | a POST with a JWT, a restaurant on record and an active OSC is answered 200 with the new id and code, appends exactly the pending donation for the nearest OSC, and appends one link per package id |
| IntentHandlers.FirstRow | supabase/functions/osc_accept_donation/index.ts:59 | an array result gives its first element, and a scalar result gives itself |
| IntentHandlers.OwnLookup | supabase/functions/osc_accept_donation/index.ts:43-47 | an entry is found iff the table lists the key, and the entry found is listed under it |
| IntentHandlers.LookupAsWritten | supabase/functions/osc_accept_donation/index.ts:48 | indexing an object literal also finds the members inherited from `Object.prototype` |
| IntentHandlers.FoundReplyAsWritten | supabase/functions/osc_accept_donation/index.ts:49-54 | an own entry answers with its status and `{code, message}`; an inherited member answers 200 with only `{code}` |
| IntentHandlers.TrimmedCode | supabase/functions/osc_accept_donation/index.ts:30-33 | the code is the trimmed field when that is non-empty, and is missing otherwise |
| IntentHandlers.AcceptOutcomeAsWritten | supabase/functions/osc_accept_donation/index.ts:41-66 | as written, an RPC error named like an inherited member is answered 200 |
| IntentHandlers.AcceptOutcome | supabase/functions/osc_accept_donation/index.ts:41-77 | exactly INTENT_NOT_FOUND, INTENT_NOT_WAITING and INTENT_EXPIRED map to 404/409/410, and every other error maps to 400 DB_ERROR. A missing row gives 500 NO_RESULT, and a row gives 204 |
| IntentHandlers.OscAcceptDonation | supabase/functions/osc_accept_donation/index.ts:14-78 | OPTIONS 204, 405, invalid JSON 400, blank code 400, all without calling the RPC. A POST with a non-blank code always calls `accept_donation_intent` once with the trimmed code and answers its classified outcome, and a 204 implies the RPC returned a row |
| IntentHandlers.AcceptIgnoresPadding | supabase/functions/osc_accept_donation/index.ts:30-39 | a code padded with blanks is handled like the bare code |
| IntentHandlers.AcceptMatchesExactly | supabase/functions/osc_accept_donation/index.ts:43-48 | a message that only ends with INTENT_NOT_FOUND is a DB_ERROR |
| IntentHandlers.PrototypeNameAnswers200 | supabase/functions/osc_accept_donation/index.ts:48-54 | the RPC message "constructor" is answered 200 as written and 400 DB_ERROR once corrected |
| IntentHandlers.AcceptOutcomeAgreesOffPrototype | supabase/functions/osc_accept_donation/index.ts:41-66 | on every other input the corrected and written classifications agree |
| IntentHandlers.ReleaseErrorReply | supabase/functions/restaurant_release_donation/index.ts:51-70 | a message containing INTENT_NOT_FOUND gives 404. Otherwise one containing WRONG_STATUS gives 409, and anything else gives 400 DB_ERROR with the message |
| IntentHandlers.Enrich | supabase/functions/restaurant_release_donation/index.ts:86-133 | the restaurant and OSC names are present iff their single-row lookups succeed, and are the names found. The donation id and status are present iff exactly one donation has the picked-up id, and are that donation's |
| IntentHandlers.RestaurantReleaseDonation | supabase/functions/restaurant_release_donation/index.ts:14-137 | OPTIONS 204, 405, 401 MISSING_JWT, invalid JSON 500 INTERNAL_ERROR, 400 MISSING_CODE, and the RPC is called iff all of these pass. Its error is classified, no row gives 500 DB_ERROR, and a row gives 200 with the enriched summary |
| IntentHandlers.NotFoundWinsOverWrongStatus | supabase/functions/restaurant_release_donation/index.ts:53-64 | a message mentioning both codes, in either order, gives 404 |
| IntentHandlers.ReleaseMatchesSubstrings | supabase/functions/restaurant_release_donation/index.ts:59-64 | WRONG_STATUS anywhere in the message, without INTENT_NOT_FOUND, gives 409 |
| IntentHandlers.CreateErrorAsWritten | supabase/functions/restaurant_create_donation/index.ts:57-69 | as written, an RPC error named like an inherited member is answered 200 |
| IntentHandlers.CreateErrorReply | supabase/functions/restaurant_create_donation/index.ts:57-69 | NO_PACKAGES_IN_STOCK gives 409, and RESTAURANT_NOT_FOUND and NO_OSC_AVAILABLE give 404, each with its Portuguese message. Any other message gives 500 INTERNAL_ERROR |
| IntentHandlers.CreatePrototypeNameAnswers200 | supabase/functions/restaurant_create_donation/index.ts:62-68 | the RPC message "toString" is answered 200 as written and 500 once corrected |
| IntentHandlers.CreateErrorAgreesOffPrototype | supabase/functions/restaurant_create_donation/index.ts:57-69 | on every other message the two agree |
| IntentHandlers.RestaurantCreateDonation | supabase/functions/restaurant_create_donation/index.ts:17-91 | OPTIONS 204, 405, 401 "JWT não fornecido", invalid JSON 500, and 400 MISSING_RESTAURANT_ID. The RPC is called iff these pass. `util_send_notifications` is invoked iff the RPC returned a row, and then the 200 carries that row. An RPC without rows gives 500 INTERNAL_ERROR |
| IntentHandlers.NotifyOnlyAfterSuccess | supabase/functions/restaurant_create_donation/index.ts:56-83 | every notification goes with a 200 that carries the same `donation_id` and `security_code` |
| IntentHandlers.CreateErrorStatuses | supabase/functions/restaurant_create_donation/index.ts:57-68 | the three known errors give 409, 404 and 404 |
| Partnerships.OfRestaurant | supabase/functions/cf_create_partnership/index.ts:62-65 | exactly the partnerships of the restaurant, from the table |
| Partnerships.ClearFavorites | supabase/functions/cf_update_favorite/index.ts:50-53 | every row of the restaurant loses its flag, and every other row stays |
| Partnerships.Upsert | supabase/functions/cf_update_favorite/index.ts:56-61 | the row with the pair's key is overwritten in place, or else the row is appended |
| Partnerships.ClearKeepsKeys | supabase/functions/cf_update_favorite/index.ts:50-53 | clearing keeps the (restaurant, OSC) pairs unique |
| Partnerships.UpsertKeepsKeys | supabase/functions/cf_update_favorite/index.ts:57-60 | the upsert never creates a duplicate pair |
| Partnerships.UpsertHolds | supabase/functions/cf_update_favorite/index.ts:56-61 | after the upsert the row is in the table |
| Partnerships.SetFavorite | supabase/functions/cf_update_favorite/index.ts:50-61 | clear-then-upsert adds at most one row |
| Partnerships.SetFavoriteExactlyOne | supabase/functions/cf_update_favorite/index.ts:50-61 | afterwards the restaurant's favourites are exactly the one row (r, o, true) |
| Partnerships.SetFavoriteOthersUnchanged | supabase/functions/cf_update_favorite/index.ts:53 | other restaurants' rows keep their place and content |
| Partnerships.SetFavoriteKeepsOthersOfRestaurant | supabase/functions/cf_update_favorite/index.ts:50-53 | the restaurant's other partnerships stay, with the flag false |
| Partnerships.SetFavoriteKeepsKeys | supabase/functions/cf_update_favorite/index.ts:57-60 | the pairs stay unique |
| Partnerships.CfUpdateFavorite | supabase/functions/cf_update_favorite/index.ts:14-63 | OPTIONS 204, 405, 401 "Auth required", 403 "Forbidden", and 400 "Missing fields" for a missing field or invalid JSON, all with no write. An authorised request naming both the restaurant and the OSC is answered 204 after the clear-then-upsert, and any write is that one |
| Partnerships.CreatePartnership | supabase/functions/cf_create_partnership/index.ts:48-59 | with the flag set it is the same as setting the favourite; in every case the row (r, o, flag) ends in the table |
| Partnerships.CreateNonFavouriteKeepsOthers | supabase/functions/cf_create_partnership/index.ts:48-59 | without the flag every other row stays, other favourites included, and the pair is no longer a favourite even if it was |
| Partnerships.CreateKeepsKeys | supabase/functions/cf_create_partnership/index.ts:56-59 | the pairs stay unique |
| Partnerships.CfCreatePartnership | supabase/functions/cf_create_partnership/index.ts:15-70 | 204, 405, 401, 403, and an escaping non-JSON body. An authorised body missing a field gets 400 "Missing restaurant_id or osc_id" with no write. With both fields the write uses `is_favorite` defaulted to false and the reply is 200 listing the restaurant's partnerships afterwards |
| Partnerships.CfCreatePartnershipAsWritten | supabase/functions/cf_create_partnership/index.ts:27-31 | as written, every POST carrying a JWT throws at `setAuth` without writing |
| Partnerships.SetAuthBlocksCreation | supabase/functions/cf_create_partnership/index.ts:31 | a valid request that the corrected handler answers 200 escapes the written one |
| Partnerships.CreateAgreesBeforeSetAuth | supabase/functions/cf_create_partnership/index.ts:16-30 | the two agree on every request the written one answers |
| Partnerships.WriteErrorReply | supabase/functions/cf_create_partnership/index.ts:71-93 | the status is 404 iff the code is 23503. The text then names the restaurant if the message mentions restaurant_id, else the OSC if it mentions osc_id, else a missing entity. Any other code gives 400 with the message |
| Partnerships.FkMessageWording | supabase/functions/cf_create_partnership/index.ts:73-79 | a violation message naming restaurant_id, or only osc_id, gets the matching text |
| DonationDetails.TotalKg | supabase/functions/osc_get_donation_details/index.ts:76 | items not counted in units are already in kilograms; unit-counted items weigh quantity × `unit_to_kg` |
| DonationDetails.TotalKgAdditive | supabase/functions/osc_get_donation_details/index.ts:76 | in exact arithmetic, the weight of two lots of one item together is the sum of their weights |
| DonationDetails.TotalKgNonNegative | supabase/functions/osc_get_donation_details/index.ts:76 | non-negative quantities and factors give a non-negative weight |
| DonationDetails.MissingFactorWeighsNothing | supabase/functions/osc_get_donation_details/index.ts:76 | a unit-counted item without `unit_to_kg` weighs 0 whatever its quantity |
| DonationDetails.View | supabase/functions/osc_get_donation_details/index.ts:71-82 | an entry copies the package's fields and the item's id, name, description and unit, and adds the package's weight |
| DonationDetails.Views | supabase/functions/osc_get_donation_details/index.ts:70-83 | the list has one entry per row, in row order. It exists iff every row has its package and item, because otherwise the mapping throws |
| DonationDetails.ViewsFollowRows | supabase/functions/osc_get_donation_details/index.ts:70-83 | entry i shows the package of row i |
| DonationDetails.ByCode | supabase/functions/osc_get_donation_details/index.ts:33-37 | the donation is found iff exactly one row has the code |
| DonationDetails.PackagesOf | supabase/functions/osc_get_donation_details/index.ts:55-64 | exactly the rows of the donation: each returned row is in the table with the id, and every such row is returned |
| DonationDetails.PackagesOfAppend | supabase/functions/osc_get_donation_details/index.ts:55-64 | the rows come back in table order: the matches of appended rows follow those of the earlier rows |
| DonationDetails.OscGetDonationDetails | supabase/functions/osc_get_donation_details/index.ts:14-98 | OPTIONS 204, 405, invalid JSON 400, missing code 400, and 404 "Donation not found" iff no single donation has the code. A missing restaurant gives 404 "Restaurant not found", and then a failed package read gives 500 "Error fetching packages". A 200 echoes the request's code, the donation's id, status and creation time, the restaurant's name and the projected packages |
| DonationDetails.KnownCodeAnswered | supabase/functions/osc_get_donation_details/index.ts:33-98 | a code held by one donation, with its restaurant and packages present, is answered 200 |
| Notifications.DonationById | supabase/functions/util_send_notifications/index.ts:38-46 | the donation is found iff exactly one row has the id |
| Notifications.ConfirmLink | supabase/functions/util_send_notifications/index.ts:59 | the link is `APP_URL` (printed "undefined" when unset) followed by "/confirm-donation/" and the code |
| Notifications.CodeOfLink | supabase/functions/util_send_notifications/index.ts:59 | reading a link back gives what follows the base |
| Notifications.LinkRoundTrip | supabase/functions/util_send_notifications/index.ts:59 | reading back a built link gives its code |
| Notifications.LinkInjective | supabase/functions/util_send_notifications/index.ts:59 | different codes give different links |
| Notifications.ConfirmLines | supabase/functions/util_send_notifications/index.ts:60-64 | three lines; the second is "**Restaurante:** " + name and the third ends with the link |
| Notifications.ConfirmContentEndsWithLink | supabase/functions/util_send_notifications/index.ts:59-64 | the whole message ends with the link |
| Notifications.ConfirmContentLines | supabase/functions/util_send_notifications/index.ts:60-64 | split on newlines, the message is exactly its three lines when the name and link contain none |
| Notifications.UtilSendNotifications | supabase/functions/util_send_notifications/index.ts:14-78 | invalid JSON 400, missing field 400, unset webhook 500, 404 "Donation not found" and 404 "Restaurant not found" when a lookup fails, all with no post. With both found, the confirm message for the restaurant and the code's link is posted, and the reply is 204 if the webhook answered ok and 502 otherwise. A post happens iff the reply is 204 or 502 |
| Notifications.UtilNotifyPosts | supabase/functions/util_send_notifications/index.ts:36-78 | a donation on record with its restaurant always leads to exactly the confirm-link post, and the reply is 204 iff the webhook answered ok |
| Notifications.WebhookCheckedBeforeReads | supabase/functions/util_send_notifications/index.ts:30-42 | with the webhook unset, the tables and `APP_URL` cannot change the reply |
| Notifications.Command | supabase/functions/send_notifications/index.ts:48 | each command carries `{"security_code":"<code>"}` |
| Notifications.CommandLines | supabase/functions/send_notifications/index.ts:41-54 | twelve lines. The code line wraps the code in backticks, and lines 7 and 11 are the accept and deny commands |
| Notifications.CommandContentShowsCode | supabase/functions/send_notifications/index.ts:44 | the message contains the code between backticks |
| Notifications.CommandContentCarriesCode | supabase/functions/send_notifications/index.ts:48-52 | the message contains both commands, and each carries the JSON body with the code |
| Notifications.SendNotifications | supabase/functions/send_notifications/index.ts:10-63 | 405 for any non-POST, an escaping non-JSON body, and 400 for a missing field. A failed donation lookup and a failed restaurant lookup each give 404 with the lookup's message. With both found, an unset webhook makes the post throw. A post implies 204, and a 204 implies the lookups succeeded and the post is the command message |
| Notifications.SendAnswers204 | supabase/functions/send_notifications/index.ts:21-63 | a donation on record with its restaurant is answered 204 once a webhook URL is configured |

## Left out

- **Network and database I/O.** These are `fetch` to Nominatim, ViaCEP and the chat webhook, and every Supabase client call. Tables are sequences of rows, replies of remote services and RPCs are inputs, and outbound calls are returned as effects.
- **RPC bodies.** `accept_donation_intent`, `donation_mark_picked_up`, `release_donation_safe` and `is_cf` are database functions outside these files. Only the errors and rows the handlers observe are modelled.
- **Haversine, `parseFloat`, UUID generation and clocks.** Distance is a parameter function to `real`, and `Geocode.Pack` keeps lat/lon as the strings Nominatim sent. The UUID and `now` are parameters.
- **Concurrency.** Each conditional update is one atomic step. The order in which the `Promise.all` link inserts of `liberate_donation` land is not modelled; they are appended in list order.
- **Response headers.** `Content-Type` and the CORS headers attached to each handler's replies are not part of the modelled replies. `Cors.CorsHeaders` models what they would be. The fixed header object of `deny_donation` is not modelled.
- **Unusual JSON bodies.** Bodies that are valid JSON but not objects (`null`, arrays, numbers), and fields that are not strings (or, for `is_favorite`, not booleans), are not modelled.
- **Database errors on paths that cannot report them.** The writes of `cf_update_favorite` and `cf_create_partnership` return their errors in-band and are never checked, so they always succeed here. Their catch blocks then fire only for thrown errors. The FK classifier is modelled on its own as `Partnerships.WriteErrorReply`.
- **Insert and fetch failures.** This covers the insert failure of `liberate_donation` (400 "Insert failed"), the failure of its package-link inserts and of the `send_notifications` invocation, and the `PKG_FETCH_ERROR` of `release_donation`. The package read of `restaurant_release_donation` is left out too; its donation read is modelled in `IntentHandlers.Enrich`. Only `osc_get_donation_details` models a package read error, as the `packagesFailed` input.
- **Package lists in pickup replies.** `release_donation` and `restaurant_release_donation` return the picked-up donation's packages, `created_at` and `released_at`. The model's replies carry the id, status and names only.
- **Webhook URL validity and network errors** in the notification functions. Any non-empty webhook URL is taken to be reachable.
- Cors.Normalize: lower-cases ASCII letters only. JavaScript's `toLowerCase` also folds letters of other scripts, so non-ASCII origins may normalise differently.
- Geocode.Interpret: a Nominatim reply that is not valid JSON (which would throw) is not modelled.
- DonationDetails.TotalKgAdditive: quantities and `unit_to_kg` factors are exact reals. The double-precision rounding of the product at supabase/functions/osc_get_donation_details/index.ts:76 is not modelled, so additivity holds for exact arithmetic only; with doubles, (1 + 5) × 0.1 and 1 × 0.1 + 5 × 0.1 differ in the last bit.
- DonationDetails.TotalKg: computes in exact reals, not IEEE doubles, for the same reason.
- Liberate.Nearest: distances are exact reals; a `NaN` distance, which would break the sort comparator, is not modelled.

## Findings

| source | as written | input that shows it | evidently intended | confidence | as-written member | corrected member |
|---|---|---|---|---|---|---|
| supabase/functions/osc_accept_donation/index.ts:48 | `map[error.message]` on an object literal also finds the members every object inherits from `Object.prototype`. The reply then has an undefined status, which becomes 200, and a body with only `code` | RPC error message "constructor" | only the three listed codes get their own status; every other message is a 400 DB_ERROR | medium, not executed: needs the RPC to raise such a message | IntentHandlers.AcceptOutcomeAsWritten | IntentHandlers.AcceptOutcome |
| supabase/functions/restaurant_create_donation/index.ts:62 | the same inherited-member lookup in the create handler's error map | RPC error message "toString" | only the three listed codes get their own status; every other message is a 500 INTERNAL_ERROR | medium, not executed: needs the RPC to raise such a message | IntentHandlers.CreateErrorAsWritten | IntentHandlers.CreateErrorReply |
| supabase/functions/cf_create_partnership/index.ts:31 | calls `supa.auth.setAuth(jwt)` outside any `try`. Version 2 of supabase-js, which the file imports, has no such method, so the call throws | any POST with an `Authorization: Bearer <token>` header | authorise the client with the caller's JWT, then run the `is_cf` check and the writes | medium, not executed: depends on the library build `@2` resolves to | Partnerships.CfCreatePartnershipAsWritten | Partnerships.CfCreatePartnership |

`IntentHandlers.PrototypeNameAnswers200`, `IntentHandlers.CreatePrototypeNameAnswers200` and
`Partnerships.SetAuthBlocksCreation` exhibit the three discrepancies on the inputs named.
`IntentHandlers.AcceptOutcomeAgreesOffPrototype`, `IntentHandlers.CreateErrorAgreesOffPrototype`
and `Partnerships.CreateAgreesBeforeSetAuth` show that each correction changes nothing else.
The handlers use the corrected members.

=== FILE: base.dfy ===
/** Optional and fallible values shared by every module of the model. */
module Base {

  /** A value that may be absent: JavaScript's null / undefined. */
  datatype Option<+T> = None | Some(value: T) {
    function GetOr(default: T): T {
      match this
      case Some(v) => v
      case None => default
    }
  }

  /** The outcome of an operation that can throw: a value or an error message. */
  datatype Result<+T, +E> = Success(value: T) | Failure(error: E)
}

=== FILE: cep.dfy ===
/**
 * Brazilian postal codes (CEP): the eight-digit shape check and the mapping of a
 * ViaCEP lookup reply to an address record.
 */
module Cep {

  import opened Base
  import opened Text

  /** `/^[0-9]{8}$/`: exactly eight decimal digits and nothing else. */
  predicate IsEightDigits(s: string) {
    |s| == 8 && AllDigits(s)
  }

  /** `validateCep`: the shape test applied to the input with every non-digit removed. */
  function ValidateCep(cep: string): (r: bool)
    ensures r <==> |Digits(cep)| == 8
  {
    IsEightDigits(Digits(cep))
  }

  /** Validating the digit-only form gives the same verdict as validating the original. */
  lemma ValidateCepOfDigits(cep: string)
    ensures ValidateCep(Digits(cep)) == ValidateCep(cep)
  {
    DigitsIdempotent(cep);
  }

  /** Separators are ignored: a CEP with or without its hyphen gives the same answer. */
  lemma HyphenIgnored(prefix: string, suffix: string)
    ensures ValidateCep(prefix + "-" + suffix) == ValidateCep(prefix + suffix)
  {
    DigitsConcat(prefix + "-", suffix);
    DigitsConcat(prefix, "-");
    DigitsConcat(prefix, suffix);
    assert Digits("-") == [];
  }

  lemma AcceptsFormattedCep()
    ensures ValidateCep("01310-200") && ValidateCep("01310200")
  {
    assert AllDigits("01310200");
    HyphenIgnored("01310", "200");
    assert "01310" + "-" + "200" == "01310-200";
    assert "01310" + "200" == "01310200";
  }

  lemma RejectsSevenDigits()
    ensures !ValidateCep("0131020")
  {
    assert Digits("0131020") == "0131020";
  }

  lemma RejectsNineDigits()
    ensures !ValidateCep("013102000")
  {
    assert Digits("013102000") == "013102000";
  }

  /** The reply body of `GET <VIACEP_URL>/<cep>/json/`. */
  datatype ViaCepReply = ViaCepReply(logradouro: string, bairro: string, localidade: string, uf: string, erro: bool)

  datatype CepInfo = CepInfo(street: string, neighborhood: string, city: string, uf: string)

  const DefaultViaCepUrl := "https://viacep.com.br/ws"

  /** The lookup URL: the configured base (or the public service) followed by the digits of the CEP. */
  function ViaCepUrl(configured: Option<string>, cep: string): (url: string)
    ensures configured.None? ==> DefaultViaCepUrl + "/" <= url
    ensures configured.Some? ==> configured.value + "/" <= url
    ensures EndsWith(url, "/json/")
  {
    var url := configured.GetOr(DefaultViaCepUrl) + "/" + Digits(cep) + "/json/";
    assert url[|url| - 6..] == "/json/";
    url
  }

  /** Separators do not reach the lookup: a CEP with or without its hyphen asks for the same URL. */
  lemma ViaCepUrlIgnoresHyphen(configured: Option<string>, prefix: string, suffix: string)
    ensures ViaCepUrl(configured, prefix + "-" + suffix) == ViaCepUrl(configured, prefix + suffix)
  {
    DigitsConcat(prefix + "-", suffix);
    DigitsConcat(prefix, "-");
    DigitsConcat(prefix, suffix);
    assert Digits("-") == [];
  }

  /** A valid CEP's path segment is exactly eight decimal digits, between the base and "/json/". */
  lemma ViaCepUrlOfValidCep(configured: Option<string>, cep: string)
    requires ValidateCep(cep)
    ensures var base := configured.GetOr(DefaultViaCepUrl) + "/";
            var url := ViaCepUrl(configured, cep);
            && |url| == |base| + 14
            && IsEightDigits(url[|base|..|base| + 8])
            && url[|base| + 8..] == "/json/"
  {
    var base := configured.GetOr(DefaultViaCepUrl) + "/";
    var url := ViaCepUrl(configured, cep);
    assert url == base + Digits(cep) + "/json/";
    assert url[|base|..|base| + 8] == Digits(cep);
    assert url[|base| + 8..] == "/json/";
  }

  /** The two spellings of the same CEP ask ViaCEP for the same URL. */
  lemma FormattedCepSameUrl(configured: Option<string>)
    ensures ViaCepUrl(configured, "01310-200") == ViaCepUrl(configured, "01310200")
  {
    ViaCepUrlIgnoresHyphen(configured, "01310", "200");
    assert "01310" + "-" + "200" == "01310-200";
    assert "01310" + "200" == "01310200";
  }

  /**
   * The pure part of `fetchCepInfo`: a failed HTTP status and a reply flagged
   * `erro` are failures; otherwise the four address fields are renamed, unchanged.
   */
  function CepInfoOfReply(httpOk: bool, reply: ViaCepReply): (r: Result<CepInfo, string>)
    ensures !httpOk ==> r == Failure("ViaCEP fail")
    ensures httpOk && reply.erro ==> r == Failure("CEP not found")
    ensures r.Success? <==> httpOk && !reply.erro
    ensures r.Success? ==> r.value.street == reply.logradouro && r.value.neighborhood == reply.bairro
                           && r.value.city == reply.localidade && r.value.uf == reply.uf
  {
    if !httpOk then Failure("ViaCEP fail")
    else if reply.erro then Failure("CEP not found")
    else Success(CepInfo(reply.logradouro, reply.bairro, reply.localidade, reply.uf))
  }
}

=== FILE: cnpj.dfy ===
/**
 * The CNPJ check-digit rule of the Receita Federal: a CNPJ is 14 decimal digits,
 * the last two of which are check digits computed by two weighted sums modulo 11.
 */
module Cnpj {

  import opened Text

  const FirstWeights: seq<int> := [5, 4, 3, 2, 9, 8, 7, 6, 5, 4, 3, 2]
  const SecondWeights: seq<int> := [6, 5, 4, 3, 2, 9, 8, 7, 6, 5, 4, 3, 2]

  /** The left-to-right sum of `digit(base[i]) * weights[i]`: the reduce inside `calc`. */
  function WeightedSum(base: string, weights: seq<int>): int
    requires |weights| <= |base| && AllDigits(base)
    decreases |weights|
  {
    if weights == [] then 0
    else WeightedSum(base, weights[..|weights| - 1]) + DigitValue(base[|weights| - 1]) * weights[|weights| - 1]
  }

  /** The same sum accumulated from the front, which unfolds on literal arguments. */
  function WeightedSumFromFront(base: string, weights: seq<int>): int
    requires |weights| <= |base| && AllDigits(base)
    decreases |weights|
  {
    if weights == [] then 0
    else DigitValue(base[0]) * weights[0] + WeightedSumFromFront(base[1..], weights[1..])
  }

  lemma {:induction false} FromFrontLastTerm(base: string, weights: seq<int>)
    requires 1 <= |weights| <= |base| && AllDigits(base)
    ensures WeightedSumFromFront(base, weights)
            == WeightedSumFromFront(base, weights[..|weights| - 1])
               + DigitValue(base[|weights| - 1]) * weights[|weights| - 1]
    decreases |weights|
  {
    if |weights| > 1 {
      FromFrontLastTerm(base[1..], weights[1..]);
      assert weights[1..][..|weights| - 2] == weights[..|weights| - 1][1..];
    }
  }

  lemma {:induction false} WeightedSumsAgree(base: string, weights: seq<int>)
    requires |weights| <= |base| && AllDigits(base)
    ensures WeightedSum(base, weights) == WeightedSumFromFront(base, weights)
    decreases |weights|
  {
    if weights != [] {
      WeightedSumsAgree(base, weights[..|weights| - 1]);
      FromFrontLastTerm(base, weights);
    }
  }

  /**
   * One check digit: 0 when the weighted sum leaves a remainder below 2 modulo 11,
   * otherwise 11 minus that remainder. In every case but remainder 1 it makes the
   * weighted sum plus the digit a multiple of 11.
   */
  function CheckDigit(base: string, weights: seq<int>): (d: int)
    requires |weights| <= |base| && AllDigits(base)
    ensures 0 <= d <= 9
    ensures (WeightedSum(base, weights) + d) % 11 == 0 || (d == 0 && WeightedSum(base, weights) % 11 == 1)
  {
    var rem := WeightedSum(base, weights) % 11;
    if rem < 2 then 0 else 11 - rem
  }

  /** `/^(\d)\1+$/` on a string of digits: two or more copies of one digit. */
  predicate AllSame(s: string) {
    |s| >= 2 && forall i :: 0 <= i < |s| ==> s[i] == s[0]
  }

  /** Independent statement of the rule on a bare digit string. */
  predicate IsCnpj(d: string) {
    && |d| == 14 && AllDigits(d) && !AllSame(d)
    && d[12] == DigitChar(CheckDigit(d[..12], FirstWeights))
    && d[13] == DigitChar(CheckDigit(d[..13], SecondWeights))
  }

  /** `validateCnpj`. */
  function ValidateCnpj(cnpj: string): (r: bool)
    ensures r ==> |Digits(cnpj)| == 14 && !AllSame(Digits(cnpj))
    ensures r <==> IsCnpj(Digits(cnpj))
  {
    var clean := Digits(cnpj);
    if |clean| != 14 || AllSame(clean) then false
    else
      var base := clean[..12];
      var dig1 := CheckDigit(base, FirstWeights);
      var base2 := base + [DigitChar(dig1)];
      var dig2 := CheckDigit(base2, SecondWeights);
      assert clean[12] == DigitChar(dig1) ==> base2 == clean[..13];
      assert (clean == base2 + [DigitChar(dig2)]) ==> clean[12] == DigitChar(dig1);
      assert clean[12] == DigitChar(dig1) && clean[13] == DigitChar(dig2) ==> clean == base2 + [DigitChar(dig2)];
      clean == base2 + [DigitChar(dig2)]
  }

  /** Punctuation such as `.`, `/` and `-` does not change the verdict. */
  lemma IgnoresFormatting(cnpj: string)
    ensures ValidateCnpj(cnpj) == ValidateCnpj(Digits(cnpj))
  {
    DigitsIdempotent(cnpj);
  }

  /** A twelve-digit base followed by its two computed check digits. */
  function WithCheckDigits(base: string): (full: string)
    requires |base| == 12 && AllDigits(base)
    ensures |full| == 14 && AllDigits(full) && full[..12] == base
  {
    var base2 := base + [DigitChar(CheckDigit(base, FirstWeights))];
    base2 + [DigitChar(CheckDigit(base2, SecondWeights))]
  }

  /** Completing any base with its check digits yields an accepted CNPJ, unless all 14 digits coincide. */
  lemma CheckDigitsRoundTrip(base: string)
    requires |base| == 12 && AllDigits(base)
    ensures !AllSame(WithCheckDigits(base)) ==> ValidateCnpj(WithCheckDigits(base))
  {
    var full := WithCheckDigits(base);
    assert full[..13] == base + [DigitChar(CheckDigit(base, FirstWeights))];
    assert Digits(full) == full;
  }

  function Sum(ws: seq<int>): int
    decreases |ws|
  {
    if ws == [] then 0 else ws[0] + Sum(ws[1..])
  }

  lemma {:induction false} WeightedSumOfRepeatedDigit(base: string, weights: seq<int>, v: int)
    requires |weights| <= |base| && AllDigits(base)
    requires 0 <= v <= 9 && forall i :: 0 <= i < |base| ==> base[i] == DigitChar(v)
    ensures WeightedSumFromFront(base, weights) == v * Sum(weights)
    decreases |weights|
  {
    if weights != [] {
      WeightedSumOfRepeatedDigit(base[1..], weights[1..], v);
    }
  }

  /** Fourteen copies of the digit `v`. */
  function Repeated(v: int): (d: string)
    requires 0 <= v <= 9
    ensures |d| == 14 && AllDigits(d)
  {
    seq(14, _ => DigitChar(v))
  }

  lemma RepeatedSum(v: int, n: nat, weights: seq<int>)
    requires 0 <= v <= 9 && |weights| == n <= 14
    ensures WeightedSum(Repeated(v)[..n], weights) == v * Sum(weights)
  {
    var d := Repeated(v)[..n];
    WeightedSumOfRepeatedDigit(d, weights, v);
    WeightedSumsAgree(d, weights);
  }

  lemma RepeatedFirstSum(v: int)
    requires 0 <= v <= 9
    ensures WeightedSum(Repeated(v)[..12], FirstWeights) == 58 * v
  {
    RepeatedSum(v, 12, FirstWeights);
    assert Sum(FirstWeights) == 58;
  }

  lemma NoNonzeroDigitMatchesItsSum(v: int, s: int)
    requires 1 <= v <= 9 && s == 58 * v
    ensures (if s % 11 < 2 then 0 else 11 - s % 11) != v
  {
  }

  /**
   * Among strings of fourteen equal digits, only `00000000000000` satisfies the
   * check-digit equations, so the all-same guard is what rejects it.
   */
  lemma RepeatedDigitsPassOnlyForZero(v: int)
    requires 0 <= v <= 9
    ensures (Repeated(v)[12] == DigitChar(CheckDigit(Repeated(v)[..12], FirstWeights))
             && Repeated(v)[13] == DigitChar(CheckDigit(Repeated(v)[..13], SecondWeights))) <==> v == 0
  {
    var d := Repeated(v);
    RepeatedFirstSum(v);
    assert d[12] == DigitChar(v) && d[13] == DigitChar(v);
    if v == 0 {
      RepeatedSum(v, 13, SecondWeights);
    } else {
      NoNonzeroDigitMatchesItsSum(v, WeightedSum(d[..12], FirstWeights));
    }
  }
}

=== FILE: cors.dfy ===
/**
 * The CORS origin allow-list shared by the browser-facing handlers: origins are
 * normalised and compared with the configured application and admin URLs, or
 * matched against the Netlify preview-host pattern.
 */
module Cors {

  import opened Base
  import opened Text
  import opened Http

  predicate IsSlash(c: char) {
    c == '/'
  }

  /** `normalize`: trim, drop every trailing `/`, lower-case. */
  function Normalize(url: string): (r: string)
    ensures |r| <= |url|
    ensures HasNoUpper(r)
    ensures r == [] || r[|r| - 1] != '/'
  {
    ToLower(DropWhileEnd(Trim(url), IsSlash))
  }

  /**
   * `ALLOWED`: the normalised forms of the configured `APP_URL` and `ADMIN_URL`,
   * where an unset or empty variable contributes nothing.
   */
  function AllowedSet(appUrl: Option<string>, adminUrl: Option<string>): (r: set<string>)
    ensures forall x :: x in r <==>
      (appUrl.GetOr("") != "" && x == Normalize(appUrl.value))
      || (adminUrl.GetOr("") != "" && x == Normalize(adminUrl.value))
  {
    var app := appUrl.GetOr("");
    var admin := adminUrl.GetOr("");
    (if app != "" then {Normalize(app)} else {}) + (if admin != "" then {Normalize(admin)} else {})
  }

  const PreviewPrefix := "https://"
  const PreviewSuffix := "--admin-cf.netlify.app"

  /**
   * `/^https:\/\/.*--admin-cf\.netlify\.app$/i`: the fixed prefix and suffix,
   * compared without regard to ASCII case, around a middle in which `.` finds no
   * line terminator.
   */
  predicate IsPreviewHost(s: string) {
    && |s| >= |PreviewPrefix| + |PreviewSuffix|
    && ToLower(s[..|PreviewPrefix|]) == PreviewPrefix
    && ToLower(s[|s| - |PreviewSuffix|..]) == PreviewSuffix
    && forall i :: |PreviewPrefix| <= i < |s| - |PreviewSuffix| ==> !IsLineTerminator(s[i])
  }

  /** `isAllowed`. */
  function IsAllowed(allowed: set<string>, origin: Option<string>): (r: bool)
    ensures r ==> Present(origin)
    ensures Present(origin) ==>
      (r <==> Normalize(origin.value) in allowed || IsPreviewHost(Normalize(origin.value)))
  {
    if !Present(origin) then false
    else
      var norm := Normalize(origin.value);
      norm in allowed || IsPreviewHost(norm)
  }

  // ----- Case and trailing slashes ------------------------------------------

  lemma {:induction false} DropWhileLower(s: string, p: char -> bool)
    requires forall c :: p(LowerChar(c)) == p(c)
    ensures DropWhile(ToLower(s), p) == ToLower(DropWhile(s, p))
    decreases |s|
  {
    if s != [] {
      assert ToLower(s)[1..] == ToLower(s[1..]);
      DropWhileLower(s[1..], p);
    }
  }

  lemma {:induction false} DropWhileEndLower(s: string, p: char -> bool)
    requires forall c :: p(LowerChar(c)) == p(c)
    ensures DropWhileEnd(ToLower(s), p) == ToLower(DropWhileEnd(s, p))
    decreases |s|
  {
    if s != [] {
      assert ToLower(s)[..|s| - 1] == ToLower(s[..|s| - 1]);
      DropWhileEndLower(s[..|s| - 1], p);
    }
  }

  lemma LowerIdempotent(s: string)
    ensures ToLower(ToLower(s)) == ToLower(s)
  {
  }

  /** Normalising the lower-cased origin gives the same result as normalising the origin. */
  lemma NormalizeOfLower(url: string)
    ensures Normalize(ToLower(url)) == Normalize(url)
  {
    assert forall c :: IsSpace(LowerChar(c)) == IsSpace(c);
    assert forall c :: IsSlash(LowerChar(c)) == IsSlash(c);
    DropWhileLower(url, IsSpace);
    DropWhileEndLower(DropWhile(url, IsSpace), IsSpace);
    DropWhileEndLower(Trim(url), IsSlash);
    LowerIdempotent(DropWhileEnd(Trim(url), IsSlash));
  }

  /** Allowance does not depend on the letter case of the origin. */
  lemma AllowanceIgnoresCase(allowed: set<string>, o1: string, o2: string)
    requires ToLower(o1) == ToLower(o2)
    ensures IsAllowed(allowed, Some(o1)) == IsAllowed(allowed, Some(o2))
  {
    NormalizeOfLower(o1);
    NormalizeOfLower(o2);
    assert |o1| == |ToLower(o1)| == |o2|;
  }

  lemma {:induction false} DropWhileAppend(s: string, t: string, p: char -> bool)
    requires exists i :: 0 <= i < |s| && !p(s[i])
    ensures DropWhile(s + t, p) == DropWhile(s, p) + t
    decreases |s|
  {
    if p(s[0]) {
      assert (s + t)[1..] == s[1..] + t;
      var i :| 0 <= i < |s| && !p(s[i]);
      assert 0 <= i - 1 < |s[1..]| && !p(s[1..][i - 1]);
      DropWhileAppend(s[1..], t, p);
    }
  }

  lemma TrimAppend(o: string, t: string)
    requires o != [] && !IsSpace(o[|o| - 1])
    requires t != [] && !IsSpace(t[|t| - 1])
    ensures Trim(o + t) == DropWhile(o, IsSpace) + t
    ensures Trim(o) == DropWhile(o, IsSpace)
  {
    assert !IsSpace(o[|o| - 1]);
    DropWhileAppend(o, t, IsSpace);
    var front := DropWhile(o, IsSpace);
    assert DropWhile(o + t, IsSpace) == front + t;
    assert front != [] && front[|front| - 1] == o[|o| - 1];
    assert DropWhileEnd(front, IsSpace) == front;
    var whole := front + t;
    assert whole[|whole| - 1] == t[|t| - 1];
    assert DropWhileEnd(whole, IsSpace) == whole;
  }

  lemma DropTrailingSlash(x: string)
    ensures DropWhileEnd(x + "/", IsSlash) == DropWhileEnd(x, IsSlash)
  {
    assert (x + "/")[..|x|] == x;
  }

  /** A trailing `/` after an origin that does not end in whitespace is ignored. */
  lemma NormalizeIgnoresTrailingSlash(o: string)
    requires o != [] && !IsSpace(o[|o| - 1])
    ensures Normalize(o + "/") == Normalize(o)
  {
    TrimAppend(o, "/");
    DropTrailingSlash(DropWhile(o, IsSpace));
  }

  lemma AllowanceIgnoresTrailingSlash(allowed: set<string>, o: string)
    requires o != [] && !IsSpace(o[|o| - 1])
    ensures IsAllowed(allowed, Some(o + "/")) == IsAllowed(allowed, Some(o))
  {
    NormalizeIgnoresTrailingSlash(o);
  }

  // ----- Empty origins and configuration ------------------------------------

  lemma NoOriginNotAllowed(allowed: set<string>)
    ensures !IsAllowed(allowed, None) && !IsAllowed(allowed, Some(""))
  {
  }

  /** With neither URL configured, only preview hosts are admitted. */
  lemma UnconfiguredAdmitsOnlyPreviews(origin: string)
    ensures IsAllowed(AllowedSet(None, Some("")), Some(origin)) <==> origin != "" && IsPreviewHost(Normalize(origin))
  {
  }

  /**
   * A whitespace-only configured URL survives the emptiness filter and
   * normalises to the empty string, which then admits the origin `/`.
   */
  lemma BlankConfiguredUrlAdmitsSlashOrigin()
    ensures "" in AllowedSet(Some(" "), None)
    ensures IsAllowed(AllowedSet(Some(" "), None), Some("/"))
  {
    assert Trim(" ") == "";
    assert Normalize(" ") == "";
    assert Trim("/") == "/";
    assert Normalize("/") == "";
  }

  lemma LowerOfNoUpper(s: string)
    requires HasNoUpper(s)
    ensures ToLower(s) == s
  {
  }

  lemma LowerSlice(s: string, a: nat, b: nat)
    requires a <= b <= |s|
    ensures ToLower(s)[a..b] == ToLower(s[a..b])
  {
  }

  lemma PreviewShape(middle: string)
    ensures var o := PreviewPrefix + middle + PreviewSuffix;
            && |o| >= |PreviewPrefix| + |PreviewSuffix|
            && o[..|PreviewPrefix|] == PreviewPrefix
            && o[|o| - |PreviewSuffix|..] == PreviewSuffix
            && (forall i :: |PreviewPrefix| <= i < |o| - |PreviewSuffix| ==> o[i] == middle[i - |PreviewPrefix|])
            && IsTrimmed(o) && o[|o| - 1] == 'p'
  {
  }

  lemma LowerConcat(a: string, b: string)
    ensures ToLower(a + b) == ToLower(a) + ToLower(b)
  {
  }

  lemma PreviewIsPlain(middle: string)
    ensures var o := PreviewPrefix + middle + PreviewSuffix;
            Trim(o) == o && DropWhileEnd(o, IsSlash) == o
  {
    PreviewShape(middle);
  }

  lemma PreviewLowered(middle: string)
    ensures ToLower(PreviewPrefix + middle + PreviewSuffix) == PreviewPrefix + ToLower(middle) + PreviewSuffix
  {
    LowerConcat(PreviewPrefix + middle, PreviewSuffix);
    LowerConcat(PreviewPrefix, middle);
    LowerOfNoUpper(PreviewPrefix);
    LowerOfNoUpper(PreviewSuffix);
  }

  lemma PreviewNormalizes(middle: string)
    ensures Normalize(PreviewPrefix + middle + PreviewSuffix) == PreviewPrefix + ToLower(middle) + PreviewSuffix
  {
    PreviewIsPlain(middle);
    PreviewLowered(middle);
  }

  lemma PreviewPattern(lowered: string)
    requires forall i :: 0 <= i < |lowered| ==> !IsLineTerminator(lowered[i])
    ensures IsPreviewHost(PreviewPrefix + lowered + PreviewSuffix)
  {
    var n := PreviewPrefix + lowered + PreviewSuffix;
    PreviewShape(lowered);
    LowerOfNoUpper(PreviewPrefix);
    LowerOfNoUpper(PreviewSuffix);
    assert n[..|PreviewPrefix|] == PreviewPrefix;
    assert n[|n| - |PreviewSuffix|..] == PreviewSuffix;
  }

  /** Every `https://<middle>--admin-cf.netlify.app` whose middle has no line break is admitted. */
  lemma PreviewHostsAdmitted(allowed: set<string>, middle: string)
    requires forall i :: 0 <= i < |middle| ==> !IsLineTerminator(middle[i])
    ensures IsAllowed(allowed, Some(PreviewPrefix + middle + PreviewSuffix))
  {
    PreviewNormalizes(middle);
    PreviewPattern(ToLower(middle));
  }

  // ----- Headers --------------------------------------------------------------

  const AllowOrigin := "Access-Control-Allow-Origin"
  const AllowCredentials := "Access-Control-Allow-Credentials"

  /** `corsHeaders`: five headers echoing the origin exactly as received, or none at all. */
  function CorsHeaders(allowed: set<string>, origin: Option<string>): (h: map<string, string>)
    ensures IsAllowed(allowed, origin) ==>
      && h.Keys == {AllowOrigin, "Vary", "Access-Control-Allow-Methods", "Access-Control-Allow-Headers", AllowCredentials}
      && AllowOrigin in h && h[AllowOrigin] == origin.value
      && AllowCredentials in h && h[AllowCredentials] == "true"
      && "Vary" in h && h["Vary"] == "Origin"
      && "Access-Control-Allow-Methods" in h && h["Access-Control-Allow-Methods"] == "GET, POST, PUT, DELETE, OPTIONS"
      && "Access-Control-Allow-Headers" in h
      && h["Access-Control-Allow-Headers"] == "Authorization, Content-Type, x-client-info, apikey"
    ensures !IsAllowed(allowed, origin) ==> h == map[]
  {
    if IsAllowed(allowed, origin) then
      map[
        AllowOrigin := origin.value,
        "Vary" := "Origin",
        "Access-Control-Allow-Methods" := "GET, POST, PUT, DELETE, OPTIONS",
        "Access-Control-Allow-Headers" := "Authorization, Content-Type, x-client-info, apikey",
        AllowCredentials := "true"
      ]
    else map[]
  }

  /** Upper-casing an admitted origin and appending a slash keeps it admitted. */
  lemma ShoutedOriginAllowed(allowed: set<string>, o: string)
    requires o != [] && !IsSpace(o[|o| - 1])
    requires IsAllowed(allowed, Some(o))
    ensures IsAllowed(allowed, Some(ToUpperCaseOf(o) + "/"))
  {
    var u := ToUpperCaseOf(o);
    UpperPreservesEnd(o);
    AllowanceIgnoresCase(allowed, o, u);
    AllowanceIgnoresTrailingSlash(allowed, u);
  }

  /** The echoed origin keeps its case and trailing slash even though allowance ignored them. */
  lemma EchoIsNotNormalised(allowed: set<string>, o: string)
    requires o != [] && !IsSpace(o[|o| - 1])
    requires IsAllowed(allowed, Some(o))
    ensures var x := ToUpperCaseOf(o) + "/";
            var h := CorsHeaders(allowed, Some(x));
            AllowOrigin in h && h[AllowOrigin] == x && x != o
  {
    var x := ToUpperCaseOf(o) + "/";
    ShoutedOriginAllowed(allowed, o);
    EchoVerbatim(allowed, x);
  }

  lemma EchoVerbatim(allowed: set<string>, x: string)
    requires IsAllowed(allowed, Some(x))
    ensures AllowOrigin in CorsHeaders(allowed, Some(x)) && CorsHeaders(allowed, Some(x))[AllowOrigin] == x
  {
  }

  function UpperChar(c: char): char {
    if 'a' <= c <= 'z' then (c as int - 32) as char else c
  }

  function ToUpperCaseOf(s: string): (r: string)
    ensures |r| == |s| && ToLower(r) == ToLower(s)
  {
    seq(|s|, i requires 0 <= i < |s| => UpperChar(s[i]))
  }

  lemma UpperPreservesEnd(o: string)
    requires o != [] && !IsSpace(o[|o| - 1])
    ensures ToUpperCaseOf(o) != [] && !IsSpace(ToUpperCaseOf(o)[|o| - 1])
  {
  }

  /** A preflight request: the method `handleCors` answers. */
  predicate IsPreflight(req: Request) {
    req.httpMethod == "OPTIONS"
  }

  datatype Preflight = Preflight(status: int, headers: map<string, string>)

  /** `handleCors`: a 204 carrying the CORS headers for OPTIONS, nothing for any other method. */
  function HandleCors(allowed: set<string>, req: Request): (r: Option<Preflight>)
    ensures r.Some? <==> IsPreflight(req)
    ensures r.Some? ==> r.value.status == 204 && r.value.headers == CorsHeaders(allowed, req.origin)
  {
    if req.httpMethod == "OPTIONS" then Some(Preflight(204, CorsHeaders(allowed, req.origin))) else None
  }
}

=== FILE: donation_details.dfy ===
/**
 * `osc_get_donation_details`: the donation a security code names, its restaurant's name,
 * and its packages projected for the OSC with their weight in kilograms.
 */
module DonationDetails {

  import opened Base
  import opened Text
  import opened Http
  import opened Donations

  // ----- Weight ------------------------------------------------------------------------

  /**
   * `total_kg`: an item counted in units weighs `unit_to_kg` each; any other item is
   * already measured in kilograms. A missing `unit_to_kg` multiplies as 0, as JavaScript's null does.
   */
  function TotalKg(unit: Option<string>, quantity: real, unitToKg: Option<real>): (kg: real)
    ensures unit != Some("unit") ==> kg == quantity
    ensures unit == Some("unit") && unitToKg.Some? ==> kg == quantity * unitToKg.value
  {
    if unit == Some("unit") then quantity * unitToKg.GetOr(0.0) else quantity
  }

  /** Weighing two lots of one item together is the same as weighing them apart. */
  lemma TotalKgAdditive(unit: Option<string>, q1: real, q2: real, unitToKg: Option<real>)
    ensures TotalKg(unit, q1 + q2, unitToKg) == TotalKg(unit, q1, unitToKg) + TotalKg(unit, q2, unitToKg)
  {
    var w := unitToKg.GetOr(0.0);
    assert (q1 + q2) * w == q1 * w + q2 * w;
  }

  /** Non-negative quantities and factors give a non-negative weight. */
  lemma TotalKgNonNegative(unit: Option<string>, quantity: real, unitToKg: Option<real>)
    requires quantity >= 0.0 && unitToKg.GetOr(0.0) >= 0.0
    ensures TotalKg(unit, quantity, unitToKg) >= 0.0
  {
  }

  /** A unit-counted item without a conversion factor reports zero kilograms whatever its quantity. */
  lemma MissingFactorWeighsNothing(quantity: real)
    ensures TotalKg(Some("unit"), quantity, None) == 0.0
  {
  }

  // ----- Package projection -----------------------------------------------------------

  /** An `items` row. */
  datatype ItemRow = ItemRow(id: string, name: string, description: Option<string>, unit: Option<string>, unitToKg: Option<real>)

  /** A `packages` row with its item embedded (`None` when the join yields nothing). */
  datatype PackageRow = PackageRow(
    id: string, quantity: real, createdAt: string, expiresAt: string, status: string, items: Option<ItemRow>)

  /** A `donation_packages` row with its package embedded. */
  datatype DonationPackage = DonationPackage(donationId: string, packageId: string, packages: Option<PackageRow>)

  datatype ItemView = ItemView(id: string, name: string, description: Option<string>, unit: Option<string>)

  datatype PackageView = PackageView(
    id: string, quantity: real, status: string, createdAt: string, expiresAt: string, totalKg: real, item: ItemView)

  /** A row whose embedded package and item are both there. */
  predicate Joined(row: DonationPackage) {
    row.packages.Some? && row.packages.value.items.Some?
  }

  /** One entry of the `packages` list; the item's `unit_to_kg` is used but not shown. */
  function View(row: DonationPackage): (v: PackageView)
    requires Joined(row)
    ensures var p := row.packages.value;
            && v.id == p.id && v.quantity == p.quantity && v.status == p.status
            && v.createdAt == p.createdAt && v.expiresAt == p.expiresAt
            && v.item == ItemView(p.items.value.id, p.items.value.name, p.items.value.description, p.items.value.unit)
            && v.totalKg == TotalKg(p.items.value.unit, p.quantity, p.items.value.unitToKg)
  {
    var p := row.packages.value;
    var it := p.items.value;
    PackageView(p.id, p.quantity, p.status, p.createdAt, p.expiresAt,
                TotalKg(it.unit, p.quantity, it.unitToKg), ItemView(it.id, it.name, it.description, it.unit))
  }

  /**
   * `(pkgRows ?? []).map(...)`: one entry per row, in row order; a row without its
   * package or item makes the mapping throw (`None`).
   */
  function Views(rows: seq<DonationPackage>): (r: Option<seq<PackageView>>)
    ensures r.Some? <==> forall i :: 0 <= i < |rows| ==> Joined(rows[i])
    ensures r.Some? ==> |r.value| == |rows|
    ensures r.Some? ==> forall i :: 0 <= i < |rows| ==> Joined(rows[i]) && r.value[i] == View(rows[i])
    decreases |rows|
  {
    if rows == [] then Some([])
    else if !Joined(rows[0]) then None
    else
      match Views(rows[1..])
      case None => None
      case Some(rest) => Some([View(rows[0])] + rest)
  }

  /** The projection shows the packages in row order: entry `i` is the package of row `i`. */
  lemma {:induction false} ViewsFollowRows(rows: seq<DonationPackage>, i: nat)
    requires Views(rows).Some? && i < |rows|
    ensures Joined(rows[i]) && Views(rows).value[i].id == rows[i].packages.value.id
    ensures Views(rows).value[i].quantity == rows[i].packages.value.quantity
    decreases |rows|
  {
    if i > 0 {
      ViewsFollowRows(rows[1..], i - 1);
      assert rows[1..][i - 1] == rows[i];
    }
  }

  // ----- Handler -----------------------------------------------------------------------

  /** A `donations` row as this handler selects it. */
  datatype DonationRow = DonationRow(id: string, status: string, createdAt: string, restaurantId: string, securityCode: string)

  /** The JSON the handler answers with. */
  datatype Details = Details(
    id: string, status: string, createdAt: string, restaurant: string, securityCode: string, packages: seq<PackageView>)

  /** `.eq("security_code", code).single()`. */
  function ByCode(donations: seq<DonationRow>, code: string): (r: Option<DonationRow>)
    ensures r.Some? <==> |Filter(donations, (d: DonationRow) => d.securityCode == code)| == 1
    ensures r.Some? ==> r.value in donations && r.value.securityCode == code
  {
    Single(donations, (d: DonationRow) => d.securityCode == code)
  }

  /** `.eq("donation_id", id)` on `donation_packages`, in table order. */
  function PackagesOf(links: seq<DonationPackage>, donationId: string): (r: seq<DonationPackage>)
    ensures forall k :: 0 <= k < |r| ==> r[k] in links && r[k].donationId == donationId
    ensures forall k :: 0 <= k < |links| && links[k].donationId == donationId ==> links[k] in r
  {
    Filter(links, (l: DonationPackage) => l.donationId == donationId)
  }

  /** The rows come back in table order: appending rows appends their matches. */
  lemma PackagesOfAppend(links: seq<DonationPackage>, more: seq<DonationPackage>, donationId: string)
    ensures PackagesOf(links + more, donationId) == PackagesOf(links, donationId) + PackagesOf(more, donationId)
    ensures forall l: DonationPackage :: PackagesOf([l], donationId) == (if l.donationId == donationId then [l] else [])
  {
    FilterConcat(links, more, (l: DonationPackage) => l.donationId == donationId);
  }

  /**
   * The handler. `packagesFailed` says the `donation_packages` read reported an error;
   * `restaurants` are the `restaurants` rows reduced to id and name.
   */
  function OscGetDonationDetails(
    req: Request, body: Result<CodeBody, string>, donations: seq<DonationRow>,
    restaurants: seq<Named>, links: seq<DonationPackage>, packagesFailed: bool): (r: Response<Details>)
    ensures req.httpMethod == "OPTIONS" ==> r == Response(204, NoBody)
    ensures req.httpMethod != "OPTIONS" && req.httpMethod != "POST" ==> r == Response(405, NoBody)
    ensures req.httpMethod == "POST" && body.Failure? ==> r == Response(400, Text("Invalid JSON"))
    ensures req.httpMethod == "POST" && body.Success? && !Present(body.value.securityCode) ==>
      r == Response(400, Text("Missing security_code"))
    ensures req.httpMethod == "POST" && body.Success? && Present(body.value.securityCode) ==>
      (r == Response(404, Text("Donation not found")) <==> ByCode(donations, body.value.securityCode.value).None?)
    ensures req.httpMethod == "POST" && body.Success? && Present(body.value.securityCode)
            && ByCode(donations, body.value.securityCode.value).Some?
            && SingleNamed(restaurants, ByCode(donations, body.value.securityCode.value).value.restaurantId).Failure? ==>
      r == Response(404, Text("Restaurant not found"))
    ensures req.httpMethod == "POST" && body.Success? && Present(body.value.securityCode)
            && ByCode(donations, body.value.securityCode.value).Some?
            && SingleNamed(restaurants, ByCode(donations, body.value.securityCode.value).value.restaurantId).Success?
            && packagesFailed ==>
      r == Response(500, Text("Error fetching packages"))
    ensures r.Response? && r.status == 200 ==>
      && req.httpMethod == "POST" && body.Success? && Present(body.value.securityCode)
      && var code := body.value.securityCode.value;
         && ByCode(donations, code).Some?
         && var d := ByCode(donations, code).value;
            && r.body.Json?
            && r.body.payload.securityCode == code
            && r.body.payload.id == d.id && r.body.payload.status == d.status && r.body.payload.createdAt == d.createdAt
            && Views(PackagesOf(links, d.id)) == Some(r.body.payload.packages)
            && SingleNamed(restaurants, d.restaurantId) == Success(Named(d.restaurantId, r.body.payload.restaurant))
  {
    if req.httpMethod == "OPTIONS" then Response(204, NoBody)
    else if req.httpMethod != "POST" then Response(405, NoBody)
    else if body.Failure? then Response(400, Text("Invalid JSON"))
    else if !Present(body.value.securityCode) then Response(400, Text("Missing security_code"))
    else
      var code := body.value.securityCode.value;
      match ByCode(donations, code)
      case None => Response(404, Text("Donation not found"))
      case Some(d) =>
        match SingleNamed(restaurants, d.restaurantId)
        case Failure(_) => Response(404, Text("Restaurant not found"))
        case Success(rest) =>
          if packagesFailed then Response(500, Text("Error fetching packages"))
          else
            match Views(PackagesOf(links, d.id))
            case None => Unhandled
            case Some(packages) =>
              Response(200, Json(Details(d.id, d.status, d.createdAt, rest.name, code, packages)))
  }

  /** A code held by one donation whose restaurant and packages are all there is answered with 200. */
  lemma KnownCodeAnswered(
    req: Request, code: string, donations: seq<DonationRow>, i: nat,
    restaurants: seq<Named>, links: seq<DonationPackage>)
    requires req.httpMethod == "POST" && code != "" && i < |donations|
    requires donations[i].securityCode == code
    requires forall j :: 0 <= j < |donations| && j != i ==> donations[j].securityCode != code
    requires SingleNamed(restaurants, donations[i].restaurantId).Success?
    requires forall k :: 0 <= k < |links| ==> Joined(links[k])
    ensures var r := OscGetDonationDetails(req, Success(CodeBody(Some(code))), donations, restaurants, links, false);
            r.Response? && r.status == 200 && r.body.Json? && r.body.payload.id == donations[i].id
  {
    FilterSingleton(donations, (d: DonationRow) => d.securityCode == code, i);
    var own := PackagesOf(links, donations[i].id);
    assert forall k :: 0 <= k < |own| ==> Joined(own[k]);
  }
}

=== FILE: donations.dfy ===
/**
 * The legacy `donations` table and the one write every legacy handler performs on it:
 * an `update ... where security_code = c and status = from`, taken as one atomic step.
 */
module Donations {

  import opened Base
  import opened Text

  /** The legacy donation life cycle. */
  datatype Status = Pending | Accepted | Denied | PickedUp

  /** The string the table stores for each status. */
  function StatusName(s: Status): (name: string)
    ensures name in {"pending", "accepted", "denied", "picked_up"}
  {
    match s
    case Pending => "pending"
    case Accepted => "accepted"
    case Denied => "denied"
    case PickedUp => "picked_up"
  }

  lemma StatusNamesDistinct(a: Status, b: Status)
    ensures StatusName(a) == StatusName(b) <==> a == b
  {
  }

  /** The only moves the legacy handlers make. */
  predicate LegalStep(from: Status, to: Status) {
    (from == Pending && (to == Accepted || to == Denied)) || (from == Accepted && to == PickedUp)
  }

  predicate IsTerminal(s: Status) {
    s == Denied || s == PickedUp
  }

  /** No legal step leaves a terminal status, and no step stays in place. */
  lemma TerminalHasNoStep(from: Status, to: Status)
    requires LegalStep(from, to)
    ensures !IsTerminal(from) && from != to
  {
  }

  datatype Donation = Donation(
    id: string,
    restaurantId: string,
    oscId: string,
    status: Status,
    securityCode: string,
    acceptedAt: Option<string>,
    pickedUpAt: Option<string>)

  /** The timestamp column a transition writes `now` into. */
  datatype Stamp = StampAcceptedAt | StampPickedUpAt

  /** One conditional update: which rows it selects, and what it does to one. */
  datatype Transition = Transition(code: string, from: Status, to: Status, stamp: Stamp, now: string)
  {
    predicate Selects(d: Donation) {
      d.securityCode == code && d.status == from
    }

    function Apply(d: Donation): (e: Donation)
      ensures e.id == d.id && e.restaurantId == d.restaurantId && e.oscId == d.oscId
      ensures e.securityCode == d.securityCode && e.status == to
      ensures stamp == StampAcceptedAt ==> e.acceptedAt == Some(now) && e.pickedUpAt == d.pickedUpAt
      ensures stamp == StampPickedUpAt ==> e.pickedUpAt == Some(now) && e.acceptedAt == d.acceptedAt
    {
      match stamp
      case StampAcceptedAt => d.(status := to, acceptedAt := Some(now))
      case StampPickedUpAt => d.(status := to, pickedUpAt := Some(now))
    }

    /** What the update does to one row: a selected row is rewritten, any other is kept. */
    function Step(d: Donation): Donation {
      if Selects(d) then Apply(d) else d
    }
  }

  /** The table after an update, and the updated rows as `.select(...)` returns them. */
  datatype Updated = Updated(table: seq<Donation>, rows: seq<Donation>)

  predicate NoneSelected(t: seq<Donation>, tr: Transition) {
    forall i :: 0 <= i < |t| ==> !tr.Selects(t[i])
  }

  /** The rows an update selects, as it rewrites them, in table order. */
  function Changed(t: seq<Donation>, tr: Transition): (rows: seq<Donation>)
    ensures rows == [] <==> NoneSelected(t, tr)
    ensures forall j :: 0 <= j < |rows| ==> rows[j].status == tr.to && rows[j].securityCode == tr.code
    ensures rows != [] ==> exists i :: 0 <= i < |t| && tr.Selects(t[i]) && rows[0] == tr.Apply(t[i])
    decreases |t|
  {
    if t == [] then []
    else if tr.Selects(t[0]) then [tr.Apply(t[0])] + Changed(t[1..], tr)
    else
      var rest := Changed(t[1..], tr);
      assert NoneSelected(t[1..], tr) ==> NoneSelected(t, tr) by {
        assert forall i :: 1 <= i < |t| ==> t[1..][i - 1] == t[i];
      }
      assert rest != [] ==> exists i :: 0 <= i < |t| && tr.Selects(t[i]) && rest[0] == tr.Apply(t[i]) by {
        if rest != [] {
          var k :| 0 <= k < |t[1..]| && tr.Selects(t[1..][k]) && rest[0] == tr.Apply(t[1..][k]);
          assert t[1..][k] == t[k + 1];
        }
      }
      rest
  }

  /**
   * `.update({...}).eq("security_code", c).eq("status", from).select(...)`: every
   * selected row is rewritten in place, and the rewritten rows are returned.
   */
  function Update(t: seq<Donation>, tr: Transition): (u: Updated)
    ensures |u.table| == |t|
    ensures forall i :: 0 <= i < |t| ==> u.table[i] == tr.Step(t[i])
    ensures u.rows == [] <==> NoneSelected(t, tr)
    ensures forall j :: 0 <= j < |u.rows| ==> u.rows[j].status == tr.to && u.rows[j].securityCode == tr.code
    ensures u.rows != [] ==> exists i :: 0 <= i < |t| && tr.Selects(t[i]) && u.rows[0] == tr.Apply(t[i])
  {
    Updated(seq(|t|, i requires 0 <= i < |t| => tr.Step(t[i])), Changed(t, tr))
  }

  /** Every row an update changes takes a legal step, provided the transition itself is one. */
  lemma UpdateTakesLegalSteps(t: seq<Donation>, tr: Transition)
    requires LegalStep(tr.from, tr.to)
    ensures var t' := Update(t, tr).table;
            forall i :: 0 <= i < |t| ==> t'[i] == t[i] || LegalStep(t[i].status, t'[i].status)
  {
  }

  /** Rows in a terminal status are never touched by a legal update. */
  lemma TerminalRowsStable(t: seq<Donation>, tr: Transition, i: nat)
    requires LegalStep(tr.from, tr.to)
    requires i < |t| && IsTerminal(t[i].status)
    ensures Update(t, tr).table[i] == t[i]
  {
  }

  /** After an update, no row is still selected by it: the same update again matches nothing. */
  lemma {:induction false} UpdateLeavesNothingSelected(t: seq<Donation>, tr: Transition)
    requires tr.from != tr.to
    ensures NoneSelected(Update(t, tr).table, tr)
    ensures Update(Update(t, tr).table, tr) == Updated(Update(t, tr).table, [])
    decreases |t|
  {
    var t' := Update(t, tr).table;
    assert NoneSelected(t', tr);
    if t != [] {
      UpdateLeavesNothingSelected(t[1..], tr);
      assert Update(t, tr).table[1..] == Update(t[1..], tr).table;
    }
  }

  /** A row with a different code, or a status other than `from`, is selected by nobody. */
  lemma UpdateOtherCodeUnchanged(t: seq<Donation>, tr: Transition, i: nat)
    requires i < |t| && (t[i].securityCode != tr.code || t[i].status != tr.from)
    ensures Update(t, tr).table[i] == t[i]
  {
  }

  /** `.insert([...])`: a new row at the end of the table. */
  function Insert(t: seq<Donation>, d: Donation): (t': seq<Donation>)
    ensures |t'| == |t| + 1 && t'[..|t|] == t && t'[|t|] == d
  {
    t + [d]
  }

  // ----- Single-row reads -------------------------------------------------------

  /** The message PostgREST gives when `.single()` does not find exactly one row. */
  const SingleRowError := "JSON object requested, multiple (or no) rows returned"

  /** A row of a lookup table (`restaurants`, `osc`) reduced to its key and name. */
  datatype Named = Named(id: string, name: string)

  /** `.eq("id", id).single()`: the one row with that id, an error otherwise. */
  function SingleNamed(rows: seq<Named>, id: string): (r: Result<Named, string>)
    ensures r.Success? <==> |Filter(rows, (n: Named) => n.id == id)| == 1
    ensures r.Success? ==> r.value in rows && r.value.id == id
    ensures r.Failure? ==> r.error == SingleRowError
  {
    match Single(rows, (n: Named) => n.id == id)
    case Some(n) => Success(n)
    case None => Failure(SingleRowError)
  }

  /** With ids unique, a present id is always found. */
  lemma SingleNamedFindsUnique(rows: seq<Named>, i: nat)
    requires i < |rows|
    requires forall j :: 0 <= j < |rows| && j != i ==> rows[j].id != rows[i].id
    ensures SingleNamed(rows, rows[i].id) == Success(rows[i])
  {
    FilterSingleton(rows, (n: Named) => n.id == rows[i].id, i);
  }
}

=== FILE: geocode.dfy ===
/**
 * Geocoding by CEP through Nominatim: the input clean-up, the ladder of progressively
 * coarser searches and the packing of the first hit. The search itself is an oracle
 * from query parameters to the reply Nominatim gave.
 */
module Geocode {

  import opened Base
  import opened Text
  import Cep

  /** `GeocodeInput`: every field may be absent (`null` or `undefined`). */
  datatype GeocodeInput = GeocodeInput(
    cep: Option<string>,
    number: Option<string>,
    street: Option<string>,
    city: Option<string>,
    uf: Option<string>,
    neighborhood: Option<string>)

  /** One row of a Nominatim search reply; coordinates stay the strings Nominatim sends. */
  datatype NomHit = NomHit(lat: string, lon: string)

  /** A Nominatim reply: its HTTP status and the decoded rows. */
  datatype NomReply = NomReply(status: nat, rows: seq<NomHit>)

  /** `GeoResult`, with the coordinates left unparsed. */
  datatype GeoResult = GeoResult(
    street: Option<string>,
    neighborhood: Option<string>,
    city: Option<string>,
    uf: Option<string>,
    lat: string,
    lng: string)

  /** Query-string parameters, in insertion order. */
  type Params = seq<(string, string)>

  const InvalidCep := "CEP inv\U{E1}lido (esperado 8 d\U{ED}gitos)"
  const NoCoordinates := "N\U{E3}o foi poss\U{ED}vel obter coordenadas para o CEP informado"

  // ----- Input clean-up -------------------------------------------------------

  /** `safeTrim`: absent stays absent, blank becomes absent, anything else is trimmed. */
  function SafeTrim(v: Option<string>): (r: Option<string>)
    ensures v.None? ==> r.None?
    ensures v.Some? ==> (r.None? <==> forall i :: 0 <= i < |v.value| ==> IsSpace(v.value[i]))
    ensures r.Some? ==> r.value != [] && IsTrimmed(r.value) && |r.value| <= |v.value|
    ensures r.Some? ==> r.value == Trim(v.value)
  {
    match v
    case None => None
    case Some(s) =>
      var t := Trim(s);
      if t == [] then None else Some(t)
  }

  /** A present, non-blank, already trimmed value passes through untouched. */
  lemma SafeTrimKeepsTrimmed(s: string)
    requires s != [] && IsTrimmed(s)
    ensures SafeTrim(Some(s)) == Some(s)
  {
  }

  lemma SafeTrimIdempotent(v: Option<string>)
    ensures SafeTrim(SafeTrim(v)) == SafeTrim(v)
  {
  }

  /** `String(input.cep ?? "").replace(/\D/g, "")`. */
  function CleanCep(cep: Option<string>): (r: string)
    ensures AllDigits(r)
    ensures cep.None? ==> r == []
  {
    Digits(cep.GetOr(""))
  }

  /** The guard in front of every lookup is exactly the CEP shape check of `validateCep`. */
  lemma CepGuardIsValidateCep(cep: Option<string>)
    ensures |CleanCep(cep)| == 8 <==> Cep.ValidateCep(cep.GetOr(""))
  {
  }

  // ----- The search ladder -----------------------------------------------------

  /** The parameters every attempt ends with. */
  function Located(cep: string): Params {
    [("postalcode", cep), ("country", "Brazil"), ("countrycodes", "br")]
  }

  /** Attempt 1: street with house number, city, state. */
  function FullQuery(street: string, number: string, city: string, uf: string, cep: string): Params {
    [("street", street + " " + number), ("city", city), ("state", uf)] + Located(cep)
  }

  /** Attempt 2: street without number, city, state. */
  function StreetQuery(street: string, city: string, uf: string, cep: string): Params {
    [("street", street), ("city", city), ("state", uf)] + Located(cep)
  }

  /** Attempt 3: city and state. */
  function CityQuery(city: string, uf: string, cep: string): Params {
    [("city", city), ("state", uf)] + Located(cep)
  }

  /** Every query of the ladder names the CEP, the country and the country code. */
  predicate Pinned(p: Params, cep: string) {
    ("postalcode", cep) in p && ("country", "Brazil") in p && ("countrycodes", "br") in p
  }

  /**
   * The attempts `geocodeByCep` is prepared to issue, in order: each is eligible when the
   * fields it needs are present, and the postal-code-only query closes the ladder.
   */
  function Attempts(street: Option<string>, number: Option<string>, city: Option<string>, uf: Option<string>, cep: string): (plan: seq<Params>)
    ensures 1 <= |plan| <= 4
    ensures plan[|plan| - 1] == Located(cep)
    ensures forall k :: 0 <= k < |plan| ==> Pinned(plan[k], cep)
    ensures |plan| == 4 <==> street.Some? && number.Some? && city.Some? && uf.Some?
    ensures |plan| >= 3 <==> street.Some? && city.Some? && uf.Some?
    ensures |plan| >= 2 <==> city.Some? && uf.Some?
    ensures |plan| == 4 ==> plan[0] == FullQuery(street.value, number.value, city.value, uf.value, cep)
    ensures |plan| >= 3 ==> plan[|plan| - 3] == StreetQuery(street.value, city.value, uf.value, cep)
    ensures |plan| >= 2 ==> plan[|plan| - 2] == CityQuery(city.value, uf.value, cep)
  {
    var full := if street.Some? && number.Some? && city.Some? && uf.Some?
      then [FullQuery(street.value, number.value, city.value, uf.value, cep)] else [];
    var streetOnly := if street.Some? && city.Some? && uf.Some?
      then [StreetQuery(street.value, city.value, uf.value, cep)] else [];
    var cityOnly := if city.Some? && uf.Some? then [CityQuery(city.value, uf.value, cep)] else [];
    full + streetOnly + cityOnly + [Located(cep)]
  }

  /** The query string actually sent: the fixed defaults followed by the attempt's parameters. */
  function Query(p: Params): (q: Params)
    ensures |q| == |p| + 3 && q[3..] == p
    ensures q[0] == ("format", "json") && q[1] == ("limit", "1") && q[2] == ("addressdetails", "0")
  {
    [("format", "json"), ("limit", "1"), ("addressdetails", "0")] + p
  }

  /** What one search means to the ladder. */
  datatype Answer = Miss | Found(hit: NomHit) | Failed(message: string)

  function SearchError(status: nat): string {
    if status == 429 then "Nominatim rate-limited (429)"
    else if status == 403 then "Nominatim forbidden (403) - verifique User-Agent"
    else "Falha no geocoding (" + NatToString(status) + ")"
  }

  predicate IsOk(reply: NomReply) {
    200 <= reply.status <= 299
  }

  /** `searchNom`: a non-ok status fails, an empty row list misses, otherwise the first row. */
  function Interpret(reply: NomReply): (a: Answer)
    ensures a.Failed? <==> !IsOk(reply)
    ensures a.Miss? <==> IsOk(reply) && reply.rows == []
    ensures a.Found? ==> a.hit == reply.rows[0]
  {
    if !IsOk(reply) then Failed(SearchError(reply.status))
    else if reply.rows == [] then Miss
    else Found(reply.rows[0])
  }

  function Ask(search: Params -> NomReply, p: Params): Answer {
    Interpret(search(Query(p)))
  }

  /** The trimmed fields `pack` echoes back. */
  datatype Echo = Echo(street: Option<string>, neighborhood: Option<string>, city: Option<string>, uf: Option<string>)

  /** `pack`: the echoed fields with the hit's coordinates. */
  function Pack(hit: NomHit, echo: Echo): (g: GeoResult)
    ensures g.street == echo.street && g.neighborhood == echo.neighborhood
    ensures g.city == echo.city && g.uf == echo.uf
    ensures g.lat == hit.lat && g.lng == hit.lon
  {
    GeoResult(echo.street, echo.neighborhood, echo.city, echo.uf, hit.lat, hit.lon)
  }

  /** The result of a run together with the attempts it issued, in order. */
  datatype Outcome = Outcome(result: Result<GeoResult, string>, issued: seq<Params>)

  /**
   * The attempts of `plan` issued one after another until one finds a row or fails;
   * running past the end is the "no coordinates" error.
   */
  function Run(plan: seq<Params>, search: Params -> NomReply, echo: Echo): (o: Outcome)
    ensures o.issued <= plan
    ensures plan != [] ==> o.issued != []
    ensures forall k :: 0 <= k < |o.issued| - 1 ==> Ask(search, o.issued[k]).Miss?
    ensures o.issued != [] && Ask(search, o.issued[|o.issued| - 1]).Miss? ==> o.issued == plan
    ensures o.result.Success? <==> o.issued != [] && Ask(search, o.issued[|o.issued| - 1]).Found?
    ensures o.result.Success? ==> o.result.value == Pack(Ask(search, o.issued[|o.issued| - 1]).hit, echo)
    ensures o.issued != [] && Ask(search, o.issued[|o.issued| - 1]).Failed? ==>
      o.result == Failure(Ask(search, o.issued[|o.issued| - 1]).message)
    ensures o.issued != [] && Ask(search, o.issued[|o.issued| - 1]).Miss? ==> o.result == Failure(NoCoordinates)
    ensures o.issued == [] ==> o.result == Failure(NoCoordinates)
    decreases |plan|
  {
    if plan == [] then Outcome(Failure(NoCoordinates), [])
    else
      match Ask(search, plan[0])
      case Found(hit) => Outcome(Success(Pack(hit, echo)), [plan[0]])
      case Failed(message) => Outcome(Failure(message), [plan[0]])
      case Miss =>
        var rest := Run(plan[1..], search, echo);
        Outcome(rest.result, [plan[0]] + rest.issued)
  }

  /** `geocodeByCep`. */
  function GeocodeByCep(input: GeocodeInput, search: Params -> NomReply): (o: Outcome)
    ensures o.issued == [] <==> !Cep.ValidateCep(input.cep.GetOr(""))
    ensures o.issued == [] ==> o.result == Failure(InvalidCep)
    ensures o.issued <= Attempts(SafeTrim(input.street), SafeTrim(input.number), SafeTrim(input.city), SafeTrim(input.uf), CleanCep(input.cep))
    ensures forall k :: 0 <= k < |o.issued| ==> Pinned(o.issued[k], CleanCep(input.cep)) && |CleanCep(input.cep)| == 8
    ensures o.result.Success? ==>
      && o.result.value.street == SafeTrim(input.street)
      && o.result.value.neighborhood == SafeTrim(input.neighborhood)
      && o.result.value.city == SafeTrim(input.city)
      && o.result.value.uf == SafeTrim(input.uf)
    ensures forall k :: 0 <= k < |o.issued| - 1 ==> Ask(search, o.issued[k]).Miss?
    ensures o.result.Success? <==> o.issued != [] && Ask(search, o.issued[|o.issued| - 1]).Found?
    ensures o.result.Success? ==>
      && var hit := Ask(search, o.issued[|o.issued| - 1]).hit;
         o.result.value.lat == hit.lat && o.result.value.lng == hit.lon
    ensures o.issued != [] && Ask(search, o.issued[|o.issued| - 1]).Failed? ==>
      o.result == Failure(Ask(search, o.issued[|o.issued| - 1]).message)
    ensures o.issued != [] && Ask(search, o.issued[|o.issued| - 1]).Miss? ==>
      && o.issued == Attempts(SafeTrim(input.street), SafeTrim(input.number), SafeTrim(input.city), SafeTrim(input.uf), CleanCep(input.cep))
      && o.result == Failure(NoCoordinates)
  {
    var cep := CleanCep(input.cep);
    if |cep| != 8 then
      Outcome(Failure(InvalidCep), [])
    else
      var street := SafeTrim(input.street);
      var city := SafeTrim(input.city);
      var uf := SafeTrim(input.uf);
      var echo := Echo(street, SafeTrim(input.neighborhood), city, uf);
      var plan := Attempts(street, SafeTrim(input.number), city, uf, cep);
      Run(plan, search, echo)
  }

  // ----- Properties of a run ---------------------------------------------------

  /** The first attempt that finds a row wins, and nothing after it is issued. */
  lemma {:induction false} FirstHitWins(plan: seq<Params>, search: Params -> NomReply, echo: Echo, j: nat)
    requires j < |plan|
    requires forall k :: 0 <= k < j ==> Ask(search, plan[k]).Miss?
    requires Ask(search, plan[j]).Found?
    ensures Run(plan, search, echo) == Outcome(Success(Pack(Ask(search, plan[j]).hit, echo)), plan[..j + 1])
    decreases j
  {
    if j > 0 {
      FirstHitWins(plan[1..], search, echo, j - 1);
      assert [plan[0]] + plan[1..][..j] == plan[..j + 1];
    }
  }

  /** When every attempt misses, every attempt is issued and the run ends in the "no coordinates" error. */
  lemma {:induction false} AllMissesExhaustPlan(plan: seq<Params>, search: Params -> NomReply, echo: Echo)
    requires forall k :: 0 <= k < |plan| ==> Ask(search, plan[k]).Miss?
    ensures Run(plan, search, echo) == Outcome(Failure(NoCoordinates), plan)
    decreases |plan|
  {
    if plan != [] {
      AllMissesExhaustPlan(plan[1..], search, echo);
      assert [plan[0]] + plan[1..] == plan;
    }
  }

  /**
   * For a valid CEP the geocoder answers with the first attempt of its plan that finds a row:
   * the attempts up to it are issued, none after it, and its row's coordinates are returned.
   */
  lemma GeocodeFirstHitWins(input: GeocodeInput, search: Params -> NomReply, j: nat)
    requires Cep.ValidateCep(input.cep.GetOr(""))
    requires var plan := Attempts(SafeTrim(input.street), SafeTrim(input.number), SafeTrim(input.city), SafeTrim(input.uf), CleanCep(input.cep));
             && j < |plan|
             && (forall k :: 0 <= k < j ==> Ask(search, plan[k]).Miss?)
             && Ask(search, plan[j]).Found?
    ensures var plan := Attempts(SafeTrim(input.street), SafeTrim(input.number), SafeTrim(input.city), SafeTrim(input.uf), CleanCep(input.cep));
            var o := GeocodeByCep(input, search);
            && o.issued == plan[..j + 1]
            && o.result.Success?
            && o.result.value.lat == Ask(search, plan[j]).hit.lat
            && o.result.value.lng == Ask(search, plan[j]).hit.lon
  {
    var plan := Attempts(SafeTrim(input.street), SafeTrim(input.number), SafeTrim(input.city), SafeTrim(input.uf), CleanCep(input.cep));
    var echo := Echo(SafeTrim(input.street), SafeTrim(input.neighborhood), SafeTrim(input.city), SafeTrim(input.uf));
    FirstHitWins(plan, search, echo, j);
  }

  /** The postal-code-only query is reached whenever every richer query missed. */
  lemma PostalOnlyReached(input: GeocodeInput, search: Params -> NomReply)
    requires Cep.ValidateCep(input.cep.GetOr(""))
    requires var plan := Attempts(SafeTrim(input.street), SafeTrim(input.number), SafeTrim(input.city), SafeTrim(input.uf), CleanCep(input.cep));
             forall k :: 0 <= k < |plan| - 1 ==> Ask(search, plan[k]).Miss?
    ensures Located(CleanCep(input.cep)) in GeocodeByCep(input, search).issued
  {
  }
}

=== FILE: http.dfy ===
/**
 * The request/response vocabulary shared by the edge-function handlers:
 * what a handler reads from a request, what it answers, and the outbound
 * calls it makes along the way.
 */
module Http {

  import opened Base
  import opened Text

  /** The parts of an HTTP request the handlers look at (the JSON body is passed separately). */
  datatype Request = Request(httpMethod: string, origin: Option<string>, authorization: Option<string>)

  /** A response body: none, plain text, a `{code, message}` JSON error, a `{code}` JSON object, or a payload. */
  datatype Body<+T> =
    | NoBody
    | Text(text: string)
    | Coded(code: string, message: string)
    | CodeOnly(code: string)
    | Json(payload: T)

  /**
   * What a handler answers. `Unhandled` stands for an exception that escapes the
   * handler; the reply the serving framework then produces is not part of this model.
   */
  datatype Response<+T> = Response(status: int, body: Body<T>) | Unhandled

  /** The `{ security_code }` body most handlers read. */
  datatype CodeBody = CodeBody(securityCode: Option<string>)

  /** An outbound call a handler makes: a database RPC, an edge-function invocation, a webhook post. */
  datatype Effect =
    | Rpc(name: string, argument: string)
    | Invoke(target: string, donationId: string, securityCode: string)
    | Post(content: string)

  /** A reply and the outbound calls made on the way to it. */
  datatype Replied<+T> = Replied(response: Response<T>, effects: seq<Effect>)

  /** A JSON field is truthy when it is present and not the empty string. */
  predicate Present(v: Option<string>) {
    v.Some? && v.value != ""
  }

  const BearerPrefix := "Bearer "

  /**
   * `req.headers.get("authorization")?.replace("Bearer ", "")`, with a falsy
   * result (missing header or empty token) collapsed to `None`.
   */
  function Jwt(authorization: Option<string>): (r: Option<string>)
    ensures r.Some? ==> authorization.Some? && r.value != ""
    ensures (authorization.Some? && !Contains(authorization.value, BearerPrefix) && authorization.value != "")
            ==> r == authorization
  {
    match authorization
    case None => None
    case Some(h) =>
      var token := ReplaceFirst(h, BearerPrefix, "");
      if token == "" then None else Some(token)
  }

  /** A `Bearer <token>` header yields exactly the token. */
  lemma JwtOfBearer(token: string)
    requires token != ""
    ensures Jwt(Some(BearerPrefix + token)) == Some(token)
  {
    var h := BearerPrefix + token;
    assert BearerPrefix <= h;
    assert IndexOf(h, BearerPrefix) == Some(0);
    assert h[..0] + "" + h[|BearerPrefix|..] == token;
  }

  /** The JWT guard fails exactly for a missing header, an empty header, or the bare prefix. */
  lemma JwtMissingIff(authorization: Option<string>)
    ensures Jwt(authorization).None? <==>
              authorization == None || authorization == Some("") || authorization == Some(BearerPrefix)
  {
    if authorization.Some? {
      var h := authorization.value;
      match IndexOf(h, BearerPrefix)
      case None =>
      case Some(i) =>
        assert |ReplaceFirst(h, BearerPrefix, "")| == |h| - |BearerPrefix|;
        if |h| == |BearerPrefix| {
          assert h == h[i..i + |BearerPrefix|];
        }
    }
    if authorization == Some(BearerPrefix) {
      assert BearerPrefix <= BearerPrefix;
    }
  }
}

=== FILE: intent_handlers.dfy ===
/**
 * The intent-era handlers `osc_accept_donation`, `restaurant_release_donation` and
 * `restaurant_create_donation`. Each calls one database RPC whose body is not part of this
 * model; what is modelled is the guards in front of the call and the classification of
 * what the RPC answered. The RPC's answer is an input, and the calls a handler makes are
 * returned in order as effects.
 */
module IntentHandlers {

  import opened Base
  import opened Text
  import opened Http
  import opened Donations

  // ----- RPC answers --------------------------------------------------------------------

  /** What an RPC returned on success: a set of rows, or a single (possibly null) value. */
  datatype RpcData<+R> = Rows(rows: seq<R>) | Scalar(value: Option<R>)

  /** An RPC answer: the database error's message, or the data. */
  datatype RpcOutcome<+R> = RpcError(message: string) | RpcOk(data: RpcData<R>)

  /** `Array.isArray(data) ? data[0] : data`, with a falsy result as `None`. */
  function FirstRow<R>(data: RpcData<R>): (r: Option<R>)
    ensures data.Rows? ==> (r.Some? <==> data.rows != []) && (r.Some? ==> r.value == data.rows[0])
    ensures data.Scalar? ==> r == data.value
  {
    match data
    case Rows(rows) => if rows == [] then None else Some(rows[0])
    case Scalar(v) => v
  }

  // ----- Error tables written as object literals ----------------------------------------

  /** One entry of an error table: the status to answer with and the message to show. */
  datatype Entry = Entry(status: int, message: string)

  /** An object literal mapping RPC error messages to entries, in source order. */
  type ErrorTable = seq<(string, Entry)>

  /** The table's own entry for `key`, if it has one. */
  function OwnLookup(table: ErrorTable, key: string): (r: Option<Entry>)
    ensures r.Some? <==> exists i :: 0 <= i < |table| && table[i].0 == key
    ensures r.Some? ==> (key, r.value) in table
    decreases |table|
  {
    if table == [] then None
    else if table[0].0 == key then Some(table[0].1)
    else OwnLookup(table[1..], key)
  }

  /** The names every object literal inherits from `Object.prototype`. */
  const ObjectPrototypeNames: set<string> := {
    "constructor", "__proto__", "hasOwnProperty", "isPrototypeOf", "propertyIsEnumerable",
    "toLocaleString", "toString", "valueOf",
    "__defineGetter__", "__defineSetter__", "__lookupGetter__", "__lookupSetter__"
  }

  /** What `table[key]` evaluates to: an own entry, an inherited member, or `undefined`. */
  datatype Lookup = Own(entry: Entry) | Inherited | Undefined

  /** `map[error.message]` as written: inherited members are found too. */
  function LookupAsWritten(table: ErrorTable, key: string): (r: Lookup)
    ensures r.Own? <==> OwnLookup(table, key).Some?
    ensures r.Own? ==> r.entry == OwnLookup(table, key).value
    ensures r.Inherited? <==> OwnLookup(table, key).None? && key in ObjectPrototypeNames
  {
    match OwnLookup(table, key)
    case Some(e) => Own(e)
    case None => if key in ObjectPrototypeNames then Inherited else Undefined
  }

  /**
   * The reply the source builds from a found entry. An inherited member has neither a
   * `status` (so the `Response` defaults to 200) nor a `message` (so the JSON body
   * holds only `code`).
   */
  function FoundReplyAsWritten<T>(key: string, found: Lookup): (r: Response<T>)
    requires !found.Undefined?
    ensures found.Own? ==> r == Response(found.entry.status, Coded(key, found.entry.message))
    ensures found.Inherited? ==> r == Response(200, CodeOnly(key))
  {
    match found
    case Own(e) => Response(e.status, Coded(key, e.message))
    case Inherited => Response(200, CodeOnly(key))
  }

  // ----- osc_accept_donation ---------------------------------------------------------

  const AcceptTable: ErrorTable := [
    ("INTENT_NOT_FOUND", Entry(404, "Invalid or unknown security code.")),
    ("INTENT_NOT_WAITING", Entry(409, "This offer is not open for acceptance.")),
    ("INTENT_EXPIRED", Entry(410, "This offer has expired."))
  ]

  const DbError := "DB_ERROR"

  /** The row `accept_donation_intent` returns. */
  datatype AcceptedIntent = AcceptedIntent(donationId: string, intentId: string)

  /** The code after `body?.security_code?.trim()`, or `None` when that is falsy. */
  function TrimmedCode(body: CodeBody): (r: Option<string>)
    ensures r.Some? ==> body.securityCode.Some? && r.value == Trim(body.securityCode.value) && r.value != ""
    ensures r.None? ==> body.securityCode.None? || Trim(body.securityCode.value) == ""
  {
    match body.securityCode
    case None => None
    case Some(c) => if Trim(c) == "" then None else Some(Trim(c))
  }

  /** What `osc_accept_donation` answers once the RPC has answered, error table lookup as written. */
  function AcceptOutcomeAsWritten(rpc: RpcOutcome<AcceptedIntent>): (r: Response<()>)
    ensures rpc.RpcError? && LookupAsWritten(AcceptTable, rpc.message).Inherited? ==>
      r == Response(200, CodeOnly(rpc.message))
  {
    match rpc
    case RpcError(msg) =>
      var found := LookupAsWritten(AcceptTable, msg);
      if !found.Undefined? then FoundReplyAsWritten(msg, found) else Response(400, Coded(DbError, msg))
    case RpcOk(data) =>
      if FirstRow(data).None? then Response(500, Coded("NO_RESULT", "No result returned.")) else Response(204, NoBody)
  }

  /** The same classification with the lookup restricted to the table's own entries. */
  function AcceptOutcome(rpc: RpcOutcome<AcceptedIntent>): (r: Response<()>)
    ensures rpc.RpcError? && rpc.message == "INTENT_NOT_FOUND" ==>
      r == Response(404, Coded("INTENT_NOT_FOUND", "Invalid or unknown security code."))
    ensures rpc.RpcError? && rpc.message == "INTENT_NOT_WAITING" ==>
      r == Response(409, Coded("INTENT_NOT_WAITING", "This offer is not open for acceptance."))
    ensures rpc.RpcError? && rpc.message == "INTENT_EXPIRED" ==>
      r == Response(410, Coded("INTENT_EXPIRED", "This offer has expired."))
    ensures rpc.RpcError? && rpc.message !in {"INTENT_NOT_FOUND", "INTENT_NOT_WAITING", "INTENT_EXPIRED"} ==>
      r == Response(400, Coded(DbError, rpc.message))
    ensures rpc.RpcOk? ==>
      r == (if FirstRow(rpc.data).None? then Response(500, Coded("NO_RESULT", "No result returned.")) else Response(204, NoBody))
  {
    match rpc
    case RpcError(msg) =>
      (match OwnLookup(AcceptTable, msg)
       case Some(e) => Response(e.status, Coded(msg, e.message))
       case None => Response(400, Coded(DbError, msg)))
    case RpcOk(data) =>
      if FirstRow(data).None? then Response(500, Coded("NO_RESULT", "No result returned.")) else Response(204, NoBody)
  }

  /** `osc_accept_donation`: preflight, method, JSON, trimmed code, then `accept_donation_intent`. */
  function OscAcceptDonation(req: Request, body: Result<CodeBody, string>, rpc: RpcOutcome<AcceptedIntent>): (r: Replied<()>)
    ensures req.httpMethod == "OPTIONS" ==> r == Replied(Response(204, NoBody), [])
    ensures req.httpMethod != "OPTIONS" && req.httpMethod != "POST" ==> r == Replied(Response(405, NoBody), [])
    ensures req.httpMethod == "POST" && body.Failure? ==> r == Replied(Response(400, Text("Invalid JSON")), [])
    ensures req.httpMethod == "POST" && body.Success? && TrimmedCode(body.value).None? ==>
      r == Replied(Response(400, Text("Missing security_code")), [])
    ensures r.effects != [] ==>
      req.httpMethod == "POST" && body.Success? && TrimmedCode(body.value).Some?
      && r == Replied(AcceptOutcome(rpc), [Rpc("accept_donation_intent", TrimmedCode(body.value).value)])
    ensures req.httpMethod == "POST" && body.Success? && TrimmedCode(body.value).Some? ==>
      r == Replied(AcceptOutcome(rpc), [Rpc("accept_donation_intent", TrimmedCode(body.value).value)])
    ensures r.response == Response(204, NoBody) && req.httpMethod != "OPTIONS" ==>
      rpc.RpcOk? && FirstRow(rpc.data).Some?
  {
    if req.httpMethod == "OPTIONS" then Replied(Response(204, NoBody), [])
    else if req.httpMethod != "POST" then Replied(Response(405, NoBody), [])
    else if body.Failure? then Replied(Response(400, Text("Invalid JSON")), [])
    else
      match TrimmedCode(body.value)
      case None => Replied(Response(400, Text("Missing security_code")), [])
      case Some(code) => Replied(AcceptOutcome(rpc), [Rpc("accept_donation_intent", code)])
  }

  lemma TrimPadded(code: string)
    requires code != "" && IsTrimmed(code)
    ensures Trim(" " + code + "\n") == code
  {
    var padded := " " + code + "\n";
    var tail := code + "\n";
    assert padded[0] == ' ' && padded[1..] == tail;
    assert tail[0] == code[0] && !IsSpace(tail[0]);
    assert DropWhile(padded, IsSpace) == tail;
    assert tail[|tail| - 1] == '\n' && tail[..|tail| - 1] == code;
    assert DropWhileEnd(code, IsSpace) == code;
    assert DropWhileEnd(tail, IsSpace) == code;
  }

  /** The code is trimmed before the RPC sees it, so padding does not change the call. */
  lemma AcceptIgnoresPadding(req: Request, code: string, rpc: RpcOutcome<AcceptedIntent>)
    requires req.httpMethod == "POST" && code != "" && IsTrimmed(code)
    ensures OscAcceptDonation(req, Success(CodeBody(Some(" " + code + "\n"))), rpc)
         == OscAcceptDonation(req, Success(CodeBody(Some(code))), rpc)
  {
    TrimPadded(code);
    var padded := CodeBody(Some(" " + code + "\n"));
    var plain := CodeBody(Some(code));
    assert TrimmedCode(padded) == TrimmedCode(plain);
    var call := Replied(AcceptOutcome(rpc), [Rpc("accept_donation_intent", TrimmedCode(plain).value)]);
    assert OscAcceptDonation(req, Success(padded), rpc) == call;
    assert OscAcceptDonation(req, Success(plain), rpc) == call;
  }

  /** The match is exact: a message that merely contains a known code is a generic DB error. */
  lemma AcceptMatchesExactly(prefix: string)
    requires prefix != ""
    ensures AcceptOutcome(RpcError(prefix + "INTENT_NOT_FOUND")) ==
            Response(400, Coded(DbError, prefix + "INTENT_NOT_FOUND"))
  {
    var m := prefix + "INTENT_NOT_FOUND";
    assert m[|m| - 1] == 'D';
    assert m != "INTENT_NOT_FOUND";
  }

  /** As written, an RPC error named like an `Object.prototype` member yields a 200 with a code-only body. */
  lemma PrototypeNameAnswers200()
    ensures AcceptOutcomeAsWritten(RpcError("constructor")) == Response(200, CodeOnly("constructor"))
    ensures AcceptOutcome(RpcError("constructor")) == Response(400, Coded(DbError, "constructor"))
  {
    assert OwnLookup(AcceptTable, "constructor").None?;
  }

  /** Apart from inherited names the corrected lookup agrees with the source. */
  lemma AcceptOutcomeAgreesOffPrototype(rpc: RpcOutcome<AcceptedIntent>)
    requires rpc.RpcError? ==> rpc.message !in ObjectPrototypeNames
    ensures AcceptOutcome(rpc) == AcceptOutcomeAsWritten(rpc)
  {
  }

  // ----- restaurant_release_donation ---------------------------------------------------

  /** The row `donation_mark_picked_up` returns. */
  datatype PickedUpRow = PickedUpRow(donationId: string, restaurantId: string, oscId: string)

  /** A `donations` row as the summary read sees it. */
  datatype DonationSummaryRow = DonationSummaryRow(id: string, status: string)

  /** The 200 payload; a field whose read failed is `null` (`None`). Packages are not modelled. */
  datatype ReleaseSummary = ReleaseSummary(
    donationId: Option<string>, status: Option<string>, restaurant: Option<string>, osc: Option<string>)

  /** The tables the enrichment reads. */
  datatype Directory = Directory(restaurants: seq<Named>, oscs: seq<Named>, donations: seq<DonationSummaryRow>)

  const InternalError := "INTERNAL_ERROR"
  const MissingJwtCode := "MISSING_JWT"

  /** The error classification of `restaurant_release_donation`: substring tests, not-found first. */
  function ReleaseErrorReply(msg: string): (r: Response<ReleaseSummary>)
    ensures Contains(msg, "INTENT_NOT_FOUND") ==>
      r == Response(404, Coded("INTENT_NOT_FOUND", "Donation intent not found"))
    ensures !Contains(msg, "INTENT_NOT_FOUND") && Contains(msg, "WRONG_STATUS") ==>
      r == Response(409, Coded("WRONG_STATUS", "Donation not accepted or wrong status"))
    ensures !Contains(msg, "INTENT_NOT_FOUND") && !Contains(msg, "WRONG_STATUS") ==>
      r == Response(400, Coded(DbError, msg))
  {
    if Contains(msg, "INTENT_NOT_FOUND") then Response(404, Coded("INTENT_NOT_FOUND", "Donation intent not found"))
    else if Contains(msg, "WRONG_STATUS") then Response(409, Coded("WRONG_STATUS", "Donation not accepted or wrong status"))
    else Response(400, Coded(DbError, msg))
  }

  /** The names and summary read after a successful pickup. */
  function Enrich(row: PickedUpRow, dir: Directory): (s: ReleaseSummary)
    ensures s.restaurant.Some? <==> SingleNamed(dir.restaurants, row.restaurantId).Success?
    ensures s.restaurant.Some? ==> s.restaurant.value == SingleNamed(dir.restaurants, row.restaurantId).value.name
    ensures s.osc.Some? <==> SingleNamed(dir.oscs, row.oscId).Success?
    ensures s.osc.Some? ==> s.osc.value == SingleNamed(dir.oscs, row.oscId).value.name
    ensures s.donationId.Some? <==> |Filter(dir.donations, (d: DonationSummaryRow) => d.id == row.donationId)| == 1
    ensures s.status.Some? <==> s.donationId.Some?
    ensures s.donationId.Some? ==> s.donationId.value == row.donationId
    ensures s.status.Some? ==> DonationSummaryRow(row.donationId, s.status.value) in dir.donations
  {
    var rest := SingleNamed(dir.restaurants, row.restaurantId);
    var osc := SingleNamed(dir.oscs, row.oscId);
    var summary := Single(dir.donations, (d: DonationSummaryRow) => d.id == row.donationId);
    ReleaseSummary(
      if summary.Some? then Some(summary.value.id) else None,
      if summary.Some? then Some(summary.value.status) else None,
      if rest.Success? then Some(rest.value.name) else None,
      if osc.Success? then Some(osc.value.name) else None)
  }

  /**
   * `restaurant_release_donation`: preflight, method, JWT (before the body is read),
   * body, code, then `donation_mark_picked_up` and the enrichment reads.
   */
  function RestaurantReleaseDonation(
    req: Request, body: Result<CodeBody, string>, rpc: RpcOutcome<PickedUpRow>, dir: Directory): (r: Replied<ReleaseSummary>)
    ensures req.httpMethod == "OPTIONS" ==> r == Replied(Response(204, NoBody), [])
    ensures req.httpMethod != "OPTIONS" && req.httpMethod != "POST" ==> r == Replied(Response(405, NoBody), [])
    ensures req.httpMethod == "POST" && Jwt(req.authorization).None? ==>
      r == Replied(Response(401, Coded(MissingJwtCode, "Missing authorization header")), [])
    ensures req.httpMethod == "POST" && Jwt(req.authorization).Some? && body.Failure? ==>
      r == Replied(Response(500, Coded(InternalError, body.error)), [])
    ensures req.httpMethod == "POST" && Jwt(req.authorization).Some? && body.Success? && !Present(body.value.securityCode) ==>
      r == Replied(Response(400, Coded("MISSING_CODE", "Missing security_code")), [])
    ensures r.effects != [] <==>
      req.httpMethod == "POST" && Jwt(req.authorization).Some? && body.Success? && Present(body.value.securityCode)
    ensures r.effects != [] ==> r.effects == [Rpc("donation_mark_picked_up", body.value.securityCode.value)]
    ensures r.effects != [] && rpc.RpcError? ==> r.response == ReleaseErrorReply(rpc.message)
    ensures r.effects != [] && rpc.RpcOk? && FirstRow(rpc.data).None? ==>
      r.response == Response(500, Coded(DbError, "No data returned by RPC"))
    ensures r.effects != [] && rpc.RpcOk? && FirstRow(rpc.data).Some? ==>
      r.response == Response(200, Json(Enrich(FirstRow(rpc.data).value, dir)))
  {
    if req.httpMethod == "OPTIONS" then Replied(Response(204, NoBody), [])
    else if req.httpMethod != "POST" then Replied(Response(405, NoBody), [])
    else if Jwt(req.authorization).None? then
      Replied(Response(401, Coded(MissingJwtCode, "Missing authorization header")), [])
    else if body.Failure? then Replied(Response(500, Coded(InternalError, body.error)), [])
    else if !Present(body.value.securityCode) then
      Replied(Response(400, Coded("MISSING_CODE", "Missing security_code")), [])
    else
      var call := [Rpc("donation_mark_picked_up", body.value.securityCode.value)];
      match rpc
      case RpcError(msg) => Replied(ReleaseErrorReply(msg), call)
      case RpcOk(data) =>
        match FirstRow(data)
        case None => Replied(Response(500, Coded(DbError, "No data returned by RPC")), call)
        case Some(row) => Replied(Response(200, Json(Enrich(row, dir))), call)
  }

  /** A message naming both failures is classified as not-found. */
  lemma NotFoundWinsOverWrongStatus(a: string, b: string)
    ensures ReleaseErrorReply(a + "INTENT_NOT_FOUND" + b + "WRONG_STATUS").status == 404
    ensures ReleaseErrorReply(a + "WRONG_STATUS" + b + "INTENT_NOT_FOUND").status == 404
  {
    ContainsInfix(a, "INTENT_NOT_FOUND", b + "WRONG_STATUS");
    assert a + "INTENT_NOT_FOUND" + b + "WRONG_STATUS" == a + "INTENT_NOT_FOUND" + (b + "WRONG_STATUS");
    ContainsInfix(a + "WRONG_STATUS" + b, "INTENT_NOT_FOUND", "");
    assert a + "WRONG_STATUS" + b + "INTENT_NOT_FOUND" == a + "WRONG_STATUS" + b + "INTENT_NOT_FOUND" + "";
  }

  /** Unlike the accept handler, the release handler matches inside a longer message. */
  lemma ReleaseMatchesSubstrings(a: string, b: string)
    requires !Contains(a + "WRONG_STATUS" + b, "INTENT_NOT_FOUND")
    ensures ReleaseErrorReply(a + "WRONG_STATUS" + b).status == 409
  {
    ContainsInfix(a, "WRONG_STATUS", b);
  }

  // ----- restaurant_create_donation ----------------------------------------------------

  const CreateTable: ErrorTable := [
    ("NO_PACKAGES_IN_STOCK", Entry(409, "N\U{E3}o h\U{E1} pacotes em estoque para liberar.")),
    ("RESTAURANT_NOT_FOUND", Entry(404, "Restaurante n\U{E3}o encontrado.")),
    ("NO_OSC_AVAILABLE", Entry(404, "Nenhuma OSC ativa dispon\U{ED}vel."))
  ]

  /** The body `{ restaurant_id }`. */
  datatype RestaurantBody = RestaurantBody(restaurantId: Option<string>)

  /** The row `release_donation_safe` returns, and the 200 payload built from it. */
  datatype CreatedDonation = CreatedDonation(donationId: string, securityCode: string)

  /** The error classification of `restaurant_create_donation`, error table lookup as written. */
  function CreateErrorAsWritten(msg: string): (r: Response<CreatedDonation>)
    ensures LookupAsWritten(CreateTable, msg).Inherited? ==> r == Response(200, CodeOnly(msg))
  {
    var found := LookupAsWritten(CreateTable, msg);
    if !found.Undefined? then FoundReplyAsWritten(msg, found) else Response(500, Coded(InternalError, msg))
  }

  /** The same classification with the lookup restricted to the table's own entries. */
  function CreateErrorReply(msg: string): (r: Response<CreatedDonation>)
    ensures msg == "NO_PACKAGES_IN_STOCK" ==>
      r == Response(409, Coded(msg, "N\U{E3}o h\U{E1} pacotes em estoque para liberar."))
    ensures msg == "RESTAURANT_NOT_FOUND" ==> r == Response(404, Coded(msg, "Restaurante n\U{E3}o encontrado."))
    ensures msg == "NO_OSC_AVAILABLE" ==> r == Response(404, Coded(msg, "Nenhuma OSC ativa dispon\U{ED}vel."))
    ensures msg !in {"NO_PACKAGES_IN_STOCK", "RESTAURANT_NOT_FOUND", "NO_OSC_AVAILABLE"} ==>
      r == Response(500, Coded(InternalError, msg))
  {
    match OwnLookup(CreateTable, msg)
    case Some(e) => Response(e.status, Coded(msg, e.message))
    case None => Response(500, Coded(InternalError, msg))
  }

  /** As written, an RPC error named like an inherited member answers 200; corrected, it is an internal error. */
  lemma CreatePrototypeNameAnswers200()
    ensures CreateErrorAsWritten("toString") == Response(200, CodeOnly("toString"))
    ensures CreateErrorReply("toString") == Response(500, Coded(InternalError, "toString"))
  {
  }

  /** Off the prototype names the two classifications agree. */
  lemma CreateErrorAgreesOffPrototype(msg: string)
    requires msg !in ObjectPrototypeNames
    ensures CreateErrorReply(msg) == CreateErrorAsWritten(msg)
  {
  }

  /**
   * `restaurant_create_donation`: preflight, method, JWT, body, `restaurant_id`, then
   * `release_donation_safe`; the notification goes out only after a row came back.
   * `typeError` is the message of the `TypeError` raised by destructuring a missing
   * first row, which the catch-all reports.
   */
  function RestaurantCreateDonation(
    req: Request, body: Result<RestaurantBody, string>, rpc: RpcOutcome<CreatedDonation>, typeError: string): (r: Replied<CreatedDonation>)
    ensures req.httpMethod == "OPTIONS" ==> r == Replied(Response(204, NoBody), [])
    ensures req.httpMethod != "OPTIONS" && req.httpMethod != "POST" ==> r == Replied(Response(405, NoBody), [])
    ensures req.httpMethod == "POST" && Jwt(req.authorization).None? ==>
      r == Replied(Response(401, Coded(MissingJwtCode, "JWT n\U{E3}o fornecido")), [])
    ensures req.httpMethod == "POST" && Jwt(req.authorization).Some? && body.Failure? ==>
      r == Replied(Response(500, Coded(InternalError, body.error)), [])
    ensures req.httpMethod == "POST" && Jwt(req.authorization).Some? && body.Success? && !Present(body.value.restaurantId) ==>
      r == Replied(Response(400, Coded("MISSING_RESTAURANT_ID", "restaurant_id ausente")), [])
    ensures r.effects != [] <==>
      req.httpMethod == "POST" && Jwt(req.authorization).Some? && body.Success? && Present(body.value.restaurantId)
    ensures r.effects != [] ==> r.effects[0] == Rpc("release_donation_safe", body.value.restaurantId.value)
    ensures |r.effects| == 2 <==> r.effects != [] && rpc.RpcOk? && rpc.data.Rows? && rpc.data.rows != []
    ensures |r.effects| == 2 ==>
      var row := rpc.data.rows[0];
      && r.effects[1] == Invoke("util_send_notifications", row.donationId, row.securityCode)
      && r.response == Response(200, Json(row))
    ensures r.effects != [] && rpc.RpcError? ==> r.response == CreateErrorReply(rpc.message)
    ensures r.effects != [] && rpc.RpcOk? && |r.effects| == 1 ==> r.response == Response(500, Coded(InternalError, typeError))
  {
    if req.httpMethod == "OPTIONS" then Replied(Response(204, NoBody), [])
    else if req.httpMethod != "POST" then Replied(Response(405, NoBody), [])
    else if Jwt(req.authorization).None? then Replied(Response(401, Coded(MissingJwtCode, "JWT n\U{E3}o fornecido")), [])
    else if body.Failure? then Replied(Response(500, Coded(InternalError, body.error)), [])
    else if !Present(body.value.restaurantId) then
      Replied(Response(400, Coded("MISSING_RESTAURANT_ID", "restaurant_id ausente")), [])
    else
      var call := Rpc("release_donation_safe", body.value.restaurantId.value);
      match rpc
      case RpcError(msg) => Replied(CreateErrorReply(msg), [call])
      case RpcOk(data) =>
        if data.Rows? && data.rows != [] then
          var row := data.rows[0];
          Replied(Response(200, Json(row)), [call, Invoke("util_send_notifications", row.donationId, row.securityCode)])
        else
          Replied(Response(500, Coded(InternalError, typeError)), [call])
  }

  /** No error path notifies anybody: a notification implies a 200 carrying the same ids. */
  lemma NotifyOnlyAfterSuccess(req: Request, body: Result<RestaurantBody, string>, rpc: RpcOutcome<CreatedDonation>, typeError: string)
    ensures var r := RestaurantCreateDonation(req, body, rpc, typeError);
            forall k :: 0 <= k < |r.effects| && r.effects[k].Invoke? ==>
              r.response.Response? && r.response.status == 200 && r.response.body.Json?
              && r.effects[k].donationId == r.response.body.payload.donationId
              && r.effects[k].securityCode == r.response.body.payload.securityCode
  {
  }

  /** The three known errors of the create handler, each with its status. */
  lemma CreateErrorStatuses(req: Request, rid: string, typeError: string)
    requires req.httpMethod == "POST" && Jwt(req.authorization).Some? && rid != ""
    ensures RestaurantCreateDonation(req, Success(RestaurantBody(Some(rid))), RpcError("NO_PACKAGES_IN_STOCK"), typeError).response.status == 409
    ensures RestaurantCreateDonation(req, Success(RestaurantBody(Some(rid))), RpcError("RESTAURANT_NOT_FOUND"), typeError).response.status == 404
    ensures RestaurantCreateDonation(req, Success(RestaurantBody(Some(rid))), RpcError("NO_OSC_AVAILABLE"), typeError).response.status == 404
  {
    assert OwnLookup(CreateTable, "RESTAURANT_NOT_FOUND") == Some(CreateTable[1].1);
    assert OwnLookup(CreateTable, "NO_OSC_AVAILABLE") == Some(CreateTable[2].1);
  }
}

=== FILE: legacy_handlers.dfy ===
/**
 * The legacy donation handlers `accept_donation`, `deny_donation`, `osc_deny_donation`
 * and `release_donation`: request guards in front of one conditional update on the
 * donations table, and the mapping of its outcome to an HTTP reply.
 *
 * Shared conventions: the parsed JSON body is a `Result` whose failure carries the
 * parser's message; `fault` is the error the database reports for the update statement,
 * in which case the statement changes nothing; `now` is the timestamp the handler took.
 */
module LegacyHandlers {

  import opened Base
  import opened Text
  import opened Http
  import opened Donations

  /** A reply together with the donations table it leaves behind. */
  datatype Handled<+T> = Handled(response: Response<T>, table: seq<Donation>)

  const NotPending := "Donation not found or not pending"
  const MissingCode := "Missing security_code"
  const InvalidJson := "Invalid JSON"

  function AcceptTransition(code: string, now: string): Transition {
    Transition(code, Pending, Accepted, StampAcceptedAt, now)
  }

  /** Denial keeps its timestamp in `accepted_at`: the table has no `denied_at` column. */
  function DenyTransition(code: string, now: string): Transition {
    Transition(code, Pending, Denied, StampAcceptedAt, now)
  }

  function PickUpTransition(code: string, now: string): Transition {
    Transition(code, Accepted, PickedUp, StampPickedUpAt, now)
  }

  /** The update, or nothing at all when the database reports an error. */
  function Attempt(t: seq<Donation>, tr: Transition, fault: Option<string>): (u: Updated)
    ensures fault.Some? ==> u == Updated(t, [])
    ensures fault.None? ==> u == Update(t, tr)
  {
    if fault.Some? then Updated(t, []) else Update(t, tr)
  }

  // ----- accept_donation ---------------------------------------------------------

  /** `accept_donation`. Nothing catches a body that is not JSON. */
  function AcceptDonation(req: Request, body: Result<CodeBody, string>, t: seq<Donation>, fault: Option<string>, now: string): (h: Handled<()>)
    ensures req.httpMethod != "POST" ==> h == Handled(Response(405, NoBody), t)
    ensures req.httpMethod == "POST" && body.Failure? ==> h == Handled(Unhandled, t)
    ensures req.httpMethod == "POST" && body.Success? && !Present(body.value.securityCode) ==>
      h == Handled(Response(400, Text(MissingCode)), t)
    ensures h.response == Response(204, NoBody) <==>
      && req.httpMethod == "POST" && body.Success? && Present(body.value.securityCode) && fault.None?
      && !NoneSelected(t, AcceptTransition(body.value.securityCode.value, now))
    ensures h.response == Response(404, Text(NotPending)) <==>
      && req.httpMethod == "POST" && body.Success? && Present(body.value.securityCode) && fault.None?
      && NoneSelected(t, AcceptTransition(body.value.securityCode.value, now))
    ensures fault.Some? && req.httpMethod == "POST" && body.Success? && Present(body.value.securityCode) ==>
      h == Handled(Response(400, Text(fault.value)), t)
    ensures h.table == t || h.table == Update(t, AcceptTransition(body.value.securityCode.value, now)).table
    ensures req.httpMethod == "POST" && body.Success? && Present(body.value.securityCode) && fault.None? ==>
      h.table == Update(t, AcceptTransition(body.value.securityCode.value, now)).table
  {
    if req.httpMethod != "POST" then Handled(Response(405, NoBody), t)
    else if body.Failure? then Handled(Unhandled, t)
    else if !Present(body.value.securityCode) then Handled(Response(400, Text(MissingCode)), t)
    else
      var u := Attempt(t, AcceptTransition(body.value.securityCode.value, now), fault);
      if fault.Some? then Handled(Response(400, Text(fault.value)), t)
      else if u.rows == [] then Handled(Response(404, Text(NotPending)), u.table)
      else Handled(Response(204, NoBody), u.table)
  }

  // ----- deny_donation -------------------------------------------------------------

  /** `deny_donation`: answers preflights itself and reports a non-JSON body as 400. */
  function DenyDonation(req: Request, body: Result<CodeBody, string>, t: seq<Donation>, fault: Option<string>, now: string): (h: Handled<()>)
    ensures req.httpMethod == "OPTIONS" ==> h == Handled(Response(204, NoBody), t)
    ensures req.httpMethod != "OPTIONS" && req.httpMethod != "POST" ==> h == Handled(Response(405, NoBody), t)
    ensures req.httpMethod == "POST" && body.Failure? ==> h == Handled(Response(400, Text(InvalidJson)), t)
    ensures req.httpMethod == "POST" && body.Success? && !Present(body.value.securityCode) ==>
      h == Handled(Response(400, Text(MissingCode)), t)
    ensures h.response == Response(404, Text(NotPending)) <==>
      && req.httpMethod == "POST" && body.Success? && Present(body.value.securityCode) && fault.None?
      && NoneSelected(t, DenyTransition(body.value.securityCode.value, now))
    ensures fault.Some? && req.httpMethod == "POST" && body.Success? && Present(body.value.securityCode) ==>
      h == Handled(Response(400, Text(fault.value)), t)
    ensures h.table != t ==>
      && req.httpMethod == "POST" && body.Success? && Present(body.value.securityCode)
      && h == Handled(Response(204, NoBody), Update(t, DenyTransition(body.value.securityCode.value, now)).table)
    ensures req.httpMethod == "POST" && body.Success? && Present(body.value.securityCode) && fault.None?
            && !NoneSelected(t, DenyTransition(body.value.securityCode.value, now)) ==>
      h == Handled(Response(204, NoBody), Update(t, DenyTransition(body.value.securityCode.value, now)).table)
  {
    if req.httpMethod == "OPTIONS" then Handled(Response(204, NoBody), t)
    else if req.httpMethod != "POST" then Handled(Response(405, NoBody), t)
    else if body.Failure? then Handled(Response(400, Text(InvalidJson)), t)
    else if !Present(body.value.securityCode) then Handled(Response(400, Text(MissingCode)), t)
    else
      var u := Attempt(t, DenyTransition(body.value.securityCode.value, now), fault);
      if fault.Some? then Handled(Response(400, Text(fault.value)), t)
      else if u.rows == [] then Handled(Response(404, Text(NotPending)), u.table)
      else Handled(Response(204, NoBody), u.table)
  }

  // ----- osc_deny_donation -----------------------------------------------------------

  const DbError := "DB_ERROR"

  /**
   * `osc_deny_donation`: the same denial behind the shared preflight handling, with a
   * database error reported as a `{code: "DB_ERROR", message}` body.
   */
  function OscDenyDonation(req: Request, body: Result<CodeBody, string>, t: seq<Donation>, fault: Option<string>, now: string): (h: Handled<()>)
    ensures req.httpMethod == "OPTIONS" ==> h == Handled(Response(204, NoBody), t)
    ensures req.httpMethod != "OPTIONS" && req.httpMethod != "POST" ==> h == Handled(Response(405, NoBody), t)
    ensures req.httpMethod == "POST" && body.Failure? ==> h == Handled(Response(400, Text(InvalidJson)), t)
    ensures req.httpMethod == "POST" && body.Success? && !Present(body.value.securityCode) ==>
      h == Handled(Response(400, Text(MissingCode)), t)
    ensures fault.Some? && req.httpMethod == "POST" && body.Success? && Present(body.value.securityCode) ==>
      h == Handled(Response(400, Coded(DbError, fault.value)), t)
    ensures h.response == Response(404, Text(NotPending)) <==>
      && req.httpMethod == "POST" && body.Success? && Present(body.value.securityCode) && fault.None?
      && NoneSelected(t, DenyTransition(body.value.securityCode.value, now))
    ensures h.table != t ==>
      && req.httpMethod == "POST" && body.Success? && Present(body.value.securityCode)
      && h == Handled(Response(204, NoBody), Update(t, DenyTransition(body.value.securityCode.value, now)).table)
    ensures req.httpMethod == "POST" && body.Success? && Present(body.value.securityCode) && fault.None?
            && !NoneSelected(t, DenyTransition(body.value.securityCode.value, now)) ==>
      h == Handled(Response(204, NoBody), Update(t, DenyTransition(body.value.securityCode.value, now)).table)
  {
    if req.httpMethod == "OPTIONS" then Handled(Response(204, NoBody), t)
    else if req.httpMethod != "POST" then Handled(Response(405, NoBody), t)
    else if body.Failure? then Handled(Response(400, Text(InvalidJson)), t)
    else if !Present(body.value.securityCode) then Handled(Response(400, Text(MissingCode)), t)
    else
      var u := Attempt(t, DenyTransition(body.value.securityCode.value, now), fault);
      if fault.Some? then Handled(Response(400, Coded(DbError, fault.value)), t)
      else if u.rows == [] then Handled(Response(404, Text(NotPending)), u.table)
      else Handled(Response(204, NoBody), u.table)
  }

  // ----- release_donation ---------------------------------------------------------------

  /** The 200 payload of `release_donation` (its package list is not modelled). */
  datatype Released = Released(donationId: string, status: string, restaurant: string, osc: string)

  const MissingJwt := "MISSING_JWT"
  const MissingCodeCode := "MISSING_CODE"
  const UpdateError := "UPDATE_ERROR"
  const NotFoundOrWrongStatus := "NOT_FOUND_OR_WRONG_STATUS"
  const RestFetchError := "REST_FETCH_ERROR"
  const OscFetchError := "OSC_FETCH_ERROR"
  const InternalError := "INTERNAL_ERROR"

  const NotFoundMessage := "Donation not found or wrong status"

  /**
   * The part of `release_donation` after a successful update: the restaurant and OSC
   * names of the first updated row, each a 404 when it cannot be read.
   */
  function PickUpReply(u: Updated, restaurants: seq<Named>, oscs: seq<Named>): (r: Response<Released>)
    requires u.rows != []
    ensures r.Response? && (r.status == 200 || r.status == 404)
    ensures SingleNamed(restaurants, u.rows[0].restaurantId).Failure? ==>
      r == Response(404, Coded(RestFetchError, SingleRowError))
    ensures SingleNamed(restaurants, u.rows[0].restaurantId).Success? && SingleNamed(oscs, u.rows[0].oscId).Failure? ==>
      r == Response(404, Coded(OscFetchError, SingleRowError))
    ensures r.status == 200 <==>
      SingleNamed(restaurants, u.rows[0].restaurantId).Success? && SingleNamed(oscs, u.rows[0].oscId).Success?
    ensures r.status == 200 ==>
      r.body == Json(Released(u.rows[0].id, StatusName(u.rows[0].status),
                              SingleNamed(restaurants, u.rows[0].restaurantId).value.name,
                              SingleNamed(oscs, u.rows[0].oscId).value.name))
  {
    var donation := u.rows[0];
    match SingleNamed(restaurants, donation.restaurantId)
    case Failure(e) => Response(404, Coded(RestFetchError, e))
    case Success(rest) =>
      match SingleNamed(oscs, donation.oscId)
      case Failure(e) => Response(404, Coded(OscFetchError, e))
      case Success(osc) => Response(200, Json(Released(donation.id, StatusName(donation.status), rest.name, osc.name)))
  }

  /** The guards of `release_donation` in order: JWT, then body, then code. */
  function ReleaseGuard(req: Request, body: Result<CodeBody, string>): (r: Option<Response<Released>>)
    ensures r.None? <==>
      req.httpMethod == "POST" && Jwt(req.authorization).Some? && body.Success? && Present(body.value.securityCode)
    ensures req.httpMethod == "OPTIONS" ==> r == Some(Response(204, NoBody))
    ensures req.httpMethod != "OPTIONS" && req.httpMethod != "POST" ==> r == Some(Response(405, NoBody))
    ensures req.httpMethod == "POST" && Jwt(req.authorization).None? ==>
      r == Some(Response(401, Coded(MissingJwt, "Missing authorization header")))
    ensures req.httpMethod == "POST" && Jwt(req.authorization).Some? && body.Failure? ==>
      r == Some(Response(500, Coded(InternalError, body.error)))
    ensures req.httpMethod == "POST" && Jwt(req.authorization).Some? && body.Success? && !Present(body.value.securityCode) ==>
      r == Some(Response(400, Coded(MissingCodeCode, MissingCode)))
  {
    if req.httpMethod == "OPTIONS" then Some(Response(204, NoBody))
    else if req.httpMethod != "POST" then Some(Response(405, NoBody))
    else if Jwt(req.authorization).None? then Some(Response(401, Coded(MissingJwt, "Missing authorization header")))
    else if body.Failure? then Some(Response(500, Coded(InternalError, body.error)))
    else if !Present(body.value.securityCode) then Some(Response(400, Coded(MissingCodeCode, MissingCode)))
    else None
  }

  /**
   * `release_donation`: the guards, then the `accepted -> picked_up` update, then the
   * name lookups. The update is already committed when a lookup fails.
   */
  function ReleaseDonation(
    req: Request, body: Result<CodeBody, string>, t: seq<Donation>, fault: Option<string>, now: string,
    restaurants: seq<Named>, oscs: seq<Named>): (h: Handled<Released>)
    ensures ReleaseGuard(req, body).Some? ==> h == Handled(ReleaseGuard(req, body).value, t)
    ensures ReleaseGuard(req, body).None? && fault.Some? ==>
      h == Handled(Response(400, Coded(UpdateError, fault.value)), t)
    ensures h.table != t ==>
      ReleaseGuard(req, body).None? && h.table == Update(t, PickUpTransition(body.value.securityCode.value, now)).table
    ensures h.response == Response(404, Coded(NotFoundOrWrongStatus, NotFoundMessage)) <==>
      && ReleaseGuard(req, body).None? && fault.None?
      && NoneSelected(t, PickUpTransition(body.value.securityCode.value, now))
    ensures h.response.Response? && h.response.status == 200 ==>
      h.response.body.Json? && h.response.body.payload.status == StatusName(PickedUp)
    ensures ReleaseGuard(req, body).None? && fault.None? ==>
      && var tr := PickUpTransition(body.value.securityCode.value, now);
         && h.table == Update(t, tr).table
         && (!NoneSelected(t, tr) ==> h.response == PickUpReply(Update(t, tr), restaurants, oscs))
  {
    var guard := ReleaseGuard(req, body);
    if guard.Some? then Handled(guard.value, t)
    else
      var u := Attempt(t, PickUpTransition(body.value.securityCode.value, now), fault);
      if fault.Some? then Handled(Response(400, Coded(UpdateError, fault.value)), t)
      else if u.rows == [] then Handled(Response(404, Coded(NotFoundOrWrongStatus, NotFoundMessage)), u.table)
      else Handled(PickUpReply(u, restaurants, oscs), u.table)
  }

  // ----- Life-cycle properties ----------------------------------------------------------

  function Post(code: string): (Request, Result<CodeBody, string>) {
    (Request("POST", None, Some(BearerPrefix + "token")), Success(CodeBody(Some(code))))
  }

  /** Accepting the same code twice: the second call finds no pending row. */
  lemma AcceptTwiceFails(t: seq<Donation>, code: string, now1: string, now2: string)
    requires code != ""
    ensures var (req, body) := Post(code);
            var first := AcceptDonation(req, body, t, None, now1);
            first.response == Response(204, NoBody) ==>
              AcceptDonation(req, body, first.table, None, now2).response == Response(404, Text(NotPending))
  {
    var tr := AcceptTransition(code, now1);
    UpdateLeavesNothingSelected(t, tr);
    var t' := Update(t, tr).table;
    assert NoneSelected(t', AcceptTransition(code, now2));
  }

  /** A denied donation can no longer be accepted. */
  lemma DenyThenAcceptFails(t: seq<Donation>, code: string, now1: string, now2: string)
    requires code != ""
    ensures var (req, body) := Post(code);
            var denied := DenyDonation(req, body, t, None, now1);
            AcceptDonation(req, body, denied.table, None, now2).response == Response(404, Text(NotPending))
  {
    var t' := Update(t, DenyTransition(code, now1)).table;
    assert NoneSelected(t', AcceptTransition(code, now2));
  }

  /** A donation that was never accepted cannot be picked up. */
  lemma ReleasePendingFails(t: seq<Donation>, code: string, now: string, restaurants: seq<Named>, oscs: seq<Named>)
    requires code != ""
    requires forall i :: 0 <= i < |t| && t[i].securityCode == code ==> t[i].status == Pending
    ensures var (req, body) := Post(code);
            var h := ReleaseDonation(req, body, t, None, now, restaurants, oscs);
            h == Handled(Response(404, Coded(NotFoundOrWrongStatus, NotFoundMessage)), t)
  {
    JwtOfBearer("token");
    assert NoneSelected(t, PickUpTransition(code, now));
  }

  /** Pickup happens once: a second release of the same code is a 404, whatever the first replied. */
  lemma ReleaseTwiceFails(t: seq<Donation>, code: string, now1: string, now2: string, restaurants: seq<Named>, oscs: seq<Named>)
    requires code != ""
    ensures var (req, body) := Post(code);
            var first := ReleaseDonation(req, body, t, None, now1, restaurants, oscs);
            var second := ReleaseDonation(req, body, first.table, None, now2, restaurants, oscs);
            second == Handled(Response(404, Coded(NotFoundOrWrongStatus, NotFoundMessage)), first.table)
  {
    JwtOfBearer("token");
    var tr := PickUpTransition(code, now1);
    UpdateLeavesNothingSelected(t, tr);
    var t' := Update(t, tr).table;
    assert NoneSelected(t', PickUpTransition(code, now2));
    assert NoneSelected(t, tr) ==> Update(t, tr).table == t by {
      if NoneSelected(t, tr) {
        assert forall i :: 0 <= i < |t| ==> Update(t, tr).table[i] == t[i];
      }
    }
  }

  /** The pickup stays committed when the restaurant of the donation cannot be read. */
  lemma ReleaseCommitsBeforeLookup(t: seq<Donation>, code: string, now: string, oscs: seq<Named>, i: nat)
    requires code != "" && i < |t| && t[i].securityCode == code && t[i].status == Accepted
    ensures var (req, body) := Post(code);
            var h := ReleaseDonation(req, body, t, None, now, [], oscs);
            h.response == Response(404, Coded(RestFetchError, SingleRowError))
            && h.table[i].status == PickedUp && h.table[i].pickedUpAt == Some(now)
  {
    JwtOfBearer("token");
    assert !NoneSelected(t, PickUpTransition(code, now));
  }

  /** `after` differs from `before` only by rows taking legal, non-terminal steps. */
  predicate StepsLegally(before: seq<Donation>, after: seq<Donation>) {
    |after| == |before| &&
    forall i :: 0 <= i < |before| ==>
      after[i] == before[i] || (LegalStep(before[i].status, after[i].status) && !IsTerminal(before[i].status))
  }

  lemma UpdateStepsLegally(t: seq<Donation>, tr: Transition)
    requires LegalStep(tr.from, tr.to)
    ensures StepsLegally(t, Update(t, tr).table)
  {
    UpdateTakesLegalSteps(t, tr);
  }

  lemma AcceptStepsLegally(req: Request, body: Result<CodeBody, string>, t: seq<Donation>, fault: Option<string>, now: string)
    ensures StepsLegally(t, AcceptDonation(req, body, t, fault, now).table)
  {
    if body.Success? && Present(body.value.securityCode) {
      UpdateStepsLegally(t, AcceptTransition(body.value.securityCode.value, now));
    }
  }

  lemma DenyStepsLegally(req: Request, body: Result<CodeBody, string>, t: seq<Donation>, fault: Option<string>, now: string)
    ensures StepsLegally(t, DenyDonation(req, body, t, fault, now).table)
    ensures StepsLegally(t, OscDenyDonation(req, body, t, fault, now).table)
  {
    if body.Success? && Present(body.value.securityCode) {
      UpdateStepsLegally(t, DenyTransition(body.value.securityCode.value, now));
    }
  }

  lemma ReleaseStepsLegally(req: Request, body: Result<CodeBody, string>, t: seq<Donation>, fault: Option<string>, now: string,
                            restaurants: seq<Named>, oscs: seq<Named>)
    ensures StepsLegally(t, ReleaseDonation(req, body, t, fault, now, restaurants, oscs).table)
  {
    if ReleaseGuard(req, body).None? {
      UpdateStepsLegally(t, PickUpTransition(body.value.securityCode.value, now));
    }
  }

  /** Every legacy handler moves rows only along the life cycle and leaves terminal rows alone. */
  lemma HandlersStepLegally(req: Request, body: Result<CodeBody, string>, t: seq<Donation>, fault: Option<string>, now: string,
                            restaurants: seq<Named>, oscs: seq<Named>)
    ensures StepsLegally(t, AcceptDonation(req, body, t, fault, now).table)
    ensures StepsLegally(t, DenyDonation(req, body, t, fault, now).table)
    ensures StepsLegally(t, OscDenyDonation(req, body, t, fault, now).table)
    ensures StepsLegally(t, ReleaseDonation(req, body, t, fault, now, restaurants, oscs).table)
  {
    AcceptStepsLegally(req, body, t, fault, now);
    DenyStepsLegally(req, body, t, fault, now);
    ReleaseStepsLegally(req, body, t, fault, now, restaurants, oscs);
  }
}

=== FILE: liberate.dfy ===
/**
 * `liberate_donation`: the restaurant releases packages and the donation goes to the
 * nearest active OSC, ties broken in favour of the OSC that received least recently.
 * Distance is an opaque function of two coordinates; the UUID the security code is cut
 * from and the id the database assigns to the new row are inputs.
 */
module Liberate {

  import opened Base
  import opened Text
  import opened Http
  import opened Donations

  datatype Coord = Coord(lat: real, lng: real)

  /** A row of `osc`; `lastReceivedAt` is `last_received_at` in epoch milliseconds. */
  datatype Osc = Osc(id: string, location: Coord, active: bool, lastReceivedAt: Option<int>)

  datatype Restaurant = Restaurant(id: string, location: Coord)

  /** An active OSC with its distance to the restaurant. */
  datatype Candidate = Candidate(osc: Osc, dist: real)

  /** `new Date(last_received_at).getTime()`: a null timestamp is the epoch. */
  function Fairness(c: Candidate): int {
    c.osc.lastReceivedAt.GetOr(0)
  }

  /** The sort key `(dist, last_received_at)`: strictly closer, or as close and served longer ago. */
  predicate RanksBefore(a: Candidate, b: Candidate) {
    a.dist < b.dist || (a.dist == b.dist && Fairness(a) < Fairness(b))
  }

  lemma RanksBeforeIsStrictOrder(a: Candidate, b: Candidate, c: Candidate)
    ensures !RanksBefore(a, a)
    ensures RanksBefore(a, b) ==> !RanksBefore(b, a)
    ensures RanksBefore(a, b) && RanksBefore(b, c) ==> RanksBefore(a, c)
  {
  }

  /**
   * The first element of the stably sorted list: the first candidate, in list order,
   * that no candidate ranks before.
   */
  function Nearest(cs: seq<Candidate>): (i: nat)
    requires cs != []
    ensures i < |cs|
    ensures forall k :: 0 <= k < |cs| ==> !RanksBefore(cs[k], cs[i])
    ensures forall k :: 0 <= k < i ==> RanksBefore(cs[i], cs[k])
    decreases |cs|
  {
    if |cs| == 1 then 0
    else
      var j := Nearest(cs[..|cs| - 1]);
      if RanksBefore(cs[|cs| - 1], cs[j]) then |cs| - 1 else j
  }

  /** The two ensures of `Nearest` pin its answer down: no other index satisfies both. */
  lemma NearestIsUnique(cs: seq<Candidate>, i: nat)
    requires i < |cs|
    requires forall k :: 0 <= k < |cs| ==> !RanksBefore(cs[k], cs[i])
    requires forall k :: 0 <= k < i ==> RanksBefore(cs[i], cs[k])
    ensures Nearest(cs) == i
  {
  }

  /** No candidate is strictly closer, and among equally close ones none was served longer ago. */
  lemma NearestIsFairest(cs: seq<Candidate>)
    requires cs != []
    ensures var p := cs[Nearest(cs)];
            forall k :: 0 <= k < |cs| ==>
              p.dist <= cs[k].dist && (p.dist == cs[k].dist ==> Fairness(p) <= Fairness(cs[k]))
  {
    var p := cs[Nearest(cs)];
    forall k | 0 <= k < |cs|
      ensures p.dist <= cs[k].dist && (p.dist == cs[k].dist ==> Fairness(p) <= Fairness(cs[k]))
    {
      assert !RanksBefore(cs[k], p);
    }
  }

  /** An OSC that never received wins a distance tie against one that did, after the epoch. */
  lemma NeverServedWinsTie(a: Osc, b: Osc, d: real, t: int)
    requires a.lastReceivedAt == None && b.lastReceivedAt == Some(t) && t > 0
    ensures Nearest([Candidate(b, d), Candidate(a, d)]) == 1
  {
  }

  /** Equal keys keep list order: the earlier of two identical ranks is picked. */
  lemma TieKeepsListOrder(a: Osc, b: Osc, d: real)
    requires a.lastReceivedAt == b.lastReceivedAt
    ensures Nearest([Candidate(a, d), Candidate(b, d)]) == 0
  {
  }

  // ----- The security code --------------------------------------------------------

  predicate IsLowerHex(c: char) {
    '0' <= c <= '9' || 'a' <= c <= 'f'
  }

  /** The textual form `crypto.randomUUID()` produces: 8-4-4-4-12 lowercase hex digits. */
  predicate IsUuid(s: string) {
    && |s| == 36
    && (forall i :: 0 <= i < 36 ==> (s[i] == '-' <==> i in {8, 13, 18, 23}))
    && (forall i :: 0 <= i < 36 && i !in {8, 13, 18, 23} ==> IsLowerHex(s[i]))
  }

  /** `crypto.randomUUID().slice(0, 6)`. */
  function SecurityCode(uuid: string): (code: string)
    ensures |code| <= 6 && code <= uuid
    ensures IsUuid(uuid) ==> |code| == 6 && forall i :: 0 <= i < 6 ==> IsLowerHex(code[i])
  {
    Prefix(uuid, 6)
  }

  // ----- The handler ------------------------------------------------------------------

  /** The request body `{ restaurant_id, package_ids }`. */
  datatype LiberateBody = LiberateBody(restaurantId: Option<string>, packageIds: Option<seq<string>>)

  /** A row of `donation_packages`. */
  datatype PackageLink = PackageLink(donationId: string, packageId: string)

  /** The 200 payload `{ donation_id, security_code }`. */
  datatype Created = Created(donationId: string, securityCode: string)

  /** The tables the handler reads and writes. */
  datatype Store = Store(restaurants: seq<Restaurant>, oscs: seq<Osc>, donations: seq<Donation>, links: seq<PackageLink>)

  /** A reply, the store it leaves behind and the functions it invoked. */
  datatype Liberated = Liberated(response: Response<Created>, store: Store, effects: seq<Effect>)

  /**
   * `.eq("id", restaurant_id).single()`. An absent id is sent as the text `undefined`;
   * anything but exactly one row is the `.single()` error, whose message the 404 carries.
   */
  function FindRestaurant(rs: seq<Restaurant>, id: Option<string>): (r: Result<Restaurant, string>)
    ensures r.Success? ==> r.value in rs && r.value.id == id.GetOr("undefined")
    ensures r.Failure? ==> r.error == SingleRowError
    ensures r.Success? <==> |Filter(rs, (x: Restaurant) => x.id == id.GetOr("undefined"))| == 1
  {
    var key := id.GetOr("undefined");
    match Single(rs, (x: Restaurant) => x.id == key)
    case Some(r) => Success(r)
    case None => Failure(SingleRowError)
  }

  /** `.eq("active", true)` followed by the distance of each row to the restaurant. */
  function Candidates(oscs: seq<Osc>, from: Coord, distance: (Coord, Coord) -> real): (cs: seq<Candidate>)
    ensures |cs| <= |oscs|
    ensures forall k :: 0 <= k < |cs| ==> cs[k].osc in oscs && cs[k].osc.active && cs[k].dist == distance(from, cs[k].osc.location)
    ensures cs == [] <==> forall k :: 0 <= k < |oscs| ==> !oscs[k].active
    ensures forall k :: 0 <= k < |oscs| && oscs[k].active ==> Candidate(oscs[k], distance(from, oscs[k].location)) in cs
    decreases |oscs|
  {
    if oscs == [] then []
    else
      var rest := Candidates(oscs[1..], from, distance);
      assert forall k :: 1 <= k < |oscs| ==> oscs[1..][k - 1] == oscs[k];
      if oscs[0].active then [Candidate(oscs[0], distance(from, oscs[0].location))] + rest else rest
  }

  /** The candidates keep the order of the `osc` rows: the list of two tables is the two lists. */
  lemma {:induction false} CandidatesConcat(a: seq<Osc>, b: seq<Osc>, from: Coord, distance: (Coord, Coord) -> real)
    ensures Candidates(a + b, from, distance) == Candidates(a, from, distance) + Candidates(b, from, distance)
    decreases |a|
  {
    if a == [] {
      assert a + b == b;
    } else {
      assert (a + b)[1..] == a[1..] + b;
      CandidatesConcat(a[1..], b, from, distance);
    }
  }

  function Links(donationId: string, packageIds: seq<string>): (ls: seq<PackageLink>)
    ensures |ls| == |packageIds|
    ensures forall k :: 0 <= k < |ls| ==> ls[k] == PackageLink(donationId, packageIds[k])
  {
    seq(|packageIds|, k requires 0 <= k < |packageIds| => PackageLink(donationId, packageIds[k]))
  }

  const MissingJwtText := "Missing JWT"
  const NoOscAvailable := "No OSC available"

  /**
   * `liberate_donation`. A body that is not JSON, and a missing `package_ids` (read only
   * after the donation row is inserted), escape the handler.
   */
  function LiberateDonation(
    req: Request, body: Option<LiberateBody>, s: Store, distance: (Coord, Coord) -> real,
    uuid: string, newId: string): (r: Liberated)
    ensures req.httpMethod != "POST" ==> r == Liberated(Response(405, NoBody), s, [])
    ensures req.httpMethod == "POST" && body.None? ==> r == Liberated(Unhandled, s, [])
    ensures req.httpMethod == "POST" && body.Some? && Jwt(req.authorization).None? ==>
      r == Liberated(Response(401, Text(MissingJwtText)), s, [])
    ensures r.response == Response(404, Text(SingleRowError)) <==>
      req.httpMethod == "POST" && body.Some? && Jwt(req.authorization).Some?
      && FindRestaurant(s.restaurants, body.value.restaurantId).Failure?
    ensures r.response == Response(404, Text(NoOscAvailable)) <==>
      req.httpMethod == "POST" && body.Some? && Jwt(req.authorization).Some?
      && FindRestaurant(s.restaurants, body.value.restaurantId).Success?
      && forall k :: 0 <= k < |s.oscs| ==> !s.oscs[k].active
    ensures r.store.restaurants == s.restaurants && r.store.oscs == s.oscs
    ensures r.store.donations != s.donations ==>
      && req.httpMethod == "POST" && body.Some? && Jwt(req.authorization).Some?
      && FindRestaurant(s.restaurants, body.value.restaurantId).Success?
      && |r.store.donations| == |s.donations| + 1 && r.store.donations[..|s.donations|] == s.donations
      && var d := r.store.donations[|s.donations|];
         var cs := Candidates(s.oscs, FindRestaurant(s.restaurants, body.value.restaurantId).value.location, distance);
         && cs != [] && d.oscId == cs[Nearest(cs)].osc.id
         && d.id == newId && d.status == Pending && d.securityCode == SecurityCode(uuid)
         && d.restaurantId == body.value.restaurantId.GetOr("undefined")
    ensures r.response.Response? && r.response.status == 200 ==>
      && r.store.donations != s.donations
      && body.Some? && body.value.packageIds.Some?
      && r.response.body == Json(Created(newId, SecurityCode(uuid)))
      && r.effects == [Invoke("send_notifications", newId, SecurityCode(uuid))]
      && r.store.links == s.links + Links(newId, body.value.packageIds.value)
    ensures req.httpMethod == "POST" && body.Some? && Jwt(req.authorization).Some?
            && FindRestaurant(s.restaurants, body.value.restaurantId).Success?
            && (exists k :: 0 <= k < |s.oscs| && s.oscs[k].active) ==>
      && r.store.donations != s.donations
      && (body.value.packageIds.Some? <==> r.response.Response? && r.response.status == 200)
      && (body.value.packageIds.None? ==> r.response == Unhandled)
  {
    if req.httpMethod != "POST" then Liberated(Response(405, NoBody), s, [])
    else if body.None? then Liberated(Unhandled, s, [])
    else if Jwt(req.authorization).None? then Liberated(Response(401, Text(MissingJwtText)), s, [])
    else
      match FindRestaurant(s.restaurants, body.value.restaurantId)
      case Failure(e) => Liberated(Response(404, Text(e)), s, [])
      case Success(rest) =>
        var cs := Candidates(s.oscs, rest.location, distance);
        if cs == [] then Liberated(Response(404, Text(NoOscAvailable)), s, [])
        else
          var pick := cs[Nearest(cs)].osc;
          var code := SecurityCode(uuid);
          var d := Donation(newId, rest.id, pick.id, Pending, code, None, None);
          var inserted := s.(donations := Insert(s.donations, d));
          match body.value.packageIds
          case None => Liberated(Unhandled, inserted, [])
          case Some(ids) =>
            Liberated(Response(200, Json(Created(newId, code))),
                      inserted.(links := s.links + Links(newId, ids)),
                      [Invoke("send_notifications", newId, code)])
  }

  /** The code handed out can be used once to accept the new donation. */
  lemma NewDonationIsPending(
    req: Request, body: Option<LiberateBody>, s: Store, distance: (Coord, Coord) -> real, uuid: string, newId: string)
    requires var r := LiberateDonation(req, body, s, distance, uuid, newId);
             r.response.Response? && r.response.status == 200
    ensures var r := LiberateDonation(req, body, s, distance, uuid, newId);
            var t := r.store.donations;
            var d := t[|t| - 1];
            && d.securityCode == SecurityCode(uuid) && d.status == Pending
            && d.oscId in set o | o in s.oscs && o.active :: o.id
  {
    var r := LiberateDonation(req, body, s, distance, uuid, newId);
    var rest := FindRestaurant(s.restaurants, body.value.restaurantId).value;
    var cs := Candidates(s.oscs, rest.location, distance);
    assert r.store.donations != s.donations by {
      assert |r.store.donations| == |s.donations| + 1;
    }
    assert cs[Nearest(cs)].osc in s.oscs;
  }

  /**
   * The donation goes to an active OSC that no active OSC beats: none is strictly closer,
   * and none as close received longer ago.
   */
  lemma NoActiveOscIsCloser(
    req: Request, body: Option<LiberateBody>, s: Store, distance: (Coord, Coord) -> real, uuid: string, newId: string, k: nat)
    requires LiberateDonation(req, body, s, distance, uuid, newId).store.donations != s.donations
    requires k < |s.oscs| && s.oscs[k].active
    ensures var r := LiberateDonation(req, body, s, distance, uuid, newId);
            var from := FindRestaurant(s.restaurants, body.value.restaurantId).value.location;
            var cs := Candidates(s.oscs, from, distance);
            var p := cs[Nearest(cs)];
            && r.store.donations[|s.donations|].oscId == p.osc.id && p.osc in s.oscs && p.osc.active
            && p.dist == distance(from, p.osc.location)
            && p.dist <= distance(from, s.oscs[k].location)
            && (p.dist == distance(from, s.oscs[k].location) ==> Fairness(p) <= s.oscs[k].lastReceivedAt.GetOr(0))
  {
    var from := FindRestaurant(s.restaurants, body.value.restaurantId).value.location;
    var cs := Candidates(s.oscs, from, distance);
    var c := Candidate(s.oscs[k], distance(from, s.oscs[k].location));
    assert c in cs;
    var j :| 0 <= j < |cs| && cs[j] == c;
    assert !RanksBefore(cs[j], cs[Nearest(cs)]);
  }

  /**
   * A well-formed request for a restaurant on record, with an active OSC, is answered 200;
   * the new pending row goes to the nearest candidate and the package links are written.
   */
  lemma ValidReleaseAnswered(
    req: Request, s: Store, distance: (Coord, Coord) -> real, uuid: string, newId: string,
    rid: string, ids: seq<string>, i: nat, k: nat)
    requires req.httpMethod == "POST" && Jwt(req.authorization).Some?
    requires i < |s.restaurants| && s.restaurants[i].id == rid
    requires forall j :: 0 <= j < |s.restaurants| && j != i ==> s.restaurants[j].id != rid
    requires k < |s.oscs| && s.oscs[k].active
    ensures var r := LiberateDonation(req, Some(LiberateBody(Some(rid), Some(ids))), s, distance, uuid, newId);
            var cs := Candidates(s.oscs, s.restaurants[i].location, distance);
            && r.response == Response(200, Json(Created(newId, SecurityCode(uuid))))
            && cs != []
            && r.store.donations == s.donations + [Donation(newId, rid, cs[Nearest(cs)].osc.id, Pending, SecurityCode(uuid), None, None)]
            && r.store.links == s.links + Links(newId, ids)
  {
    FilterSingleton(s.restaurants, (x: Restaurant) => x.id == rid, i);
    assert FindRestaurant(s.restaurants, Some(rid)) == Success(s.restaurants[i]);
  }
}

=== FILE: notifications.dfy ===
/**
 * The two notification functions: `util_send_notifications`, which posts a confirm link
 * for a new donation, and the older `send_notifications`, which posts ready-made `curl`
 * commands for accepting or denying it. The webhook post is an outbound effect; whether
 * the webhook answered ok is an input.
 */
module Notifications {

  import opened Base
  import opened Text
  import opened Http
  import opened Donations

  /** A `donations` row reduced to what both functions select. */
  datatype DonationRef = DonationRef(id: string, restaurantId: string)

  /** The body `{ donation_id, security_code }`. */
  datatype NotifyBody = NotifyBody(donationId: Option<string>, securityCode: Option<string>)

  /** `.from("donations").select("restaurant_id").eq("id", id).single()`. */
  function DonationById(donations: seq<DonationRef>, id: string): (r: Result<DonationRef, string>)
    ensures r.Success? <==> |Filter(donations, (d: DonationRef) => d.id == id)| == 1
    ensures r.Success? ==> r.value in donations && r.value.id == id
    ensures r.Failure? ==> r.error == SingleRowError
  {
    match Single(donations, (d: DonationRef) => d.id == id)
    case Some(d) => Success(d)
    case None => Failure(SingleRowError)
  }

  /** A `donation_id` and a `security_code`, both truthy. */
  predicate HasFields(b: NotifyBody) {
    Present(b.donationId) && Present(b.securityCode)
  }

  const MissingFields := "Missing donation_id or security_code"
  const Headline := "\U{1F4E2} **Nova Doa\U{E7}\U{E3}o!**"

  function RestaurantLine(name: string): string {
    "**Restaurante:** " + name
  }

  // ----- The confirm link ---------------------------------------------------------------

  const ConfirmPath := "/confirm-donation"

  /** Everything of the link before the code; an unset `APP_URL` prints as "undefined". */
  function LinkBase(appUrl: Option<string>): string {
    appUrl.GetOr("undefined") + ConfirmPath + "/"
  }

  function ConfirmLink(appUrl: Option<string>, code: string): (link: string)
    ensures LinkBase(appUrl) <= link && |link| == |LinkBase(appUrl)| + |code|
  {
    LinkBase(appUrl) + code
  }

  /** The route the confirm page reads the code back from. */
  function CodeOfLink(appUrl: Option<string>, link: string): (r: Option<string>)
    ensures r.Some? <==> LinkBase(appUrl) <= link
    ensures r.Some? ==> link == LinkBase(appUrl) + r.value
  {
    if LinkBase(appUrl) <= link then Some(link[|LinkBase(appUrl)|..]) else None
  }

  /** The confirm page recovers exactly the code the link was built from. */
  lemma LinkRoundTrip(appUrl: Option<string>, code: string)
    ensures CodeOfLink(appUrl, ConfirmLink(appUrl, code)) == Some(code)
  {
    assert ConfirmLink(appUrl, code)[|LinkBase(appUrl)|..] == code;
  }

  /** Different codes get different links. */
  lemma LinkInjective(appUrl: Option<string>, c1: string, c2: string)
    requires ConfirmLink(appUrl, c1) == ConfirmLink(appUrl, c2)
    ensures c1 == c2
  {
    LinkRoundTrip(appUrl, c1);
    LinkRoundTrip(appUrl, c2);
  }

  // ----- util_send_notifications ---------------------------------------------------------

  const ConfirmLabel := "**Confira a " + "doa\U{E7}\U{E3}o pelo " + "link e fa\U{E7}a o " + "aceite ou rejeite:** "

  lemma LabelIsOneLine()
    ensures '\n' !in ConfirmLabel
  {
    assert '\n' !in "**Confira a " && '\n' !in "doa\U{E7}\U{E3}o pelo ";
    assert '\n' !in "link e fa\U{E7}a o " && '\n' !in "aceite ou rejeite:** ";
  }

  function ConfirmLines(name: string, link: string): (lines: seq<string>)
    ensures |lines| == 3 && lines[1] == RestaurantLine(name) && EndsWith(lines[2], link)
  {
    [Headline, RestaurantLine(name), ConfirmLabel + link]
  }

  /** The message: the three lines joined by newlines. */
  function ConfirmContent(name: string, link: string): string {
    Join(ConfirmLines(name, link), "\n")
  }

  /** The message ends with the link. */
  lemma ConfirmContentEndsWithLink(name: string, link: string)
    ensures EndsWith(ConfirmContent(name, link), link)
  {
    var lines := ConfirmLines(name, link);
    JoinAround(lines, "\n", 2);
    var c := ConfirmContent(name, link);
    assert c == JoinHead(lines, "\n", 2) + ConfirmLabel + link;
    assert c[|c| - |link|..] == link;
  }

  /** Read line by line, the message is the headline, the restaurant line and the link line. */
  lemma ConfirmContentLines(name: string, link: string)
    requires '\n' !in name && '\n' !in link
    ensures Split(ConfirmContent(name, link), '\n') == [Headline, RestaurantLine(name), ConfirmLabel + link]
  {
    var lines := ConfirmLines(name, link);
    assert '\n' !in lines[0];
    assert '\n' !in lines[1] by { assert lines[1] == "**Restaurante:** " + name; }
    assert '\n' !in lines[2] by {
      LabelIsOneLine();
      assert lines[2] == ConfirmLabel + link;
    }
    SplitJoin(lines, '\n');
  }

  /**
   * The handler. `webhook` is `DISCORD_WEBHOOK_URL`, `appUrl` is `APP_URL`, and `webhookOk`
   * is whether the webhook's reply was ok.
   */
  function UtilSendNotifications(
    body: Result<NotifyBody, string>, webhook: Option<string>, appUrl: Option<string>,
    donations: seq<DonationRef>, restaurants: seq<Named>, webhookOk: bool): (r: Replied<()>)
    ensures body.Failure? ==> r == Replied(Response(400, Text("Invalid JSON")), [])
    ensures body.Success? && !HasFields(body.value) ==> r == Replied(Response(400, Text(MissingFields)), [])
    ensures body.Success? && HasFields(body.value) && !Present(webhook) ==>
      r == Replied(Response(500, Text("Webhook not configured")), [])
    ensures body.Success? && HasFields(body.value) && Present(webhook)
            && DonationById(donations, body.value.donationId.value).Failure? ==>
      r == Replied(Response(404, Text("Donation not found")), [])
    ensures body.Success? && HasFields(body.value) && Present(webhook)
            && DonationById(donations, body.value.donationId.value).Success?
            && SingleNamed(restaurants, DonationById(donations, body.value.donationId.value).value.restaurantId).Failure? ==>
      r == Replied(Response(404, Text("Restaurant not found")), [])
    ensures body.Success? && HasFields(body.value) && Present(webhook)
            && DonationById(donations, body.value.donationId.value).Success?
            && SingleNamed(restaurants, DonationById(donations, body.value.donationId.value).value.restaurantId).Success? ==>
      && var d := DonationById(donations, body.value.donationId.value).value;
         var post := Post(ConfirmContent(SingleNamed(restaurants, d.restaurantId).value.name,
                                         ConfirmLink(appUrl, body.value.securityCode.value)));
         r == Replied(if webhookOk then Response(204, NoBody) else Response(502, Text("Failed to send Discord message")), [post])
    ensures r.effects != [] <==> r.response in {Response(204, NoBody), Response(502, Text("Failed to send Discord message"))}
    ensures r.effects != [] ==>
      && body.Success? && HasFields(body.value) && Present(webhook)
      && DonationById(donations, body.value.donationId.value).Success?
      && var d := DonationById(donations, body.value.donationId.value).value;
         && SingleNamed(restaurants, d.restaurantId).Success?
         && r.effects == [Post(ConfirmContent(SingleNamed(restaurants, d.restaurantId).value.name,
                                              ConfirmLink(appUrl, body.value.securityCode.value)))]
         && (r.response.status == 204 <==> webhookOk)
  {
    if body.Failure? then Replied(Response(400, Text("Invalid JSON")), [])
    else if !HasFields(body.value) then Replied(Response(400, Text(MissingFields)), [])
    else if !Present(webhook) then Replied(Response(500, Text("Webhook not configured")), [])
    else
      match DonationById(donations, body.value.donationId.value)
      case Failure(_) => Replied(Response(404, Text("Donation not found")), [])
      case Success(d) =>
        match SingleNamed(restaurants, d.restaurantId)
        case Failure(_) => Replied(Response(404, Text("Restaurant not found")), [])
        case Success(rest) =>
          var post := Post(ConfirmContent(rest.name, ConfirmLink(appUrl, body.value.securityCode.value)));
          if webhookOk then Replied(Response(204, NoBody), [post])
          else Replied(Response(502, Text("Failed to send Discord message")), [post])
  }

  /** A donation and restaurant on record always lead to the confirm-link post; the reply is 204 exactly when the webhook took it. */
  lemma UtilNotifyPosts(
    id: string, code: string, webhook: string, appUrl: Option<string>,
    donations: seq<DonationRef>, i: nat, restaurants: seq<Named>, webhookOk: bool)
    requires id != "" && code != "" && webhook != ""
    requires i < |donations| && donations[i].id == id
    requires forall j :: 0 <= j < |donations| && j != i ==> donations[j].id != id
    requires SingleNamed(restaurants, donations[i].restaurantId).Success?
    ensures var r := UtilSendNotifications(Success(NotifyBody(Some(id), Some(code))), Some(webhook), appUrl,
                                           donations, restaurants, webhookOk);
            && r.effects == [Post(ConfirmContent(SingleNamed(restaurants, donations[i].restaurantId).value.name,
                                                 ConfirmLink(appUrl, code)))]
            && (r.response == Response(204, NoBody) <==> webhookOk)
  {
    FilterSingleton(donations, (d: DonationRef) => d.id == id, i);
  }

  /** An unset webhook is answered before the tables are read: they cannot change the reply. */
  lemma WebhookCheckedBeforeReads(
    body: Result<NotifyBody, string>, appUrl: Option<string>, appUrl': Option<string>,
    d1: seq<DonationRef>, r1: seq<Named>, d2: seq<DonationRef>, r2: seq<Named>, ok1: bool, ok2: bool)
    ensures UtilSendNotifications(body, None, appUrl, d1, r1, ok1) == UtilSendNotifications(body, None, appUrl', d2, r2, ok2)
  {
  }

  // ----- send_notifications --------------------------------------------------------------

  /** The JSON body each command sends. */
  function CodeJson(code: string): string {
    "{\"security_code\":\"" + code + "\"}"
  }

  /** A `curl` command that calls one of the legacy functions with the code. */
  function Command(function_: string, code: string): (c: string)
    ensures Contains(c, CodeJson(code))
  {
    var before := "curl -X POST http://localhost:54321/functions/v1/" + function_
      + " -H \"apikey: $SUPABASE_ANON_KEY\" -H \"Content-Type: application/json\" -d '";
    ContainsInfix(before, CodeJson(code), "'");
    before + CodeJson(code) + "'"
  }

  const CodeLabel := "**C\U{F3}digo de seguran\U{E7}a:** "

  function CommandLines(name: string, code: string): (lines: seq<string>)
    ensures |lines| == 12
    ensures lines[1] == RestaurantLine(name) && lines[2] == CodeLabel + "`" + code + "`"
    ensures lines[6] == Command("accept_donation", code) && lines[10] == Command("deny_donation", code)
  {
    [ Headline,
      RestaurantLine(name),
      CodeLabel + "`" + code + "`",
      "",
      "**Para aceitar:**",
      "```bash",
      Command("accept_donation", code),
      "```",
      "**Para negar:**",
      "```bash",
      Command("deny_donation", code),
      "```" ]
  }

  function CommandContent(name: string, code: string): string {
    Join(CommandLines(name, code), "\n")
  }

  /** The message shows the code between backticks. */
  lemma CommandContentShowsCode(name: string, code: string)
    ensures Contains(CommandContent(name, code), "`" + code + "`")
  {
    JoinContains(CommandLines(name, code), "\n", 2, CodeLabel, "`" + code + "`", "");
  }

  /** Both the accept and the deny command carry `{"security_code":"<code>"}`. */
  lemma CommandContentCarriesCode(name: string, code: string)
    ensures Contains(CommandContent(name, code), Command("accept_donation", code))
    ensures Contains(CommandContent(name, code), Command("deny_donation", code))
    ensures Contains(Command("accept_donation", code), CodeJson(code))
    ensures Contains(Command("deny_donation", code), CodeJson(code))
  {
    JoinContains(CommandLines(name, code), "\n", 6, "", Command("accept_donation", code), "");
    JoinContains(CommandLines(name, code), "\n", 10, "", Command("deny_donation", code), "");
  }

  /**
   * The older handler. A body that is not JSON, and a post to an unset webhook, throw;
   * a lookup error answers with its own message.
   */
  function SendNotifications(
    req: Request, body: Result<NotifyBody, string>, webhook: Option<string>,
    donations: seq<DonationRef>, restaurants: seq<Named>): (r: Replied<()>)
    ensures req.httpMethod != "POST" ==> r == Replied(Response(405, NoBody), [])
    ensures req.httpMethod == "POST" && body.Failure? ==> r == Replied(Unhandled, [])
    ensures req.httpMethod == "POST" && body.Success? && !HasFields(body.value) ==>
      r == Replied(Response(400, Text(MissingFields)), [])
    ensures req.httpMethod == "POST" && body.Success? && HasFields(body.value) &&
            DonationById(donations, body.value.donationId.value).Failure? ==>
      r == Replied(Response(404, Text(SingleRowError)), [])
    ensures req.httpMethod == "POST" && body.Success? && HasFields(body.value)
            && DonationById(donations, body.value.donationId.value).Success?
            && SingleNamed(restaurants, DonationById(donations, body.value.donationId.value).value.restaurantId).Failure? ==>
      r == Replied(Response(404, Text(SingleRowError)), [])
    ensures req.httpMethod == "POST" && body.Success? && HasFields(body.value)
            && DonationById(donations, body.value.donationId.value).Success?
            && SingleNamed(restaurants, DonationById(donations, body.value.donationId.value).value.restaurantId).Success?
            && !Present(webhook) ==>
      r == Replied(Unhandled, [])
    ensures r.effects != [] ==> r.response == Response(204, NoBody)
    ensures r.response == Response(204, NoBody) ==>
      && req.httpMethod == "POST" && body.Success? && HasFields(body.value) && Present(webhook)
      && DonationById(donations, body.value.donationId.value).Success?
      && var d := DonationById(donations, body.value.donationId.value).value;
         && SingleNamed(restaurants, d.restaurantId).Success?
         && r.effects == [Post(CommandContent(SingleNamed(restaurants, d.restaurantId).value.name, body.value.securityCode.value))]
  {
    if req.httpMethod != "POST" then Replied(Response(405, NoBody), [])
    else if body.Failure? then Replied(Unhandled, [])
    else if !HasFields(body.value) then Replied(Response(400, Text(MissingFields)), [])
    else
      match DonationById(donations, body.value.donationId.value)
      case Failure(e) => Replied(Response(404, Text(if e != "" then e else "Donation not found")), [])
      case Success(d) =>
        match SingleNamed(restaurants, d.restaurantId)
        case Failure(e) => Replied(Response(404, Text(if e != "" then e else "Restaurant not found")), [])
        case Success(rest) =>
          if !Present(webhook) then Replied(Unhandled, [])
          else Replied(Response(204, NoBody), [Post(CommandContent(rest.name, body.value.securityCode.value))])
  }

  /** A donation and restaurant on record always lead to the post and a 204. */
  lemma SendAnswers204(
    req: Request, id: string, code: string, webhook: string,
    donations: seq<DonationRef>, i: nat, restaurants: seq<Named>)
    requires req.httpMethod == "POST" && id != "" && code != "" && webhook != ""
    requires i < |donations| && donations[i].id == id
    requires forall j :: 0 <= j < |donations| && j != i ==> donations[j].id != id
    requires SingleNamed(restaurants, donations[i].restaurantId).Success?
    ensures SendNotifications(req, Success(NotifyBody(Some(id), Some(code))), Some(webhook), donations, restaurants).response
            == Response(204, NoBody)
  {
    FilterSingleton(donations, (d: DonationRef) => d.id == id, i);
  }
}

=== FILE: partnerships.dfy ===
/**
 * Restaurant-OSC partnerships and the favourite flag: `cf_update_favorite`,
 * `cf_create_partnership`, and the foreign-key error wording of the latter.
 * The `partnerships` table is a sequence of rows keyed by (restaurant, OSC); its writes
 * are taken to succeed, since the handlers never look at their results.
 */
module Partnerships {

  import opened Base
  import opened Text
  import opened Http

  datatype Partnership = Partnership(restaurantId: string, oscId: string, isFavorite: bool)

  predicate SameKey(a: Partnership, b: Partnership) {
    a.restaurantId == b.restaurantId && a.oscId == b.oscId
  }

  /** The `(restaurant_id, osc_id)` conflict target is a key of the table. */
  predicate UniquePairs(t: seq<Partnership>) {
    forall i, j :: 0 <= i < j < |t| ==> !SameKey(t[i], t[j])
  }

  /** The favourites of restaurant `r`, in table order. */
  function Favourites(t: seq<Partnership>, r: string): (f: seq<Partnership>)
    ensures forall k :: 0 <= k < |f| ==> f[k] in t && f[k].restaurantId == r && f[k].isFavorite
  {
    Filter(t, (p: Partnership) => p.restaurantId == r && p.isFavorite)
  }

  /** `.select("*").eq("restaurant_id", r)`. */
  function OfRestaurant(t: seq<Partnership>, r: string): (f: seq<Partnership>)
    ensures forall k :: 0 <= k < |f| ==> f[k] in t && f[k].restaurantId == r
    ensures forall k :: 0 <= k < |t| && t[k].restaurantId == r ==> t[k] in f
  {
    Filter(t, (p: Partnership) => p.restaurantId == r)
  }

  // ----- The two writes ----------------------------------------------------------------

  /** `.update({ is_favorite: false }).eq("restaurant_id", r)`. */
  function ClearFavorites(t: seq<Partnership>, r: string): (t': seq<Partnership>)
    ensures |t'| == |t|
    ensures forall i :: 0 <= i < |t| ==>
      t'[i] == (if t[i].restaurantId == r then t[i].(isFavorite := false) else t[i])
  {
    seq(|t|, i requires 0 <= i < |t| => if t[i].restaurantId == r then t[i].(isFavorite := false) else t[i])
  }

  /** The position of the first row with `p`'s key, if any. */
  function KeyIndex(t: seq<Partnership>, p: Partnership): (r: Option<nat>)
    ensures r.Some? ==> r.value < |t| && SameKey(t[r.value], p)
    ensures r.Some? ==> forall k :: 0 <= k < r.value ==> !SameKey(t[k], p)
    ensures r.None? ==> forall k :: 0 <= k < |t| ==> !SameKey(t[k], p)
    decreases |t|
  {
    if t == [] then None
    else if SameKey(t[0], p) then Some(0)
    else
      match KeyIndex(t[1..], p)
      case None => None
      case Some(k) => Some(k + 1)
  }

  /** `.upsert([p], { onConflict: "restaurant_id,osc_id" })`: overwrite the row with that key, else append. */
  function Upsert(t: seq<Partnership>, p: Partnership): (t': seq<Partnership>)
    ensures KeyIndex(t, p).Some? ==> t' == t[KeyIndex(t, p).value := p]
    ensures KeyIndex(t, p).None? ==> t' == t + [p]
  {
    match KeyIndex(t, p)
    case Some(i) => t[i := p]
    case None => t + [p]
  }

  lemma ClearKeepsKeys(t: seq<Partnership>, r: string)
    requires UniquePairs(t)
    ensures UniquePairs(ClearFavorites(t, r))
  {
    var t' := ClearFavorites(t, r);
    forall i, j | 0 <= i < j < |t'|
      ensures !SameKey(t'[i], t'[j])
    {
      assert SameKey(t'[i], t[i]) && SameKey(t'[j], t[j]);
    }
  }

  /** The upsert never creates a second row for a key. */
  lemma UpsertKeepsKeys(t: seq<Partnership>, p: Partnership)
    requires UniquePairs(t)
    ensures UniquePairs(Upsert(t, p))
  {
  }

  /** After the upsert the table holds `p` itself. */
  lemma UpsertHolds(t: seq<Partnership>, p: Partnership)
    ensures p in Upsert(t, p)
  {
    match KeyIndex(t, p)
    case Some(i) => assert Upsert(t, p)[i] == p;
    case None => assert Upsert(t, p)[|t|] == p;
  }

  // ----- Setting a favourite -------------------------------------------------------------

  /** `cf_update_favorite`'s writes: clear `r`'s favourites, then upsert `(r, o, true)`. */
  function SetFavorite(t: seq<Partnership>, r: string, o: string): (t': seq<Partnership>)
    ensures |t| <= |t'| <= |t| + 1
  {
    Upsert(ClearFavorites(t, r), Partnership(r, o, true))
  }

  /** Afterwards `r` has exactly one favourite, and it is `o`. */
  lemma SetFavoriteExactlyOne(t: seq<Partnership>, r: string, o: string)
    ensures Favourites(SetFavorite(t, r, o), r) == [Partnership(r, o, true)]
  {
    var c := ClearFavorites(t, r);
    var p := Partnership(r, o, true);
    var t' := SetFavorite(t, r, o);
    var keep := (q: Partnership) => q.restaurantId == r && q.isFavorite;
    match KeyIndex(c, p)
    case Some(i) =>
      assert t' == c[i := p];
      FilterSingleton(t', keep, i);
    case None =>
      assert t' == c + [p];
      FilterSingleton(t', keep, |c|);
  }

  /** Rows of other restaurants keep their place and content. */
  lemma SetFavoriteOthersUnchanged(t: seq<Partnership>, r: string, o: string)
    ensures var t' := SetFavorite(t, r, o);
            forall i :: 0 <= i < |t| && t[i].restaurantId != r ==> t'[i] == t[i]
  {
  }

  /** `r`'s other partnerships stay, no longer favourite. */
  lemma SetFavoriteKeepsOthersOfRestaurant(t: seq<Partnership>, r: string, o: string)
    ensures var t' := SetFavorite(t, r, o);
            forall i :: 0 <= i < |t| && t[i].restaurantId == r && t[i].oscId != o ==>
              t'[i] == t[i].(isFavorite := false)
  {
  }

  lemma SetFavoriteKeepsKeys(t: seq<Partnership>, r: string, o: string)
    requires UniquePairs(t)
    ensures UniquePairs(SetFavorite(t, r, o))
  {
    ClearKeepsKeys(t, r);
    UpsertKeepsKeys(ClearFavorites(t, r), Partnership(r, o, true));
  }

  /** The body `{ restaurant_id, osc_id }` of `cf_update_favorite`. */
  datatype PairBody = PairBody(restaurantId: Option<string>, oscId: Option<string>)

  /** A reply with the partnerships table it leaves behind. */
  datatype Written<+T> = Written(response: Response<T>, table: seq<Partnership>)

  /**
   * `cf_update_favorite`: preflight, method, JWT, `is_cf`, then the body, where invalid
   * JSON counts as `{}`. `isCf` is what the `is_cf` RPC answered.
   */
  function CfUpdateFavorite(req: Request, isCf: bool, body: Result<PairBody, string>, t: seq<Partnership>): (w: Written<()>)
    ensures req.httpMethod == "OPTIONS" ==> w == Written(Response(204, NoBody), t)
    ensures req.httpMethod != "OPTIONS" && req.httpMethod != "POST" ==> w == Written(Response(405, NoBody), t)
    ensures req.httpMethod == "POST" && Jwt(req.authorization).None? ==> w == Written(Response(401, Text("Auth required")), t)
    ensures req.httpMethod == "POST" && Jwt(req.authorization).Some? && !isCf ==> w == Written(Response(403, Text("Forbidden")), t)
    ensures req.httpMethod == "POST" && Jwt(req.authorization).Some? && isCf && body.Failure? ==>
      w == Written(Response(400, Text("Missing fields")), t)
    ensures req.httpMethod == "POST" && Jwt(req.authorization).Some? && isCf && body.Success?
            && (!Present(body.value.restaurantId) || !Present(body.value.oscId)) ==>
      w == Written(Response(400, Text("Missing fields")), t)
    ensures req.httpMethod == "POST" && Jwt(req.authorization).Some? && isCf && body.Success?
            && Present(body.value.restaurantId) && Present(body.value.oscId) ==>
      w == Written(Response(204, NoBody), SetFavorite(t, body.value.restaurantId.value, body.value.oscId.value))
    ensures w.table != t ==>
      && body.Success? && Present(body.value.restaurantId) && Present(body.value.oscId)
      && w == Written(Response(204, NoBody), SetFavorite(t, body.value.restaurantId.value, body.value.oscId.value))
    ensures w.response == Response(204, NoBody) && req.httpMethod == "POST" ==>
      body.Success? && Present(body.value.restaurantId) && Present(body.value.oscId)
      && w.table == SetFavorite(t, body.value.restaurantId.value, body.value.oscId.value)
  {
    if req.httpMethod == "OPTIONS" then Written(Response(204, NoBody), t)
    else if req.httpMethod != "POST" then Written(Response(405, NoBody), t)
    else if Jwt(req.authorization).None? then Written(Response(401, Text("Auth required")), t)
    else if !isCf then Written(Response(403, Text("Forbidden")), t)
    else
      var fields := if body.Success? then body.value else PairBody(None, None);
      if !Present(fields.restaurantId) || !Present(fields.oscId) then Written(Response(400, Text("Missing fields")), t)
      else Written(Response(204, NoBody), SetFavorite(t, fields.restaurantId.value, fields.oscId.value))
  }

  // ----- Creating a partnership --------------------------------------------------------

  /** The body `{ restaurant_id, osc_id, is_favorite = false }`. */
  datatype PartnershipBody = PartnershipBody(restaurantId: Option<string>, oscId: Option<string>, isFavorite: Option<bool>)

  /** The writes of `cf_create_partnership`: clear only when the new row is the favourite, then upsert. */
  function CreatePartnership(t: seq<Partnership>, r: string, o: string, favorite: bool): (t': seq<Partnership>)
    ensures favorite ==> t' == SetFavorite(t, r, o)
    ensures Partnership(r, o, favorite) in t'
  {
    var cleared := if favorite then ClearFavorites(t, r) else t;
    UpsertHolds(cleared, Partnership(r, o, favorite));
    Upsert(cleared, Partnership(r, o, favorite))
  }

  /** Without the flag the other rows of `r`, favourites included, stay; the pair itself ends non-favourite. */
  lemma CreateNonFavouriteKeepsOthers(t: seq<Partnership>, r: string, o: string)
    requires UniquePairs(t)
    ensures var t' := CreatePartnership(t, r, o, false);
            && (forall i :: 0 <= i < |t| && !(t[i].restaurantId == r && t[i].oscId == o) ==> t'[i] == t[i])
            && Partnership(r, o, true) !in t'
  {
    var p := Partnership(r, o, false);
    var t' := CreatePartnership(t, r, o, false);
    UpsertKeepsKeys(t, p);
    UpsertHolds(t, p);
    if Partnership(r, o, true) in t' {
      var i :| 0 <= i < |t'| && t'[i] == Partnership(r, o, true);
      var j :| 0 <= j < |t'| && t'[j] == p;
      assert SameKey(t'[i], t'[j]) && i != j;
      assert false;
    }
  }

  lemma CreateKeepsKeys(t: seq<Partnership>, r: string, o: string, favorite: bool)
    requires UniquePairs(t)
    ensures UniquePairs(CreatePartnership(t, r, o, favorite))
  {
    if favorite {
      SetFavoriteKeepsKeys(t, r, o);
    } else {
      UpsertKeepsKeys(t, Partnership(r, o, false));
    }
  }

  /**
   * `cf_create_partnership` with the client authorised by the caller's JWT. A body that is
   * not JSON escapes the handler. `isCf` is what the `is_cf` RPC answered.
   */
  function CfCreatePartnership(req: Request, isCf: bool, body: Result<PartnershipBody, string>, t: seq<Partnership>): (w: Written<seq<Partnership>>)
    ensures req.httpMethod == "OPTIONS" ==> w == Written(Response(204, NoBody), t)
    ensures req.httpMethod != "OPTIONS" && req.httpMethod != "POST" ==> w == Written(Response(405, NoBody), t)
    ensures req.httpMethod == "POST" && Jwt(req.authorization).None? ==> w == Written(Response(401, Text("Auth required")), t)
    ensures req.httpMethod == "POST" && Jwt(req.authorization).Some? && !isCf ==> w == Written(Response(403, Text("Forbidden")), t)
    ensures req.httpMethod == "POST" && Jwt(req.authorization).Some? && isCf && body.Failure? ==> w == Written(Unhandled, t)
    ensures req.httpMethod == "POST" && body.Success? && (!Present(body.value.restaurantId) || !Present(body.value.oscId)) ==>
      w.table == t && (w.response.Response? ==> w.response.status != 200)
    ensures req.httpMethod == "POST" && Jwt(req.authorization).Some? && isCf && body.Success?
            && (!Present(body.value.restaurantId) || !Present(body.value.oscId)) ==>
      w == Written(Response(400, Text("Missing restaurant_id or osc_id")), t)
    ensures req.httpMethod == "POST" && Jwt(req.authorization).Some? && isCf && body.Success?
            && Present(body.value.restaurantId) && Present(body.value.oscId) ==>
      && var r := body.value.restaurantId.value;
         var t' := CreatePartnership(t, r, body.value.oscId.value, body.value.isFavorite.GetOr(false));
         w == Written(Response(200, Json(OfRestaurant(t', r))), t')
    ensures w.response.Response? && w.response.status == 200 ==>
      && body.Success? && Present(body.value.restaurantId) && Present(body.value.oscId)
      && var r := body.value.restaurantId.value;
         && w.table == CreatePartnership(t, r, body.value.oscId.value, body.value.isFavorite.GetOr(false))
         && w.response.body == Json(OfRestaurant(w.table, r))
  {
    if req.httpMethod == "OPTIONS" then Written(Response(204, NoBody), t)
    else if req.httpMethod != "POST" then Written(Response(405, NoBody), t)
    else if Jwt(req.authorization).None? then Written(Response(401, Text("Auth required")), t)
    else if !isCf then Written(Response(403, Text("Forbidden")), t)
    else if body.Failure? then Written(Unhandled, t)
    else if !Present(body.value.restaurantId) || !Present(body.value.oscId) then
      Written(Response(400, Text("Missing restaurant_id or osc_id")), t)
    else
      var r := body.value.restaurantId.value;
      var t' := CreatePartnership(t, r, body.value.oscId.value, body.value.isFavorite.GetOr(false));
      Written(Response(200, Json(OfRestaurant(t', r))), t')
  }

  /**
   * `cf_create_partnership` as written: `supa.auth.setAuth` does not exist in version 2
   * of the client library, so every request that gets past the JWT check throws.
   */
  function CfCreatePartnershipAsWritten(req: Request, t: seq<Partnership>): (w: Written<seq<Partnership>>)
    ensures w.table == t
    ensures req.httpMethod == "POST" && Jwt(req.authorization).Some? ==> w.response == Unhandled
  {
    if req.httpMethod == "OPTIONS" then Written(Response(204, NoBody), t)
    else if req.httpMethod != "POST" then Written(Response(405, NoBody), t)
    else if Jwt(req.authorization).None? then Written(Response(401, Text("Auth required")), t)
    else Written(Unhandled, t)
  }

  /** As written the handler never creates anything; the corrected one does for a valid request. */
  lemma SetAuthBlocksCreation(req: Request, r: string, o: string, t: seq<Partnership>)
    requires req.httpMethod == "POST" && Jwt(req.authorization).Some? && r != "" && o != ""
    ensures CfCreatePartnershipAsWritten(req, t).response == Unhandled
    ensures CfCreatePartnership(req, true, Success(PartnershipBody(Some(r), Some(o), None)), t).response.status == 200
  {
  }

  /** The two versions agree on every request the written one answers. */
  lemma CreateAgreesBeforeSetAuth(req: Request, isCf: bool, body: Result<PartnershipBody, string>, t: seq<Partnership>)
    requires CfCreatePartnershipAsWritten(req, t).response != Unhandled
    ensures CfCreatePartnership(req, isCf, body, t) == CfCreatePartnershipAsWritten(req, t)
  {
  }

  // ----- Foreign-key errors -------------------------------------------------------------

  /** The catch block of `cf_create_partnership`: an FK violation names the missing side. */
  function WriteErrorReply(code: string, message: string): (r: Response<seq<Partnership>>)
    ensures r.Response? && (code == "23503" <==> r.status == 404)
    ensures code == "23503" && Contains(message, "restaurant_id") ==> r.body == Text("Restaurante n\U{E3}o encontrado")
    ensures code == "23503" && !Contains(message, "restaurant_id") && Contains(message, "osc_id") ==>
      r.body == Text("OSC n\U{E3}o encontrada")
    ensures code == "23503" && !Contains(message, "restaurant_id") && !Contains(message, "osc_id") ==>
      r.body == Text("Entidade inexistente")
    ensures code != "23503" ==> r == Response(400, Text(message))
  {
    if code == "23503" then
      Response(404, Text(
        if Contains(message, "restaurant_id") then "Restaurante n\U{E3}o encontrado"
        else if Contains(message, "osc_id") then "OSC n\U{E3}o encontrada"
        else "Entidade inexistente"))
    else Response(400, Text(message))
  }

  /** A PostgreSQL FK message names its constraint, which decides the wording. */
  lemma FkMessageWording(a: string, b: string)
    requires !Contains(a + "osc_id" + b, "restaurant_id")
    ensures WriteErrorReply("23503", a + "restaurant_id" + b).body == Text("Restaurante n\U{E3}o encontrado")
    ensures WriteErrorReply("23503", a + "osc_id" + b).body == Text("OSC n\U{E3}o encontrada")
  {
    ContainsInfix(a, "restaurant_id", b);
    ContainsInfix(a, "osc_id", b);
  }
}

=== FILE: text.dfy ===
/**
 * String operations the handlers rely on, written over `string` (a sequence of
 * Unicode scalar values): the `\D` filter, JavaScript's `trim`, ASCII case
 * folding, substring search and replacement, joining and splitting lines, and
 * decimal rendering of naturals.
 */
module Text {

  import opened Base

  /** `[0-9]`, which is also what `\d` means in a JavaScript regular expression. */
  predicate IsDigit(c: char) {
    '0' <= c <= '9'
  }

  /** The characters a JavaScript `.` refuses to match. */
  predicate IsLineTerminator(c: char) {
    c == '\n' || c == '\r' || c == '\U{2028}' || c == '\U{2029}'
  }

  /** WhiteSpace and LineTerminator of ECMAScript: what `String.prototype.trim` removes. */
  predicate IsSpace(c: char) {
    || c == '\t' || c == '\U{B}' || c == '\U{C}' || c == ' ' || c == '\U{A0}' || c == '\U{FEFF}'
    || c == '\U{1680}' || ('\U{2000}' <= c <= '\U{200A}') || c == '\U{202F}' || c == '\U{205F}'
    || c == '\U{3000}' || IsLineTerminator(c)
  }

  predicate AllDigits(s: string) {
    forall i :: 0 <= i < |s| ==> IsDigit(s[i])
  }

  /** `s.replace(/\D/g, "")`: the decimal digits of `s`, in order. */
  function Digits(s: string): (r: string)
    ensures |r| <= |s|
    ensures AllDigits(r)
    ensures AllDigits(s) ==> r == s
  {
    if s == [] then []
    else (if IsDigit(s[0]) then [s[0]] else []) + Digits(s[1..])
  }

  lemma {:induction false} DigitsConcat(a: string, b: string)
    ensures Digits(a + b) == Digits(a) + Digits(b)
    decreases |a|
  {
    if a == [] {
      assert a + b == b;
    } else {
      assert (a + b)[1..] == a[1..] + b;
      DigitsConcat(a[1..], b);
    }
  }

  /** Removing non-digits twice removes nothing more. */
  lemma DigitsIdempotent(s: string)
    ensures Digits(Digits(s)) == Digits(s)
  {
  }

  function DigitChar(d: int): (c: char)
    requires 0 <= d <= 9
    ensures IsDigit(c) && DigitValue(c) == d
  {
    (('0' as int) + d) as char
  }

  function DigitValue(c: char): (d: int)
    requires IsDigit(c)
    ensures 0 <= d <= 9
  {
    c as int - '0' as int
  }

  /** Drops the longest prefix of characters satisfying `strip`. */
  function DropWhile(s: string, strip: char -> bool): (r: string)
    ensures |r| <= |s| && r == s[|s| - |r|..]
    ensures r == [] || !strip(r[0])
    ensures forall i :: 0 <= i < |s| - |r| ==> strip(s[i])
    decreases |s|
  {
    if s != [] && strip(s[0]) then DropWhile(s[1..], strip) else s
  }

  /** Drops the longest suffix of characters satisfying `strip`. */
  function DropWhileEnd(s: string, strip: char -> bool): (r: string)
    ensures |r| <= |s| && r == s[..|r|]
    ensures r == [] || !strip(r[|r| - 1])
    ensures forall i :: |r| <= i < |s| ==> strip(s[i])
    decreases |s|
  {
    if s != [] && strip(s[|s| - 1]) then DropWhileEnd(s[..|s| - 1], strip) else s
  }

  predicate IsTrimmed(s: string) {
    s == [] || (!IsSpace(s[0]) && !IsSpace(s[|s| - 1]))
  }

  /** `String.prototype.trim`. */
  function Trim(s: string): (r: string)
    ensures |r| <= |s|
    ensures IsTrimmed(r)
    ensures r == [] <==> forall i :: 0 <= i < |s| ==> IsSpace(s[i])
    ensures IsTrimmed(s) ==> r == s
  {
    var front := DropWhile(s, IsSpace);
    DropWhileEnd(front, IsSpace)
  }

  function LowerChar(c: char): char {
    if 'A' <= c <= 'Z' then (c as int + 32) as char else c
  }

  /** `toLowerCase` restricted to the ASCII letters. */
  function ToLower(s: string): (r: string)
    ensures |r| == |s|
    ensures forall i :: 0 <= i < |s| ==> r[i] == LowerChar(s[i])
  {
    seq(|s|, i requires 0 <= i < |s| => LowerChar(s[i]))
  }

  predicate HasNoUpper(s: string) {
    forall i :: 0 <= i < |s| ==> !('A' <= s[i] <= 'Z')
  }

  predicate EndsWith(s: string, suffix: string) {
    |suffix| <= |s| && s[|s| - |suffix|..] == suffix
  }

  /** `s.includes(t)`. */
  predicate Contains(s: string, t: string)
    decreases |s|
  {
    t <= s || (s != [] && Contains(s[1..], t))
  }

  lemma {:induction false} ContainsInfix(a: string, t: string, b: string)
    ensures Contains(a + t + b, t)
    decreases |a|
  {
    if a == [] {
      assert a + t + b == t + b;
      assert t <= t + b;
    } else {
      assert (a + t + b)[1..] == a[1..] + t + b;
      ContainsInfix(a[1..], t, b);
    }
  }

  /** The index of the first occurrence of `t` in `s`, as `indexOf` finds it. */
  function IndexOf(s: string, t: string): (r: Option<nat>)
    ensures r.Some? ==> r.value + |t| <= |s| && s[r.value..r.value + |t|] == t
    ensures r.Some? ==> forall j :: 0 <= j < r.value ==> !(t <= s[j..])
    ensures r.None? <==> !Contains(s, t)
    decreases |s|
  {
    if t <= s then Some(0)
    else if s == [] then None
    else match IndexOf(s[1..], t)
      case None => None
      case Some(i) =>
        assert forall j :: 1 <= j <= i ==> s[j..] == s[1..][j - 1..];
        Some(i + 1)
  }

  /** `s.replace(t, u)` with a string pattern: only the first occurrence is replaced. */
  function ReplaceFirst(s: string, t: string, u: string): (r: string)
    ensures !Contains(s, t) ==> r == s
  {
    match IndexOf(s, t)
    case None => s
    case Some(i) => s[..i] + u + s[i + |t|..]
  }

  lemma {:induction false} IndexOfBeforeSeparator(a: string, c: char, b: string)
    requires c !in a
    ensures IndexOf(a + [c] + b, [c]) == Some(|a|)
    decreases |a|
  {
    var s := a + [c] + b;
    if a == [] {
      assert [c] <= s;
    } else {
      assert !([c] <= s) by { assert s[0] == a[0]; }
      assert s[1..] == a[1..] + [c] + b;
      IndexOfBeforeSeparator(a[1..], c, b);
    }
  }

  /** `parts.join(sep)`. */
  function Join(parts: seq<string>, sep: string): string
    decreases |parts|
  {
    if |parts| == 0 then ""
    else if |parts| == 1 then parts[0]
    else parts[0] + sep + Join(parts[1..], sep)
  }

  /** What `Join` puts before part `k`: the earlier parts and a separator. */
  function JoinHead(parts: seq<string>, sep: string, k: nat): string
    requires k <= |parts|
  {
    if k == 0 then "" else Join(parts[..k], sep) + sep
  }

  /** What `Join` puts after part `k`: a separator and the later parts. */
  function JoinTail(parts: seq<string>, sep: string, k: nat): string
    requires k < |parts|
  {
    if k == |parts| - 1 then "" else sep + Join(parts[k + 1..], sep)
  }

  /** Every part sits in the joined text between what comes before and after it. */
  lemma {:induction false} JoinAround(parts: seq<string>, sep: string, k: nat)
    requires k < |parts|
    ensures Join(parts, sep) == JoinHead(parts, sep, k) + parts[k] + JoinTail(parts, sep, k)
    decreases k
  {
    if k > 0 {
      var rest := parts[1..];
      JoinAround(rest, sep, k - 1);
      assert rest[k - 1] == parts[k];
      if k < |parts| - 1 {
        assert rest[k..] == parts[k + 1..];
      }
      if k > 1 {
        assert parts[..k][1..] == rest[..k - 1];
        assert parts[..k][0] == parts[0];
      } else {
        assert parts[..k] == [parts[0]];
      }
    }
  }

  /** Whatever a part contains, the joined text contains. */
  lemma JoinContains(parts: seq<string>, sep: string, k: nat, before: string, t: string, after: string)
    requires k < |parts| && parts[k] == before + t + after
    ensures Contains(Join(parts, sep), t)
  {
    JoinAround(parts, sep, k);
    var head := JoinHead(parts, sep, k);
    var tail := JoinTail(parts, sep, k);
    assert Join(parts, sep) == (head + before) + t + (after + tail);
    ContainsInfix(head + before, t, after + tail);
  }

  /** `s.split(sep)` for a one-character separator. */
  function Split(s: string, sep: char): (r: seq<string>)
    ensures |r| >= 1
    decreases |s|
  {
    match IndexOf(s, [sep])
    case None => [s]
    case Some(i) => [s[..i]] + Split(s[i + 1..], sep)
  }

  lemma {:induction false} NoSeparatorNoIndex(s: string, c: char)
    requires c !in s
    ensures !Contains(s, [c]) && IndexOf(s, [c]) == None
    decreases |s|
  {
    if s != [] {
      assert s[0] != c;
      NoSeparatorNoIndex(s[1..], c);
    }
  }

  lemma SplitAtSeparator(s: string, sep: char, i: nat)
    requires IndexOf(s, [sep]) == Some(i)
    ensures Split(s, sep) == [s[..i]] + Split(s[i + 1..], sep)
  {
  }

  /** Splitting a joined text on a separator none of the parts contains gives the parts back. */
  lemma {:induction false} SplitJoin(parts: seq<string>, sep: char)
    requires |parts| >= 1
    requires forall k :: 0 <= k < |parts| ==> sep !in parts[k]
    ensures Split(Join(parts, [sep]), sep) == parts
    decreases |parts|
  {
    if |parts| == 1 {
      assert Join(parts, [sep]) == parts[0];
      NoSeparatorNoIndex(parts[0], sep);
    } else {
      var head := parts[0];
      var rest := Join(parts[1..], [sep]);
      var s := head + [sep] + rest;
      assert Join(parts, [sep]) == s;
      IndexOfBeforeSeparator(head, sep, rest);
      SplitAtSeparator(s, sep, |head|);
      assert s[..|head|] == head;
      assert s[|head| + 1..] == rest;
      SplitJoin(parts[1..], sep);
      assert parts == [head] + parts[1..];
    }
  }

  /** Decimal rendering of a natural number, as `String(n)` or a template literal prints it. */
  function NatToString(n: nat): (r: string)
    ensures |r| >= 1 && AllDigits(r)
    ensures r[0] == '0' ==> n == 0
    decreases n
  {
    if n < 10 then [DigitChar(n)] else NatToString(n / 10) + [DigitChar(n % 10)]
  }

  /** The value of a string of decimal digits. */
  function ParseNat(s: string): nat
    requires AllDigits(s)
    decreases |s|
  {
    if s == [] then 0 else ParseNat(s[..|s| - 1]) * 10 + DigitValue(s[|s| - 1])
  }

  lemma {:induction false} ParseNatToString(n: nat)
    ensures ParseNat(NatToString(n)) == n
    decreases n
  {
    if n >= 10 {
      var s := NatToString(n);
      assert s[..|s| - 1] == NatToString(n / 10);
      ParseNatToString(n / 10);
    }
  }

  /** The first `n` characters, clamped as `slice(0, n)` clamps. */
  function Prefix(s: string, n: nat): (r: string)
    ensures |r| == if |s| < n then |s| else n
    ensures r <= s
  {
    if |s| <= n then s else s[..n]
  }

  /** The elements of `s` satisfying `keep`, in order. */
  function Filter<T>(s: seq<T>, keep: T -> bool): (r: seq<T>)
    ensures |r| <= |s|
    ensures forall i :: 0 <= i < |r| ==> r[i] in s && keep(r[i])
    ensures forall i :: 0 <= i < |s| && keep(s[i]) ==> s[i] in r
    decreases |s|
  {
    if s == [] then []
    else (if keep(s[0]) then [s[0]] else []) + Filter(s[1..], keep)
  }

  /** The one element satisfying `keep`, when there is exactly one: what `.single()` reads. */
  function Single<T>(s: seq<T>, keep: T -> bool): (r: Option<T>)
    ensures r.Some? <==> |Filter(s, keep)| == 1
    ensures r.Some? ==> r.value in s && keep(r.value)
  {
    var hits := Filter(s, keep);
    if |hits| == 1 then Some(hits[0]) else None
  }

  lemma {:induction false} FilterSingleton<T>(s: seq<T>, keep: T -> bool, i: nat)
    requires i < |s| && keep(s[i])
    requires forall j :: 0 <= j < |s| && j != i ==> !keep(s[j])
    ensures Filter(s, keep) == [s[i]]
    decreases |s|
  {
    if i == 0 {
      FilterNone(s[1..], keep);
    } else {
      FilterSingleton(s[1..], keep, i - 1);
    }
  }

  /** Filtering keeps order: a concatenation filters piecewise. */
  lemma {:induction false} FilterConcat<T>(a: seq<T>, b: seq<T>, keep: T -> bool)
    ensures Filter(a + b, keep) == Filter(a, keep) + Filter(b, keep)
    decreases |a|
  {
    if a != [] {
      assert (a + b)[1..] == a[1..] + b;
      FilterConcat(a[1..], b, keep);
    } else {
      assert a + b == b;
    }
  }

  lemma {:induction false} FilterNone<T>(s: seq<T>, keep: T -> bool)
    requires forall j :: 0 <= j < |s| ==> !keep(s[j])
    ensures Filter(s, keep) == []
    decreases |s|
  {
    if s != [] {
      FilterNone(s[1..], keep);
    }
  }
}
